=== FILE: README.md ===
# Tennis prediction engine: a Dafny model

This project models the deterministic core of a tennis match-prediction
service, written in Java:

- the per-player history engine: a capped result log, per-surface logs and
  records, a decay-weighted form, surface ratings and their reliability;
- the history manager that feeds each match result into both players'
  histories and both directions of their head-to-head record;
- the calibrator: a ranking prior refined in five stages, clamped to
  [0.05, 0.95], plus the adaptive ELO update and the offline metrics
  (Brier score, log loss, binned calibration error);
- the pure data routines: CSV field extraction, feature encoding, the
  training-matrix preparation (labels, imputation, row-major flattening)
  and the serve-statistic ratios;
- the small decision rules: favourite selection, the odds helpers of the
  scraper (de-duplication, sorting, implied probability, expected value,
  bet choice, estimated players) and the calibration test bench's
  statistics.

Java `double`s are Dafny `real`s. `Math.log`, `exp`, `tanh`, `pow(10, x)`
and `sqrt` are fields of `Analysis.Transcendentals`, a parameter whose
`Sound` predicate states the facts the proofs use (positivity,
monotonicity, oddness, `exp(x)·exp(-x) = 1`). Java `null` is `Option.None`.
Exceptions are `Result.Failure`. Java `int` is `JavaNum.Int32`, with
wrap-around written out where the code can overflow.

Modules, one per source class or concern:

- `Optional`, `JavaNum`, `Analysis`, `Text`: shared helpers;
- `Domain`: Player, Match and MatchContext;
- `Records`: SurfaceRecord and HeadToHeadRecord;
- `History`: PlayerHistory;
- `HistoryManager`: PlayerHistoryManager;
- `Metrics`: CalibrationMetrics;
- `Calibrator`: TennisModelCalibrator;
- `Stats`: MatchStats;
- `Prediction`: MatchPrediction;
- `Loader`: TennisDataLoader;
- `Features`: FeatureExtractor;
- `Training`: TrainingDataPreparer;
- `Odds`: the TennisOddsScraper helpers;
- `Tester`: CalibrationTester.

## Model

| member | source | states |
|---|---|---|
| Records.NewSurfaceRecordIsEmpty | Java/src/main/java/SurfaceRecord.java:2-3 | A new surface record (`NewSurfaceRecord`) is valid, has no matches and no wins, and has win rate 0.5. |
| Records.AddSurfaceMatch | Java/src/main/java/SurfaceRecord.java:5-8 | One more match always. One more win and unchanged losses when won. Unchanged wins and one more loss otherwise. Validity (wins ≤ matches) is kept. |
| Records.SurfaceLosses | Java/src/main/java/SurfaceRecord.java:16 | Losses plus wins equal matches. Losses are non-negative on a valid record. |
| Records.SurfaceWinRate | Java/src/main/java/SurfaceRecord.java:10-12 | 0.5 with no matches. Otherwise rate·matches = wins, a fraction on a valid record. |
| Records.ReplaySurfaceCounts | Java/src/main/java/SurfaceRecord.java:5-8 | A record fed a sequence of results counts exactly that many matches and as many wins as there were wins in it, and stays valid. |
| Records.CountTrue | Java/src/main/java/SurfaceRecord.java:7 | The number of wins never exceeds the number of results. |
| Records.NewHeadToHeadIsEmpty | Java/src/main/java/HeadToHeadRecord.java:2-3 | A new head-to-head record (`NewHeadToHead`) has no wins, no losses, total 0 and win rate 0.5. |
| Records.AddHeadToHeadMatch | Java/src/main/java/HeadToHeadRecord.java:5-8 | The total grows by one. A win increments only wins and a loss only losses. |
| Records.HeadToHeadWinRate | Java/src/main/java/HeadToHeadRecord.java:10-13 | Always in [0, 1]. 0.5 with no meetings, otherwise rate·total = wins. |
| Records.HeadToHeadRateComplement | Java/src/main/java/HeadToHeadRecord.java:10-17 | Two records that mirror each other (one side's wins are the other's losses) have win rates adding up to 1. |
| Records.ThreeToOneIsThreeQuarters | Java/src/main/java/HeadToHeadRecord.java:10-13 | Three wins and one loss give 0.75; one win and three losses give 0.25. |
| History.NormalizeSurface | Java/src/main/java/PlayerHistory.java:31-33 | The surface key is never empty: a given non-empty name is kept, and a missing or empty one becomes "Hard". |
| History.FreshIsEmpty | Java/src/main/java/PlayerHistory.java:16-28 | A new history is valid and has an empty log, an empty log on every surface and an empty record on every surface. |
| History.AddMatch | Java/src/main/java/PlayerHistory.java:30-53 | The record of the normalised surface counts the result. Every other surface's log and record are unchanged. The ratings are unchanged. |
| History.AddMatchWindows | Java/src/main/java/PlayerHistory.java:30-53 | On a valid history, adding a result keeps validity. The global log becomes the latest 500 of old log plus result. The surface log becomes the latest 250 of old surface log plus result. |
| History.Last | Java/src/main/java/PlayerHistory.java:45-52 | The kept window has length min(n, size) and holds the newest entries in their original order. |
| History.ReplayValid | Java/src/main/java/PlayerHistory.java:30-53 | After any sequence of results the history is valid, its log is exactly the latest 500 results in insertion order, and the ratings are those of a new history. |
| History.ReplayOn | Java/src/main/java/PlayerHistory.java:38-52 | After any sequence of results, a surface log holds the latest 250 results on that surface. Its record counts every result ever played there, trimmed or not. |
| History.Results | Java/src/main/java/PlayerHistory.java:35-36 | Each recorded call contributes exactly one result. |
| History.DecayBounds | Java/src/main/java/PlayerHistory.java:64-78 | Weighted wins lie between 0 and the total weight. The total weight is positive for a non-empty window. All wins give the full weight and all losses give 0. |
| History.WindowSize | Java/src/main/java/PlayerHistory.java:62-63 | The window never exceeds the log, and it is non-empty when n > 0 and the log is non-empty. |
| History.WeightedForm | Java/src/main/java/PlayerHistory.java:58-79 | Form is in [0, 1]. It is 0.5 for an empty log or n ≤ 0. It is 1 when every result in the window is a win and 0 when every one is a loss. |
| History.ComputeWeightedForm | Java/src/main/java/PlayerHistory.java:58-79 | The loop walking back from the newest entry with weight 0.95^i computes exactly the recency-weighted form. |
| History.UpdateSurfaceElo | Java/src/main/java/PlayerHistory.java:127-132 | The normalised surface's rating becomes exactly the given value, unclamped. Every surface with another normalised name keeps its rating. Logs and records are unchanged. |
| History.ResetEloRatings | Java/src/main/java/PlayerHistory.java:213-215 | Every rating reads 1500 afterwards. The set of rated surfaces and all logs and records are unchanged. |
| History.SurfaceEloReliability | Java/src/main/java/PlayerHistory.java:159-168 | In [0, 1]. It is 0 for a missing surface or an empty log. It is n/50 for 0 < n < 50 results and 1 from 50 on. |
| History.ReliabilityMonotone | Java/src/main/java/PlayerHistory.java:30-53 | Adding a result never lowers its surface's reliability and leaves every other surface's reliability unchanged. |
| History.CountWins | Java/src/main/java/PlayerHistory.java:183-185 | The win count never exceeds the number of results. |
| History.TotalsBounded | Java/src/main/java/PlayerHistory.java:179-185 | On a valid history, total wins ≤ total matches ≤ 500. |
| History.SurfaceMatchesIsCappedRecord | Java/src/main/java/PlayerHistory.java:187-201 | The surface log's size is the surface record's match count capped at 250, and surface wins never exceed surface matches. |
| History.RecentMatches | Java/src/main/java/PlayerHistory.java:220-225 | Empty log gives an empty list. A count ≥ 0 gives the latest min(count, size) results in order. A negative count puts the start index past the end, so `subList` throws IllegalArgumentException, unless size − count wraps past the int range, which returns the whole log. |
| History.DaySerial | Java/src/main/java/PlayerHistory.java:262-266 | The 365/30/1 serial of an int date stays well inside the int range, so the day difference cannot overflow. |
| History.DaysSince | Java/src/main/java/PlayerHistory.java:258-267 | 0 when either date is missing. Otherwise the difference of the two serials, an int. |
| History.DaysSinceAntisymmetric | Java/src/main/java/PlayerHistory.java:258-267 | Swapping the dates negates the result, and a date is 0 days from itself. |
| History.DaysSinceChain | Java/src/main/java/PlayerHistory.java:258-267 | Day differences add up along a chain: a→b plus b→c is a→c. |
| History.DaysSinceOrdered | Java/src/main/java/PlayerHistory.java:258-267 | For calendar dates a ≤ b as YYYYMMDD numbers, the result is never negative. |
| History.DateParts | Java/src/main/java/PlayerHistory.java:262-266 | A positive YYYYMMDD value splits into year, month and day fields that recompose it, and its serial is 365·year + 30·month + day. |
| History.FreshDefaults | Java/src/main/java/PlayerHistory.java:16-28 | A new history has recent form and surface form 0.5, rating 1500 on any surface, reliability 0, and no matches or wins. |
| History.RecentForm | Java/src/main/java/PlayerHistory.java:58-79 | In [0, 1]. 0.5 for an empty log or a non-positive count. 1 when every result in the window of the newest min(n, size) is a win, 0 when every one is a loss. |
| History.SurfaceForm | Java/src/main/java/PlayerHistory.java:84-112 | The same bounds and extremes on the log of the surface, with a null or empty surface read as "Hard". 0.5 when that surface has no results. |
| History.SurfaceElo | Java/src/main/java/PlayerHistory.java:117-122 | A null or empty surface reads the "Hard" rating. A stored surface reads its rating, and an unrated one reads 1500. |
| History.TotalMatches | Java/src/main/java/PlayerHistory.java:179-181 | On a valid history, at most 500 matches are counted, because the log keeps only the latest 500. |
| History.TotalWins | Java/src/main/java/PlayerHistory.java:183-185 | At most the number of matches. It equals that number exactly when every logged result is a win, and is 0 exactly when every one is a loss. |
| History.CountWinsExtremes | Java/src/main/java/PlayerHistory.java:183-185 | A log has as many wins as results exactly when all are wins, and no wins exactly when all are losses. |
| History.SurfaceMatches | Java/src/main/java/PlayerHistory.java:187-190 | 0 for a null surface. On a valid history, the surface record's match count capped at 250, the size of that surface's log. |
| History.SurfaceWins | Java/src/main/java/PlayerHistory.java:192-197 | 0 for a null surface, and never more than the surface's match count. |
| HistoryManager.UpdateHeadToHeadAt | Java/src/main/java/PlayerHistoryManager.java:37-41 | The ordered pair's record, created if missing, counts one more result for player 1. Every other ordered pair's record is unchanged. |
| HistoryManager.GetPlayerHistory | Java/src/main/java/PlayerHistoryManager.java:25-27 | Null exactly for a player never seen. Otherwise the stored history. |
| HistoryManager.GetHeadToHeadRecord | Java/src/main/java/PlayerHistoryManager.java:29-31 | Null exactly for an ordered pair that never met. Otherwise that pair's record. (a, b) and (b, a) are separate keys. |
| HistoryManager.UpdateHeadToHead | Java/src/main/java/PlayerHistoryManager.java:37-41 | The pair's record exists afterwards. It holds one more match than before (a new record counting as empty), with one more win exactly when player 1 won. Every other ordered pair keeps its record or its absence. |
| HistoryManager.UpdateWithMatch | Java/src/main/java/PlayerHistoryManager.java:11-23 | For distinct players, the winner's history gains a win and the loser's a loss, with the match surface and date, and each is created if missing. (w, l) gains a win and (l, w) a loss. Every other player's history and every other pair's record reads as before. |
| HistoryManager.CountMeetingEffect | Java/src/main/java/PlayerHistoryManager.java:21-22 | For distinct players, (w, l) gains a win and (l, w) gains a loss, and no other record changes. A self-match puts both on the same record. |
| HistoryManager.CountMeetingAt | Java/src/main/java/PlayerHistoryManager.java:21-22 | After one meeting, the pair (w, l) gains a win and (l, w) a loss. A self-match pair gains both. Every other ordered pair keeps its record or its absence. |
| HistoryManager.Ingest1Effect | Java/src/main/java/PlayerHistoryManager.java:11-23 | An ingest leaves every other player's history and every other pair's record unchanged. Both players end with a history. |
| HistoryManager.DuplicateIngestCountsTwice | Java/src/main/java/PlayerHistoryManager.java:11-23 | Ingesting the same match twice adds two wins to the winner's record against the loser: there is no de-duplication. |
| HistoryManager.Reset | Java/src/main/java/PlayerHistoryManager.java:43-46 | After reset every history lookup and every head-to-head lookup is absent. |
| HistoryManager.CountMeetingKeepsMirrored | Java/src/main/java/PlayerHistoryManager.java:21-22 | Counting both directions of a meeting keeps every (a, b) record the mirror of (b, a). |
| HistoryManager.UpdateKeepsMirrored | Java/src/main/java/PlayerHistoryManager.java:11-23 | Every ingest of a match with ids keeps the registry mirrored. |
| HistoryManager.MirroredTotals | Java/src/main/java/PlayerHistoryManager.java:29-31 | In a mirrored registry (a, b) is recorded iff (b, a) is. Then H2H(a,b).wins = H2H(b,a).losses and the two totals are equal. |
| HistoryManager.IngestStep | Java/src/main/java/PlayerHistoryManager.java:11-23 | Ingesting one more match is one more application of the update to the registry of the earlier matches. |
| HistoryManager.IngestHeadToHead | Java/src/main/java/PlayerHistoryManager.java:21-22 | After any sequence of matches, (a, b) is absent if they never met and otherwise holds a's wins over b and b's wins over a. |
| HistoryManager.IngestCountsMeetings | Java/src/main/java/PlayerHistoryManager.java:21-22 | The head-to-head map after ingesting a sequence equals the map obtained by counting its meetings alone. |
| HistoryManager.CountAllTallies | Java/src/main/java/PlayerHistoryManager.java:37-41 | Counting the meetings of a sequence tallies, for each ordered pair, the wins of each side. |
| HistoryManager.RecordResultExtends | Java/src/main/java/PlayerHistoryManager.java:17-18 | Recording a result for one player extends that player's replayed history by one outcome and leaves everyone else's as it was. |
| HistoryManager.Ingest1History | Java/src/main/java/PlayerHistoryManager.java:17-18 | One ingest extends the winner's replay by a win and the loser's by a loss, both with the match surface and date. |
| HistoryManager.IngestHistory | Java/src/main/java/PlayerHistoryManager.java:11-35 | After any sequence of matches, a player's history is absent if they played none of them. Otherwise it is exactly the replay of their own results, in order. |
| HistoryManager.IngestMirrored | Java/src/main/java/PlayerHistoryManager.java:11-23 | Any sequence of matches with ids leaves the registry mirrored. |
| Analysis.Sigmoid | Java/src/main/java/TennisModelCalibrator.java:84 | The logistic function lies in (0, 1), is 0.5 at 0, and lies above 0.5 exactly for positive arguments. |
| Analysis.SigmoidComplement | Java/src/main/java/TennisModelCalibrator.java:84 | sigmoid(x) + sigmoid(−x) = 1. |
| Analysis.EloExpectation | Java/src/main/java/TennisModelCalibrator.java:106 | The rating expectation 1/(1 + 10^(−d/400)) lies in (0, 1) and is 0.5 for equal ratings. |
| Analysis.EloExpectationComplement | Java/src/main/java/TennisModelCalibrator.java:106 | The two players' expectations add up to 1. |
| Calibrator.EffectiveRank | Java/src/main/java/TennisModelCalibrator.java:71-76 | A positive rank is kept, and a missing or non-positive one counts as 500. |
| Calibrator.Blend | Java/src/main/java/TennisModelCalibrator.java:108-111 | With a weight in [0, 1] the blend lies between its two inputs. It equals the first input at weight 0 and the second at weight 1. |
| Calibrator.BlendComplement | Java/src/main/java/TennisModelCalibrator.java:108-111 | Blending complements gives the complement of the blend. |
| Calibrator.HistoryOf | Java/src/main/java/TennisModelCalibrator.java:243-249 | No id means no history. Otherwise the manager's lookup. |
| Calibrator.RecordBetween | Java/src/main/java/TennisModelCalibrator.java:146-151 | Absent when either id is missing. Otherwise the manager's record of the ordered pair. |
| Calibrator.RankingPrior | Java/src/main/java/TennisModelCalibrator.java:70-85 | The prior lies in (0, 1). It is 0.5 for equal effective ranks and above 0.5 exactly when player 1 has the smaller rank number. |
| Calibrator.RankingPriorComplement | Java/src/main/java/TennisModelCalibrator.java:70-85 | Exchanging the players gives the complementary prior. |
| Calibrator.SurfaceWeight | Java/src/main/java/TennisModelCalibrator.java:32-39 | Every surface weight lies in [0.15, 0.195]. |
| Calibrator.SurfaceWeightTable | Java/src/main/java/TennisModelCalibrator.java:32-39 | Hard 0.15, Clay 0.18, Grass 0.195 and Carpet 0.165 (the table's factor × 0.15). A surface outside the table, such as Indoor, gets 0.15. |
| Calibrator.SurfaceExpectation | Java/src/main/java/TennisModelCalibrator.java:99-106 | The surface-rating expectation lies in (0, 1) and is 0.5 for equal ratings on the (defaulted) surface. |
| Calibrator.SurfaceExpectationComplement | Java/src/main/java/TennisModelCalibrator.java:99-106 | Exchanging the histories gives the complementary expectation. |
| Calibrator.SurfaceStage | Java/src/main/java/TennisModelCalibrator.java:90-113 | Input unchanged when either history is missing. Otherwise it lies between the input and the surface expectation, and it stays in (0, 1). |
| Calibrator.SurfaceStageComplement | Java/src/main/java/TennisModelCalibrator.java:90-113 | Seen from the other side, the stage maps the complement to the complement. |
| Calibrator.CombinedForm | Java/src/main/java/TennisModelCalibrator.java:127-130 | 0.7·recent + 0.3·surface form is in [0, 1]. |
| Calibrator.FormAdjustment | Java/src/main/java/TennisModelCalibrator.java:132-138 | The adjustment has magnitude at most 0.1, the sign of the form difference, and is 0 for equal form. |
| Calibrator.FormAdjustmentOdd | Java/src/main/java/TennisModelCalibrator.java:132-138 | Negating the form difference negates the adjustment. |
| Calibrator.FormStage | Java/src/main/java/TennisModelCalibrator.java:118-141 | Input unchanged when either history is missing. Otherwise the result is clamped to [0.05, 0.95] and, from an input in that range, moves at most 0.1. |
| Calibrator.FormStageComplement | Java/src/main/java/TennisModelCalibrator.java:118-141 | Seen from the other side, the stage maps the complement to the complement. |
| Calibrator.SurfaceFormComplement | Java/src/main/java/TennisModelCalibrator.java:90-141 | Seen from the other side, the surface stage followed by the form stage maps the complementary prior to the complementary probability. |
| Calibrator.HeadToHeadWeight | Java/src/main/java/TennisModelCalibrator.java:157-158 | Weight 0 for no meetings and strictly between 0 and 1 otherwise. |
| Calibrator.HeadToHeadWeightRises | Java/src/main/java/TennisModelCalibrator.java:157-158 | Below ten meetings, one more meeting never lowers the weight. |
| Calibrator.HeadToHeadWeightFalls | Java/src/main/java/TennisModelCalibrator.java:157-158 | From ten meetings on, one more meeting never raises the weight. |
| Calibrator.HeadToHeadWeightPeaksAtTen | Java/src/main/java/TennisModelCalibrator.java:157-158 | No rivalry weighs more than one of exactly ten meetings. |
| Calibrator.HeadToHeadStage | Java/src/main/java/TennisModelCalibrator.java:146-164 | Input unchanged with no record or an empty one. Otherwise it lies between the input and the head-to-head rate, and it moves whenever the two differ. |
| Calibrator.HeadToHeadStageComplement | Java/src/main/java/TennisModelCalibrator.java:146-164 | With the mirrored record, the stage maps the complement to the complement. |
| Calibrator.TournamentStage | Java/src/main/java/TennisModelCalibrator.java:169-187 | Result − bias − 0.5 = stretch·(p − 0.5). The bias is 0.02 only at a Grand Slam ("G"); the stretch is 1.1 only in a semi-final or final. |
| Calibrator.TournamentStageComplement | Java/src/main/java/TennisModelCalibrator.java:169-187 | Outside Grand Slams the stage maps the complement to the complement. At a Grand Slam the two sides' results add up to 1.04. |
| Calibrator.LateStagesComplement | Java/src/main/java/TennisModelCalibrator.java:146-187 | With the mirrored record and outside Grand Slams, the head-to-head stage followed by the tournament stage maps the complement to the complement. |
| Calibrator.StagesComplement | Java/src/main/java/TennisModelCalibrator.java:44-65 | Outside Grand Slams, running all stages from the other side (swapped histories, mirrored record) gives the complementary probability. |
| Calibrator.Stages | Java/src/main/java/TennisModelCalibrator.java:47-61 | `Unclamped` runs `Stages` on the registry's histories and record. Without histories on both sides and without a past meeting, only the ranking prior and the tournament adjustment act. The unclamped result always lies in [−0.05, 1.07], so the final clamp is needed. |
| Calibrator.CalibratedPrediction | Java/src/main/java/TennisModelCalibrator.java:44-65 | Every calibrated prediction lies in [0.05, 0.95]. |
| Calibrator.UnknownEqualsAreEven | Java/src/main/java/TennisModelCalibrator.java:44-65 | Two id-less players of equal effective rank, outside Grand Slams and late rounds, get exactly 0.5. |
| Calibrator.PredictionsComplement | Java/src/main/java/TennisModelCalibrator.java:44-65 | In a mirrored registry and outside Grand Slams, the predictions for winner and loser add up to 1. |
| Calibrator.KFactor | Java/src/main/java/TennisModelCalibrator.java:226-241 | K lies in [20, 38.4]. It is at most 24 for a top-50 player and at least 32 otherwise. A missing rank counts as 500. |
| Calibrator.KFactorOrdering | Java/src/main/java/TennisModelCalibrator.java:226-241 | A top-50 player has a smaller K than a lower-ranked one at the same event. K is ordered Grand Slam > Masters > other. |
| Calibrator.RatedElo | Java/src/main/java/TennisModelCalibrator.java:210-214 | The new rating lies in [1000, 2500]. From a rating in that range with K ≥ 0, it moves with the sign of score − expected. |
| Calibrator.NewRatings | Java/src/main/java/TennisModelCalibrator.java:192-221 | Both new ratings lie in [1000, 2500]. |
| Calibrator.UpdatePlayerElo | Java/src/main/java/TennisModelCalibrator.java:192-221 | Nothing changes when an id or a history is missing. Head-to-head records and the set of players are never changed. |
| Calibrator.UpdatePlayerEloEffect | Java/src/main/java/TennisModelCalibrator.java:192-221 | The two players' ratings on the match surface become the new ratings. Nothing else in any history changes. |
| Calibrator.EloUpdateDirection | Java/src/main/java/TennisModelCalibrator.java:192-221 | From ratings inside [1000, 2500], the winner's rating never falls and the loser's never rises. |
| Calibrator.EloUpdateZeroSum | Java/src/main/java/TennisModelCalibrator.java:210-214 | With equal K and no clamping, the winner gains what the loser loses. |
| Calibrator.WinnerPredictions | Java/src/main/java/TennisModelCalibrator.java:251-262 | One prediction per match, each in [0.05, 0.95]. |
| Calibrator.AllWins | Java/src/main/java/TennisModelCalibrator.java:256-259 | The validation outcomes are all wins, one per match. |
| Calibrator.ValidateCalibration | Java/src/main/java/TennisModelCalibrator.java:251-264 | With no matches, Brier and log loss are undefined (NaN). Otherwise the Brier score lies in [0.0025, 0.9025]. The calibration error is always in [0, 1]. |
| Calibrator.ConfidentWinsBrier | Java/src/main/java/TennisModelCalibrator.java:278-286 | Predictions in [0.05, 0.95] scored against wins have a Brier score in [0.05², 0.95²]. |
| Calibrator.ConfidentWinsBounds | Java/src/main/java/TennisModelCalibrator.java:278-286 | The summed squared errors of such predictions lie in [0.0025·n, 0.9025·n]. |
| Metrics.SquaredErrors | Java/src/main/java/TennisModelCalibrator.java:278-286 | The sum of squared errors is non-negative, and at most n for probabilities. |
| Metrics.BrierScore | Java/src/main/java/TennisModelCalibrator.java:278-286 | Undefined exactly for no predictions. Otherwise non-negative, and at most 1 for probabilities. |
| Metrics.ComputeBrierScore | Java/src/main/java/TennisModelCalibrator.java:278-286 | The accumulating loop computes the Brier score. |
| Metrics.BrierOfCoinFlips | Java/src/main/java/TennisModelCalibrator.java:278-286 | Predicting 0.5 everywhere gives squared errors summing to n/4. |
| Metrics.CoinFlipBrierScore | Java/src/main/java/TennisModelCalibrator.java:278-286 | Predicting 0.5 everywhere scores exactly 0.25. |
| Metrics.PerfectForecastScoresZero | Java/src/main/java/TennisModelCalibrator.java:278-286 | Predicting each outcome with certainty gives squared errors summing to 0. |
| Metrics.ClipProbability | Java/src/main/java/TennisModelCalibrator.java:291 | The clipped value lies in [1e-15, 1 − 1e-15] and equals the input inside that range. |
| Metrics.LogLossTerm | Java/src/main/java/TennisModelCalibrator.java:292-293 | The cross-entropy of a clipped prediction is positive. |
| Metrics.LogLossSum | Java/src/main/java/TennisModelCalibrator.java:288-296 | The summed cross-entropy is positive for n > 0 and 0 for n = 0. |
| Metrics.LogLoss | Java/src/main/java/TennisModelCalibrator.java:288-296 | Undefined exactly for no predictions, otherwise positive. |
| Metrics.BinCount | Java/src/main/java/TennisModelCalibrator.java:302-307 | A bin holds at most the number of predictions counted. |
| Metrics.OccupiedBins | Java/src/main/java/TennisModelCalibrator.java:302-307 | The occupied bins are distinct, and a bin is listed iff some prediction falls in it. |
| Metrics.CalibrationError | Java/src/main/java/TennisModelCalibrator.java:298-324 | 0 for no predictions. Always non-negative, and at most 1 for probabilities. |
| Metrics.BinGapBounded | Java/src/main/java/TennisModelCalibrator.java:309-321 | A bin's summed gap between prediction and outcome is at most its size. |
| Metrics.TotalErrorBounded | Java/src/main/java/TennisModelCalibrator.java:309-321 | The summed absolute bin gaps are non-negative and at most the summed bin sizes. |
| Metrics.BinsPartitionSamples | Java/src/main/java/TennisModelCalibrator.java:302-321 | Every prediction is in exactly one occupied bin: the bin sizes add up to N. |
| Metrics.CalibrationErrorIsMeanGap | Java/src/main/java/TennisModelCalibrator.java:309-323 | With predictions, the error is (1/N)·Σ_bins \|Σ_{i in bin} (p_i − y_i)\|. |
| Metrics.ComputeMetrics | Java/src/main/java/TennisModelCalibrator.java:272-276 | The three metrics are the Brier score, the log loss and the calibration error of the same lists. |
| Stats.Ratio | Java/src/main/java/MatchStats.java:38-67 | Present iff the numerator is present and the denominator present and positive. Then ratio·den = num, a fraction when 0 ≤ num ≤ den. |
| Stats.FirstServePercentage | Java/src/main/java/MatchStats.java:38-41 | Present iff serve points are present and positive and first serves in are present. Then ratio·servePoints = firstServeIn, a fraction when the count is at most the total. |
| Stats.FirstServeWinPercentage | Java/src/main/java/MatchStats.java:43-46 | Present iff first serves in are present and positive and first-serve wins are present. Then ratio·firstServeIn = firstServeWon, a fraction when wins do not exceed serves in. |
| Stats.AceRate | Java/src/main/java/MatchStats.java:54-57 | Present iff serve points are present and positive and aces are present. Then rate·servePoints = aces, a fraction when aces do not exceed serve points. |
| Stats.DoubleFaultRate | Java/src/main/java/MatchStats.java:59-62 | Present iff serve points are present and positive and double faults are present. Then rate·servePoints = doubleFaults, a fraction when they do not exceed serve points. |
| Stats.BreakPointSavePercentage | Java/src/main/java/MatchStats.java:64-67 | Present iff break points faced are present and positive and saves are present. Then ratio·faced = saved, a fraction when saves do not exceed the points faced. |
| Stats.DirectRatiosGuarded | Java/src/main/java/MatchStats.java:38-67 | Each of the five direct ratios is present exactly under its own guard (positive denominator, present numerator). |
| Stats.SecondServeWinPercentageWrapped | Java/src/main/java/MatchStats.java:48-52 | As written: present only with the three counts, and only when the wrapped int difference servePoints − firstServeIn is positive. |
| Stats.SecondServeWrapCounterexample | Java/src/main/java/MatchStats.java:48-52 | servePoints = Integer.MIN_VALUE with one first serve in: the real difference is negative, yet the as-written ratio is present, while the corrected one is absent. |
| Stats.SecondServeWinPercentage | Java/src/main/java/MatchStats.java:48-52 | Present iff the three counts are present and the true difference is positive. Then ratio·difference = secondServeWon. |
| Stats.SecondServeAgreesOnRealisticCounts | Java/src/main/java/MatchStats.java:48-52 | With non-negative counts the corrected and as-written definitions agree. |
| Prediction.Player2WinProbability | Java/src/main/java/MatchPrediction.java:18 | The two players' probabilities add up to 1. |
| Prediction.Favorite | Java/src/main/java/MatchPrediction.java:20-22 | Player 1 exactly when p1 > 0.5; at exactly 0.5, player 2. |
| Prediction.FavoriteProbability | Java/src/main/java/MatchPrediction.java:24-26 | At least 0.5, at least each side's probability, and equal to one of them. |
| Prediction.FavoriteProbabilityIsFavoritesChance | Java/src/main/java/MatchPrediction.java:18-26 | The favourite probability is the win probability of the player `Favorite` names. |
| Prediction.MirrorKeepsFavorite | Java/src/main/java/MatchPrediction.java:17-26 | Told from the other side, the favourite probability is the same, and so is the favourite unless p1 = 0.5. Mirroring twice is the identity. |
| Text.Split | Java/src/main/java/TennisDataLoader.java:16 | A split always has at least one piece, and no piece holds a comma. |
| Text.JoinSplit | Java/src/main/java/TennisDataLoader.java:16 | Joining the pieces with commas gives the line back. |
| Text.SplitCount | Java/src/main/java/TennisDataLoader.java:16 | A line with n commas splits into n + 1 pieces, trailing empty pieces kept. |
| Text.SplitJoin | Java/src/main/java/TennisDataLoader.java:16 | Splitting a comma-join of comma-free pieces gives the pieces back. |
| Text.Join | Java/src/main/java/TennisDataLoader.java:16 | The inverse of the split: comma-free pieces are joined into a line with exactly one comma fewer than there are pieces. |
| Text.TrimStartDropsSpaces | Java/src/main/java/TennisDataLoader.java:135 | The leading trim is a suffix of the string, preceded only by spaces and not starting with one. |
| Text.TrimEndDropsSpaces | Java/src/main/java/TennisDataLoader.java:135 | The trailing trim is a prefix of the string, followed only by spaces and not ending with one. |
| Text.TrimIsMiddleSlice | Java/src/main/java/TennisDataLoader.java:135 | The trim is a middle slice with only spaces around it and no space at either of its own ends. |
| Text.TrimIdempotent | Java/src/main/java/TennisDataLoader.java:135 | Trimming twice trims nothing more. |
| Text.TrimOfTrimmed | Java/src/main/java/TennisDataLoader.java:135 | A string without a space at either end is its own trim. |
| Text.Trim | Java/src/main/java/TennisDataLoader.java:35 | Never longer than the input, with no character ≤ U+0020 at either end. Empty exactly when every character of the input is one. |
| Text.ParseInt | Java/src/main/java/TennisDataLoader.java:140-148 | A value is returned exactly when the string is digits, or '+' or '-' followed by digits, and the signed value fits in an `int` (leading zeros allowed). That value is the digits' decimal value, negated after '-'. Anything else is null. |
| Text.ParseExamples | Java/src/main/java/TennisDataLoader.java:140-148 | "+5" parses to 5, "007" to 7 and "-12" to −12, while "-12a" is null. |
| Text.FormatNat | Java/src/main/java/CalibrationTester.java:164-165 | The decimal text of a natural number: non-empty digits with that value and no leading zero. |
| Text.FormatInt | Java/src/main/java/CalibrationTester.java:164-165 | The text of an int is non-empty and starts with '-' exactly when the int is negative. |
| Text.ParseFormat | Java/src/main/java/TennisDataLoader.java:140-148 | Parsing the text of any int gives it back. |
| Text.ParseRejectsOverflow | Java/src/main/java/TennisDataLoader.java:140-148 | Digit strings beyond the int range parse to null, not a wrapped value. |
| Text.ParseRejectsEmpty | Java/src/main/java/TennisDataLoader.java:140-148 | "", "-" and "+" parse to null. |
| Loader.ColumnIndexCoversHeaders | Java/src/main/java/TennisDataLoader.java:32-38 | Every trimmed header name is in the index. |
| Loader.ColumnIndexPointsAtName | Java/src/main/java/TennisDataLoader.java:32-38 | Every indexed name sits at an in-range position whose trimmed header is that name. |
| Loader.ColumnIndexIsLastPosition | Java/src/main/java/TennisDataLoader.java:32-38 | No later header has the same name: a duplicate keeps its last position. |
| Loader.IndexOfDistinctNames | Java/src/main/java/TennisDataLoader.java:32-38 | With distinct, trimmed names, each is indexed at its own position. |
| Loader.CreateColumnIndex | Java/src/main/java/TennisDataLoader.java:32-38 | Every indexed position lies within the header. The last header's trimmed name is indexed at the last position. |
| Loader.ParsePlayer | Java/src/main/java/TennisDataLoader.java:56-81 | A row too short to reach any indexed column gives a player with every field null. A known id is the trimmed, non-blank field of the `<prefix>id` column, and a known rank is the parse of the `<prefix>rank` field. |
| Loader.ParseStats | Java/src/main/java/TennisDataLoader.java:84-107 | A row too short to reach any indexed column gives statistics with every count null. A known serve-point count is the parse of the `<prefix>svpt` field. |
| Loader.GetValue | Java/src/main/java/TennisDataLoader.java:133-138 | Present iff the column is known, within the row and not blank. Then it is the trimmed field. |
| Loader.GetIntegerValue | Java/src/main/java/TennisDataLoader.java:140-148 | Null for a missing field, otherwise the parse of the field (null when unparseable). It never fails. |
| Loader.GetDoubleValue | Java/src/main/java/TennisDataLoader.java:150-158 | Null for a missing field, otherwise the double parser's result on it. |
| Loader.ParseMatch | Java/src/main/java/TennisDataLoader.java:40-131 | Both statistics are always present. The winner comes from the `winner_` columns and the loser from the `loser_` columns. |
| Loader.ShortRowGivesNulls | Java/src/main/java/TennisDataLoader.java:55-107 | A row too short for every known column gives a match of nulls with empty players and statistics, not an error. |
| Loader.LoadMatches | Java/src/main/java/TennisDataLoader.java:9-29 | An empty file gives no matches. Otherwise one match per data line, in order, each parsed against the header's index. |
| Loader.MapLines | Java/src/main/java/TennisDataLoader.java:19-25 | The read loop yields one result per line, in line order, each the line passed through the parser. |
| Loader.ReadBackField | Java/src/main/java/TennisDataLoader.java:12-38 | Writing clean, distinct headers and a row of clean fields as comma lines and reading them back recovers every field under its name. |
| Features.AddFeature | Java/src/main/java/FeatureExtractor.java:70-73 | One value and one name are appended together. Equal lengths are kept and earlier entries stay put. |
| Features.AddAllZip | Java/src/main/java/FeatureExtractor.java:70-73 | Appending named features one by one extends the values by exactly the values and the names by exactly the names. |
| Features.Encode | Java/src/main/java/FeatureExtractor.java:175-198 | A key has a code iff it is in the table. |
| Features.EncodeDecode | Java/src/main/java/FeatureExtractor.java:8-22 | In a table of distinct keys, every key's code is its position, and the position decodes back to the key. |
| Features.TablesDistinct | Java/src/main/java/FeatureExtractor.java:8-22 | The five encoding tables list distinct keys. |
| Features.CodesArePositions | Java/src/main/java/FeatureExtractor.java:8-22 | Hard..Carpet → 0..3, G..D → 0..5, R128..F → 0..6, R/L/U → 0..2, Q/WC/LL/SE/"" → 0..4. |
| Features.SafeDouble | Java/src/main/java/FeatureExtractor.java:200-202 | Present iff the int is present, with the same value. |
| Features.TournamentValues | Java/src/main/java/FeatureExtractor.java:37-45 | One value per tournament feature name. |
| Features.DateValues | Java/src/main/java/FeatureExtractor.java:75-89 | Three NaNs for a missing or non-positive date. Otherwise three present fields. |
| Features.DateFieldsRecompose | Java/src/main/java/FeatureExtractor.java:76-83 | The year, month and day features recompose the date (10000·y + 100·m + d), with month and day below 100. |
| Features.HistoryValues | Java/src/main/java/FeatureExtractor.java:101-118 | Six values. A player with no history gets 0.5, 0.5, 0.5, 1500, 0, 0.5. |
| Features.HistoryValuesBounded | Java/src/main/java/FeatureExtractor.java:101-118 | Forms and career win rate are fractions, and the match count is at most 500. |
| Features.EmptyHistoryLooksNew | Java/src/main/java/FeatureExtractor.java:101-118 | A history with no results gives the same features as no history. |
| Features.PlayerNames | Java/src/main/java/FeatureExtractor.java:91-119 | Thirteen player feature names. |
| Features.PlayerValues | Java/src/main/java/FeatureExtractor.java:91-119 | Thirteen player feature values. |
| Features.HeadToHeadValues | Java/src/main/java/FeatureExtractor.java:121-130 | Two values: a win rate in [0, 1] and a non-negative meeting count. |
| Features.HeadToHeadValuesMirror | Java/src/main/java/FeatureExtractor.java:121-130 | In a mirrored registry the two players see the same meeting count and complementary win rates. |
| Features.StatsNames | Java/src/main/java/FeatureExtractor.java:132-152 | Eight statistics names per side. |
| Features.StatsValues | Java/src/main/java/FeatureExtractor.java:132-152 | Eight values per side. Aces and double faults are present iff their counts are. The second-serve ratio is present iff the three counts are present and the true difference is positive, and it equals the as-written getter on non-negative counts. |
| Features.RankingValues | Java/src/main/java/FeatureExtractor.java:154-171 | The rank ratio is present iff both ranks are present and positive. Otherwise all three ranking features are NaN. |
| Features.RankQualityPositive | Java/src/main/java/FeatureExtractor.java:165 | The rank quality is present exactly when the ratio is, and then positive. |
| Features.RankDiffSign | Java/src/main/java/FeatureExtractor.java:157 | Below Integer.MAX_VALUE the log difference is positive iff player 1 has the smaller rank, 0 iff equal, and swapping the ranks negates it. |
| Features.RankAtIntMaxWraps | Java/src/main/java/FeatureExtractor.java:157-161 | At rank Integer.MAX_VALUE, rank + 1 wraps: the log difference is NaN and the ratio negative. |
| Features.Layout | Java/src/main/java/FeatureExtractor.java:31-68 | 55 names with statistics for both sides, 39 otherwise. |
| Features.FeatureValues | Java/src/main/java/FeatureExtractor.java:31-68 | One value per layout name. |
| Features.ExtractFeatures | Java/src/main/java/FeatureExtractor.java:31-73 | Fails exactly when a lookup meets a null key. Otherwise the names are the fixed layout and the values are the feature values, added pairwise as `addFeature` does. |
| Features.StatsLayout | Java/src/main/java/FeatureExtractor.java:59-62 | The statistics block has 16 names when both sides have statistics and none otherwise. |
| Features.StatsBlock | Java/src/main/java/FeatureExtractor.java:59-62 | The statistics values have one entry per statistics name, so they are absent exactly when the names are. |
| Features.StatsEntriesAreZip | Java/src/main/java/FeatureExtractor.java:59-62 | The statistics features added for the two players are the statistics names paired with their values. |
| Features.EntriesAreLayout | Java/src/main/java/FeatureExtractor.java:40-65 | The name/value pairs in the order the extractor adds them are the layout paired with the feature values: each name gets the value computed for it. |
| Features.AddAllFromEmpty | Java/src/main/java/FeatureExtractor.java:70-73 | Adding name/value pairs one by one to an empty vector gives the vector of those names and values. |
| Features.EntriesBuildVector | Java/src/main/java/FeatureExtractor.java:37-67 | Adding the extractor's pairs one by one builds the vector of the layout and the feature values. |
| Features.LayoutGroups | Java/src/main/java/FeatureExtractor.java:40-65 | The layout is the tournament, date, two player, head-to-head, optional statistics and ranking name groups, at fixed positions. |
| Features.ValueGroups | Java/src/main/java/FeatureExtractor.java:40-65 | The feature values are the group values at the same fixed positions. |
| Features.StatsValueGroups | Java/src/main/java/FeatureExtractor.java:59-62 | With statistics on both sides, positions 36-43 hold player 1's statistics values and 44-51 player 2's. |
| Features.FeatureGroups | Java/src/main/java/FeatureExtractor.java:40-65 | In an extracted vector, each group's names sit at the same positions as that group's values, for every group. |
| Features.ExtractFromLoserSide | Java/src/main/java/FeatureExtractor.java:31-35 | Extracting with the loser first equals extracting from the match with sides and statistics exchanged. |
| Features.FeatureCount | Java/src/main/java/FeatureExtractor.java:31-68 | As many values as names: 55 iff both sides have statistics, 39 otherwise. |
| Features.ExtractorBehaves | Java/src/main/java/FeatureExtractor.java:31-68 | The extractor has the behaviour the preparer relies on: null keys throw, 55 or 39 features, loser side = swapped match. |
| Training.Examples | Java/src/main/java/TrainingDataPreparer.java:21-33 | Succeeds iff every view of every match extracts. Then there are n or 2n examples. |
| Training.ExampleAt | Java/src/main/java/TrainingDataPreparer.java:21-33 | Example i holds its match's features from the winner's side with target 1, or from the loser's side with target 0 for the second example of an augmented match. |
| Training.ExamplesFailOnNullKey | Java/src/main/java/TrainingDataPreparer.java:21-33 | With `FeatureExtractor`'s behaviour, preparation fails exactly when some match has a null lookup key. |
| Training.AugmentedIsSwapped | Java/src/main/java/TrainingDataPreparer.java:24-31 | With augmentation, example 2k is match k from the winner with target 1. Example 2k+1 is the swapped match k with target 0. |
| Training.AugmentedPair | Java/src/main/java/TrainingDataPreparer.java:24-31 | With augmentation, match k gives example 2k from the winner's side with target 1 and example 2k + 1 from the loser's side with target 0. |
| Training.PresentCount | Java/src/main/java/TrainingDataPreparer.java:71-80 | The count of present values never exceeds the row count. |
| Training.NothingPresentSumsToZero | Java/src/main/java/TrainingDataPreparer.java:71-80 | A column without values sums to 0. |
| Training.PresentSumBounds | Java/src/main/java/TrainingDataPreparer.java:71-80 | Values in [lo, hi] sum to between count·lo and count·hi. |
| Training.ColumnMeanWithin | Java/src/main/java/TrainingDataPreparer.java:68-83 | The mean of the present values lies between their bounds. |
| Training.ColumnMeans | Java/src/main/java/TrainingDataPreparer.java:68-83 | One mean per column, each the mean of that column's present values. |
| Training.ImputeRow | Java/src/main/java/TrainingDataPreparer.java:86-94 | Each present value is kept and each NaN becomes its column mean. |
| Training.ImputeAll | Java/src/main/java/TrainingDataPreparer.java:86-94 | Every row is imputed with the same means. |
| Training.Impute | Java/src/main/java/TrainingDataPreparer.java:65-95 | Fails iff some row is narrower than numCols. Otherwise same row count, numCols per row, present values kept and NaNs replaced by means. |
| Training.FilledTotalSplits | Java/src/main/java/TrainingDataPreparer.java:86-94 | Filling a column's gaps with μ gives the present sum plus μ per gap. |
| Training.ImputedColumnIsFilled | Java/src/main/java/TrainingDataPreparer.java:86-94 | An imputed column is the column with its gaps filled by its mean. |
| Training.ImputeKeepsColumnMean | Java/src/main/java/TrainingDataPreparer.java:65-95 | The imputed column totals rows·mean: imputation does not move a column's mean. |
| Training.ConcatLength | Java/src/main/java/TrainingDataPreparer.java:47-50 | A rectangular matrix flattens to rows·columns values. |
| Training.ConcatRowAt | Java/src/main/java/TrainingDataPreparer.java:47-50 | Reading row i back from the flat array gives matrix row i. |
| Training.Flatten | Java/src/main/java/TrainingDataPreparer.java:47-50 | The copy loop yields rows·columns values with flat[i·numCols + c] = matrix[i][c]. |
| Training.Vectors | Java/src/main/java/TrainingDataPreparer.java:21-33 | One feature row per example, in order. |
| Training.Labels | Java/src/main/java/TrainingDataPreparer.java:53-56 | One label per example, its target, in order. |
| Training.PrepareMatrix | Java/src/main/java/TrainingDataPreparer.java:17-63 | Fails with the extraction error iff extraction fails, and with "no feature vectors" iff there are no matches. Fails with ColumnOutOfRange iff some row is narrower than the first row; this is the IndexOutOfBoundsException of the `imputeMissingValues` loop. Otherwise the shape, labels and row-major data come from the imputed examples. |
| Training.FullRowsWithStats | Java/src/main/java/TrainingDataPreparer.java:40-41 | When every match has statistics for both sides, every row has the full 55 features, so imputation cannot fail. |
| Training.MixedStatsMisalign | Java/src/main/java/TrainingDataPreparer.java:40-41 | Position 36 is `rank_diff_log` in a 39-feature row but `p1_aces` in a 55-feature row: columns misalign when statistics are mixed. |
| Training.FeatureNamesAlwaysThrow | Java/src/main/java/TrainingDataPreparer.java:97-100 | As written, asking for the feature names of an empty match always throws a NullPointerException. |
| Training.FeatureNamesAsWritten | Java/src/main/java/TrainingDataPreparer.java:97-100 | As written: fails exactly when extracting features from the empty match meets a null key. A success would give the 39 names of a row without statistics. |
| Training.FeatureNames | Java/src/main/java/TrainingDataPreparer.java:97-100 | The corrected feature names: exactly 55 names, one per column of a row with statistics. |
| Training.FeatureNamesMatchRows | Java/src/main/java/TrainingDataPreparer.java:97-100 | Every extractable match with statistics yields exactly these names in this order, from either side. |
| Odds.DedupKeys | Java/src/main/java/TennisOddsScraper.java:343-357 | The kept matches have distinct keys, and every key of the input is kept. |
| Odds.DedupKeepsFirst | Java/src/main/java/TennisOddsScraper.java:343-357 | The kept matches sit at increasing input positions. Each is the first with its key, and every first occurrence is kept. |
| Odds.DedupOfDistinct | Java/src/main/java/TennisOddsScraper.java:343-357 | A list with distinct keys is kept whole. |
| Odds.DedupIdempotent | Java/src/main/java/TennisOddsScraper.java:343-357 | Removing duplicates twice removes nothing more. |
| Odds.RemoveDuplicates | Java/src/main/java/TennisOddsScraper.java:343-357 | The seen-set loop keeps exactly the first match per key, in order. The result has distinct keys and all the input's keys. |
| Odds.RemoveDuplicatesBy | Java/src/main/java/TennisOddsScraper.java:344-356 | For any key function, the seen-set loop keeps exactly the first match per key, in order, so no two kept matches share a key and every input key is kept. |
| Odds.SwappedKeyDiffers | Java/src/main/java/TennisOddsScraper.java:348 | The key is ordered: with different names of equal length, A-vs-B and B-vs-A have different keys. |
| Odds.KeyCollision | Java/src/main/java/TennisOddsScraper.java:348 | "x" vs "x_vs_x" and "x_vs_x" vs "x" on the same day share a key, so only the first survives. |
| Odds.PadZerosShape | Java/src/main/java/TennisOddsScraper.java:348-349 | Zero padding gives exactly the requested width, or the input when it is already that long. The input sits at the end with only zeros before it. |
| Odds.DateTextLayout | Java/src/main/java/TennisOddsScraper.java:348-349 | A date in the years 0 to 9999 renders as ten characters with dashes at positions 4 and 7. A later year starts with "+" and an earlier one with "-". |
| Odds.Dedup | Java/src/main/java/TennisOddsScraper.java:343-357 | The de-duplicated list is never longer than its input and holds only input matches. |
| Odds.InsertPermutes | Java/src/main/java/TennisOddsScraper.java:99 | Insertion adds exactly the one match (as a multiset). |
| Odds.InsertSorted | Java/src/main/java/TennisOddsScraper.java:99 | Insertion into a time-sorted list keeps it sorted. |
| Odds.InsertStable | Java/src/main/java/TennisOddsScraper.java:99 | Matches at the same start time keep their order, and the new one goes after them. |
| Odds.SortByTimeSorts | Java/src/main/java/TennisOddsScraper.java:99 | The sort orders by start time and is a permutation of its input. |
| Odds.SortByTimeStable | Java/src/main/java/TennisOddsScraper.java:99 | The sort is stable: matches with equal start times keep their relative order. |
| Odds.SortByTime | Java/src/main/java/TennisOddsScraper.java:99 | The sorted list is a permutation of its input. |
| Odds.InsertKeepsDistinct | Java/src/main/java/TennisOddsScraper.java:98-99 | Inserting a match with a new key keeps keys distinct. |
| Odds.SortKeepsDistinct | Java/src/main/java/TennisOddsScraper.java:98-99 | Sorting keeps distinct keys distinct. |
| Odds.CollectSpec | Java/src/main/java/TennisOddsScraper.java:97-99 | `Collect`, de-duplicating then sorting, gives a time-ordered list with one match per key, all the input's keys, and the first match of each key. |
| Odds.ImpliedProbability | Java/src/main/java/TennisOddsScraper.java:394-396 | Defined iff the odds are non-zero (Infinity otherwise). Then probability·odds = 1. |
| Odds.CalculateEV | Java/src/main/java/TennisOddsScraper.java:462-464 | The expected profit of a unit stake: win with the model probability and gain odds − 1, or lose the stake. Never below −1 for non-negative probability and odds. |
| Odds.ValueIffAboveImplied | Java/src/main/java/TennisOddsScraper.java:394-396 | For positive odds, EV > 0 iff the model probability exceeds the implied one, and EV = 0 at the implied probability. |
| Odds.EvaluateMatch | Java/src/main/java/TennisOddsScraper.java:466-479 | A bet is backed only with positive EV that is at least both sides' EV. Player 1 is backed iff evP1 > 0 and evP1 > evP2; player 2 iff evP2 > 0 and evP2 > evP1. Otherwise no bet. |
| Odds.EvaluateMatchMirror | Java/src/main/java/TennisOddsScraper.java:466-479 | Listing the players the other way round (odds swapped) gives the same recommendation. Equal EVs give no bet. |
| Odds.CodeUnits | Java/src/main/java/TennisOddsScraper.java:284 | A character is one UTF-16 unit iff it lies in the Basic Multilingual Plane, and two otherwise. Every unit is below 0x10000. |
| Odds.HashCode | Java/src/main/java/TennisOddsScraper.java:284 | The empty string hashes to 0, and a single Basic Multilingual Plane character to its code. |
| Odds.HashAppend | Java/src/main/java/TennisOddsScraper.java:284 | Appending a BMP character updates the hash as Wrap32(31·h + c). |
| Odds.PolygenelubricantsHash | Java/src/main/java/TennisOddsScraper.java:284 | "polygenelubricants".hashCode() is Integer.MIN_VALUE. |
| Odds.CollapseSpacesClears | Java/src/main/java/TennisOddsScraper.java:289 | No white space survives, nothing grows, and a string without white space is unchanged. |
| Odds.CollapseSpaces | Java/src/main/java/TennisOddsScraper.java:289 | The collapsed name is never longer than the name and holds no white space. |
| Odds.CollapseRun | Java/src/main/java/TennisOddsScraper.java:289 | A whole run of white space after a word becomes exactly one underscore. |
| Odds.AsciiUpper | Java/src/main/java/TennisOddsScraper.java:289 | Upper-casing keeps the length. |
| Odds.AsciiUpperSpec | Java/src/main/java/TennisOddsScraper.java:289 | No lower-case ASCII letter remains, all other characters are kept, and upper-casing is idempotent. |
| Odds.EstimatedPoints | Java/src/main/java/TennisOddsScraper.java:286 | Points are at least 200, and are either 200 or 3000 − 15·rank. |
| Odds.CreatePlayerFromName | Java/src/main/java/TennisOddsScraper.java:282-291 | As written: the name is kept, and rank, points and age are present. The id is "EST_" + upper-cased name with white-space runs as "_". |
| Odds.CreatePlayerFromNameNegativeRank | Java/src/main/java/TennisOddsScraper.java:284-287 | As written, "polygenelubricants" gets rank −68, points 4020 and age 10.52, outside the promised 30-180 and 22-37. |
| Odds.RankAsWritten | Java/src/main/java/TennisOddsScraper.java:285 | As written: in 30..179 for every hash but Integer.MIN_VALUE, whose absolute value stays negative and gives −68. |
| Odds.AgeAsWritten | Java/src/main/java/TennisOddsScraper.java:287 | As written: in [22, 37) for every hash but Integer.MIN_VALUE, which gives 10.52. |
| Odds.EstimatedRank | Java/src/main/java/TennisOddsScraper.java:285 | Corrected: the estimated rank always lies in 30..179. |
| Odds.EstimatedAge | Java/src/main/java/TennisOddsScraper.java:287 | Corrected: the estimated age always lies in [22, 37). |
| Odds.EstimatedPlayerBounds | Java/src/main/java/TennisOddsScraper.java:282-291 | Every corrected estimate has rank 30..179, points 3000 − 15·rank (315..2550) and age in [22, 37). |
| Odds.EstimatedPlayerAgrees | Java/src/main/java/TennisOddsScraper.java:282-291 | For every name whose hash is not Integer.MIN_VALUE, the corrected and as-written players are equal. |
| Tester.SquaredDeviations | Java/src/main/java/CalibrationTester.java:258-261 | One non-negative squared deviation per prediction. |
| Tester.Mean | Java/src/main/java/CalibrationTester.java:256 | 0 for no values. Otherwise mean·n equals the sum of the values. |
| Tester.SumWithin | Java/src/main/java/CalibrationTester.java:256 | n values in [lo, hi] sum to between n·lo and n·hi. |
| Tester.MeanWithin | Java/src/main/java/CalibrationTester.java:256 | The average of non-empty predictions in [lo, hi] lies in [lo, hi]. |
| Tester.Variance | Java/src/main/java/CalibrationTester.java:258-261 | The population variance is never negative, and is 0 for no predictions. |
| Tester.ConstantHasNoVariance | Java/src/main/java/CalibrationTester.java:256-261 | Identical predictions have that value as average and variance 0. |
| Tester.NewTestResult | Java/src/main/java/CalibrationTester.java:251-262 | Name, predictions and expected behaviour are stored. The variance is ≥ 0, and average and variance are 0 for no predictions. |
| Tester.UniformPredictionsFail | Java/src/main/java/CalibrationTester.java:271-274 | A scenario whose predictions are all equal (a single match included, or none) is never reasonably calibrated. |
| Tester.PassingNeedsSpread | Java/src/main/java/CalibrationTester.java:271-274 | A passing scenario has two different predictions. |
| Tester.SummaryCounts | Java/src/main/java/CalibrationTester.java:329-345 | `PassedCount` plus the length of `NeedsReview`, the names listed for review, equals the total. All pass iff every result is reasonably calibrated iff none is listed. |
| Tester.TestRankPoints | Java/src/main/java/CalibrationTester.java:182 | Points are at least 1, and are max(1, 5000 − 30·rank) for ranks 0..1000. |
| Tester.TestRankPointsSchedule | Java/src/main/java/CalibrationTester.java:182 | Ranks 1..166 get 5000 − 30·rank points, and ranks from 167 get 1. |
| Tester.CreateTestPlayer | Java/src/main/java/CalibrationTester.java:178-182 | The player has the given rank and the points `Math.max(1, 5000 - rank * 30)` computes, at least 1. The id is "P" followed by text that parses back to the rank. |
| Tester.TestPlayerIdsDistinct | Java/src/main/java/CalibrationTester.java:164-165 | Test players of different ranks have different ids. |
| Tester.CreateTestMatch | Java/src/main/java/CalibrationTester.java:163-176 | The first rank's player wins. Surface, level and round are as given, the date is 20240601 and there are no statistics. |
| Tester.CreateSpecialistMatch | Java/src/main/java/CalibrationTester.java:190-204 | A specialist match is the plain Grand Slam quarter-final of the pairing. |
| Tester.Scenario | Java/src/main/java/CalibrationTester.java:224-233 | A scenario holds one match per call, in order, under its name and expected behaviour. |
| Tester.ScenarioShape | Java/src/main/java/CalibrationTester.java:19-123 | `Scenarios` holds five scenarios under their names, in order, with 5, 5, 2, 2 and 4 matches. |
| Tester.SpecialistsArePlainMatches | Java/src/main/java/CalibrationTester.java:55-70 | The two specialist matches equal the plain clay and grass quarter-finals of the same pairing. |
| Tester.HeadToHeadIsMirrored | Java/src/main/java/CalibrationTester.java:73-88 | The head-to-head pair is one pairing seen from both sides. |
| Tester.CalibratorPredictsWithin | Java/src/main/java/CalibrationTester.java:145 | The calibrator-backed predictor only predicts within [0.05, 0.95]. |
| Tester.Predictions | Java/src/main/java/CalibrationTester.java:144-146 | One prediction per match, in order. |
| Tester.RunAll | Java/src/main/java/CalibrationTester.java:128-138 | One result per scenario, in order. |
| Tester.RunTestScenario | Java/src/main/java/CalibrationTester.java:140-158 | The result keeps the scenario's name and expected behaviour. It holds one prediction per match, in order, and a variance that is never negative. |
| Tester.RunCalibrationTests | Java/src/main/java/CalibrationTester.java:128-138 | One result per fixed scenario, in order. Each result has its scenario's name and one prediction per match of that scenario. |
| Tester.AveragesWithin | Java/src/main/java/CalibrationTester.java:140-158 | With predictions in [lo, hi], a non-empty scenario's average lies in [lo, hi]. |
| Tester.Names | Java/src/main/java/CalibrationTester.java:340-344 | The scenario names, in order. |
| Tester.AllFailingNeedReview | Java/src/main/java/CalibrationTester.java:340-344 | When every result fails, every scenario name is listed for review, in order. |
| Tester.ConstantPredictorFailsAll | Java/src/main/java/CalibrationTester.java:128-158 | A predictor that ignores the match fails every scenario, so every scenario is listed for review. |

## Left out

- File reading, web scraping, HTTP, `Thread.sleep`, `LocalDateTime.now()` and the sample-data generators: the loader takes the file's lines, and the scraper helpers take the scraped matches.
- `Double.parseDouble` is a parameter (`Loader.DoubleParser`); its grammar is not modelled.
- The Weka/XGBoost training, prediction, evaluation and serialisation, and the `DMatrix` object itself. `Training.PrepareMatrix` stops at the flat data, shape and labels it is built from.
- The command-line programs and their printing, and every printed message, including the bench's per-match detail lines and the report text.
- Concurrency: the concurrent maps of the history manager are plain maps, and ingests are sequential.
- Floating point: doubles are reals, so rounding, NaN and Infinity are not modelled. The 0/0 of an empty Brier or log-loss run and the Infinity of zero odds are `None`. A missing feature value is `None`.
- `Math.log`, `exp`, `tanh`, `pow(10, x)` and `sqrt` are not computed. They are parameters with stated properties.
- `getMomentum` (tanh of a decayed sum, 0/0 for a non-positive lookback), `getAverageOpponentStrength` (a constant) and `getAllSurfaceElos` (a copy) are not modelled.
- Odds.AsciiUpper: upper-cases ASCII letters only, because Unicode case mapping is not modelled.
- Odds.CodeUnits: only characters that are Unicode scalar values exist in Dafny's strings, so lone surrogates cannot be hashed.
- Tester.CreateTestMatch: the random age, height and hand of test players are left unset. The `TestMatch` and `TestPlayer` subclasses, which do not compile as written, are read as plain matches and players.
- Tester.CreateSpecialistMatch: the history simulation it calls is an empty stub, so the match is the plain quarter-final.
- Calibrator.CalibratedPrediction: the prediction reads an immutable registry, so the manager's history is a parameter rather than shared state.
- Features.ExtractFeatures: a null surface, level, round or hand, which makes the immutable encoding maps throw, is modelled as a `Failure`. Histories are looked up by id, and a missing id counts as a null key.
- HistoryManager.UpdateWithMatch: requires both player ids, because the concurrent maps reject null keys (a null loser id would throw after the winner's history was already updated).
- Features.StatsValues: the second-serve value uses the corrected ratio (see Findings). The getter as written subtracts in `int` arithmetic, so servePoints − firstServeIn can wrap. On non-negative counts the two agree, as the contract states.
- Text.ParseInt: accepts only the ASCII digits '0' to '9'. `Integer.parseInt` also accepts the other Unicode decimal digits that `Character.digit` knows, such as Arabic-Indic or full-width digits; those fields parse to null here.
- Metrics.BrierScore, Metrics.LogLoss, Metrics.CalibrationError, Metrics.ComputeMetrics: require at least as many outcomes as predictions. The IndexOutOfBoundsException that shorter outcome lists raise is not modelled; the only caller builds both lists together, one entry per match.
- Records.AddSurfaceMatch, Records.AddHeadToHeadMatch: the counters are unbounded naturals. The Java `int` counters would wrap after 2^31 − 1 results.

## Findings

| source | as written | input that shows it | evidently intended | confidence | as-written member | corrected member |
|---|---|---|---|---|---|---|
| Java/src/main/java/TennisOddsScraper.java:284-287 | `Math.abs(name.hashCode())` then `% 150` and `% 1500` | the name "polygenelubricants", whose hash is Integer.MIN_VALUE: rank −68, points 4020, age 10.52 | rank in 30-180 and age in 22-37 for every name, as the comments say | not executed | Odds.CreatePlayerFromNameNegativeRank | Odds.EstimatedPlayerBounds |
| Java/src/main/java/MatchStats.java:48-52 | `servePoints - firstServeIn` as an int subtraction | servePoints = Integer.MIN_VALUE and firstServeIn = 1: the difference wraps to Integer.MAX_VALUE, so a ratio is returned | null whenever there are no second-serve points | not executed; only unrealistic counts reach it | Stats.SecondServeWrapCounterexample | Stats.SecondServeWinPercentage |
| Java/src/main/java/TrainingDataPreparer.java:97-100 | feature names of `new Match.Builder().build()` | any call: the empty match's null surface makes the encoder's `Map.of` lookup throw a NullPointerException | the 55 names of a training row | not executed | Training.FeatureNamesAlwaysThrow | Training.FeatureNamesMatchRows |

=== FILE: analysis.dfy ===
/** The transcendental functions the engine calls (`Math.log`, `Math.exp`,
    `Math.tanh`, `Math.pow(10, x)`, `Math.sqrt`).

    They are not computed: the model receives them as a value of type
    `Transcendentals` and assumes only the facts `Sound` lists, each of which
    holds of the real functions. Everything proved from them therefore holds
    for the real functions too.
 */
module Analysis {

  datatype Transcendentals = Transcendentals(
    ln: real -> real,
    exp: real -> real,
    tanh: real -> real,
    pow10: real -> real,
    sqrt: real -> real)

  ghost predicate Sound(t: Transcendentals) {
    && (forall x :: t.exp(x) > 0.0)
    && t.exp(0.0) == 1.0
    && (forall x, y :: x + y == 0.0 ==> t.exp(x) * t.exp(y) == 1.0)
    && (forall x, y :: x < y ==> t.exp(x) < t.exp(y))
    && (forall x, y :: 0.0 < x < y ==> t.ln(x) < t.ln(y))
    && t.ln(1.0) == 0.0
    && (forall x :: -1.0 <= t.tanh(x) <= 1.0)
    && (forall x, y :: x + y == 0.0 ==> t.tanh(x) + t.tanh(y) == 0.0)
    && (forall x, y :: x <= y ==> t.tanh(x) <= t.tanh(y))
    && (forall x :: t.pow10(x) > 0.0)
    && t.pow10(0.0) == 1.0
    && (forall x, y :: x + y == 0.0 ==> t.pow10(x) * t.pow10(y) == 1.0)
    && (forall x :: x > 0.0 ==> t.sqrt(x) > 0.0)
  }

  /** The logistic function `1 / (1 + e^-x)`. */
  function Sigmoid(t: Transcendentals, x: real): (r: real)
    requires Sound(t)
    ensures 0.0 < r < 1.0
    ensures x == 0.0 ==> r == 0.5
    ensures x > 0.0 ==> r > 0.5
    ensures x < 0.0 ==> r < 0.5
  {
    var e := t.exp(-x);
    assert e > 0.0;
    assert x > 0.0 ==> e < 1.0 by {
      if x > 0.0 {
        assert t.exp(-x) < t.exp(0.0);
      }
    }
    assert x < 0.0 ==> e > 1.0 by {
      if x < 0.0 {
        assert t.exp(0.0) < t.exp(-x);
      }
    }
    1.0 / (1.0 + e)
  }

  /** `1/(1+a) + 1/(1+b) == 1` whenever `a * b == 1`. */
  lemma ReciprocalSum(a: real, b: real)
    requires a > 0.0 && b > 0.0 && a * b == 1.0
    ensures 1.0 / (1.0 + a) + 1.0 / (1.0 + b) == 1.0
  {
    assert b == 1.0 / a;
    calc {
      1.0 / (1.0 + b);
      1.0 / (1.0 + 1.0 / a);
      { assert 1.0 + 1.0 / a == (a + 1.0) / a; }
      a / (a + 1.0);
    }
    assert 1.0 / (1.0 + a) + a / (a + 1.0) == (1.0 + a) / (1.0 + a);
  }

  lemma SigmoidComplement(t: Transcendentals, x: real)
    requires Sound(t)
    ensures Sigmoid(t, x) + Sigmoid(t, -x) == 1.0
  {
    assert -x + - -x == 0.0;
    assert t.exp(-x) * t.exp(- -x) == 1.0;
    ReciprocalSum(t.exp(-x), t.exp(- -x));
  }

  /** The logistic expected score of a player rated `diff` points above the
      opponent: `1 / (1 + 10^(-diff/400))`. */
  function EloExpectation(t: Transcendentals, diff: real): (r: real)
    requires Sound(t)
    ensures 0.0 < r < 1.0
    ensures diff == 0.0 ==> r == 0.5
  {
    var e := t.pow10(-diff / 400.0);
    assert e > 0.0;
    1.0 / (1.0 + e)
  }

  lemma EloExpectationComplement(t: Transcendentals, diff: real)
    requires Sound(t)
    ensures EloExpectation(t, diff) + EloExpectation(t, -diff) == 1.0
  {
    var a := -diff / 400.0;
    var b := -(-diff) / 400.0;
    assert a + b == 0.0;
    assert t.pow10(a) * t.pow10(b) == 1.0;
    ReciprocalSum(t.pow10(a), t.pow10(b));
  }
}

=== FILE: calibration_metrics.dfy ===
/** Offline calibration metrics over a list of predicted probabilities and
    the matching list of outcomes: the Brier score, the log loss and a binned
    calibration error.

    Java returns `NaN` for the Brier score and the log loss of an empty list
    (a division 0/0); here that result is `None`.
 */
module Metrics {
  import opened Optional
  import opened JavaNum
  import opened Analysis

  /** An outcome as a number: 1 for a win, 0 for a loss. */
  function Indicator(won: bool): real {
    if won then 1.0 else 0.0
  }

  predicate AllProbabilities(preds: seq<real>) {
    forall i :: 0 <= i < |preds| ==> 0.0 <= preds[i] <= 1.0
  }

  function Square(x: real): real {
    x * x
  }

  // ---------------------------------------------------------------------
  // Brier score

  /** Σ_{i<n} (p_i - y_i)². */
  function SquaredErrors(preds: seq<real>, outcomes: seq<bool>, n: nat): (s: real)
    requires n <= |preds| && n <= |outcomes|
    ensures s >= 0.0
    ensures AllProbabilities(preds) ==> s <= n as real
  {
    if n == 0 then 0.0
    else
      var d := preds[n - 1] - Indicator(outcomes[n - 1]);
      assert 0.0 <= preds[n - 1] <= 1.0 ==> d * d <= 1.0 by {
        if 0.0 <= preds[n - 1] <= 1.0 {
          assert -1.0 <= d <= 1.0;
          assert d * d <= 1.0 by {
            if d >= 0.0 { assert d * d <= d * 1.0; } else { assert d * d <= (-d) * 1.0; }
          }
        }
      }
      SquaredErrors(preds, outcomes, n - 1) + Square(d)
  }

  /** The mean squared difference between prediction and outcome; `None`
      (Java's `NaN`) for no predictions. Outcomes beyond the predictions are
      ignored. */
  function BrierScore(preds: seq<real>, outcomes: seq<bool>): (r: Option<real>)
    requires |preds| <= |outcomes|
    ensures r.None? <==> |preds| == 0
    ensures r.Some? ==> r.value >= 0.0
    ensures r.Some? && AllProbabilities(preds) ==> r.value <= 1.0
  {
    if |preds| == 0 then None
    else
      var s := SquaredErrors(preds, outcomes, |preds|);
      if AllProbabilities(preds) then
        FractionBounds(s, |preds| as real);
        Some(s / (|preds| as real))
      else
        Some(s / (|preds| as real))
  }

  /** The Brier loop as `CalibrationMetrics.calculateBrierScore` runs it. */
  method ComputeBrierScore(preds: seq<real>, outcomes: seq<bool>) returns (r: Option<real>)
    requires |preds| <= |outcomes|
    ensures r == BrierScore(preds, outcomes)
  {
    var sum := 0.0;
    var i := 0;
    while i < |preds|
      invariant 0 <= i <= |preds|
      invariant sum == SquaredErrors(preds, outcomes, i)
    {
      var actual := if outcomes[i] then 1.0 else 0.0;
      sum := sum + (preds[i] - actual) * (preds[i] - actual);
      i := i + 1;
    }
    if |preds| == 0 {
      return None;
    }
    r := Some(sum / (|preds| as real));
  }

  /** Predicting 1/2 everywhere scores exactly 1/4, whatever happens. */
  lemma {:induction false} BrierOfCoinFlips(preds: seq<real>, outcomes: seq<bool>, n: nat)
    requires n <= |preds| && n <= |outcomes|
    requires forall i :: 0 <= i < |preds| ==> preds[i] == 0.5
    ensures SquaredErrors(preds, outcomes, n) == 0.25 * (n as real)
  {
    if n > 0 {
      BrierOfCoinFlips(preds, outcomes, n - 1);
    }
  }

  lemma CoinFlipBrierScore(preds: seq<real>, outcomes: seq<bool>)
    requires 0 < |preds| <= |outcomes|
    requires forall i :: 0 <= i < |preds| ==> preds[i] == 0.5
    ensures BrierScore(preds, outcomes) == Some(0.25)
  {
    BrierOfCoinFlips(preds, outcomes, |preds|);
    var n := |preds| as real;
    assert (0.25 * n) / n == 0.25;
  }

  /** Predicting every outcome with certainty scores 0. */
  lemma {:induction false} PerfectForecastScoresZero(preds: seq<real>, outcomes: seq<bool>, n: nat)
    requires n <= |preds| && n <= |outcomes|
    requires forall i :: 0 <= i < |preds| && i < |outcomes| ==> preds[i] == Indicator(outcomes[i])
    ensures SquaredErrors(preds, outcomes, n) == 0.0
  {
    if n > 0 {
      PerfectForecastScoresZero(preds, outcomes, n - 1);
    }
  }

  // ---------------------------------------------------------------------
  // Log loss

  const Epsilon: real := 0.000000000000001

  /** `Math.max(1e-15, Math.min(1 - 1e-15, p))`. */
  function ClipProbability(p: real): (q: real)
    ensures Epsilon <= q <= 1.0 - Epsilon
    ensures Epsilon <= p <= 1.0 - Epsilon ==> q == p
  {
    Clamp(Epsilon, 1.0 - Epsilon, p)
  }

  /** The cross-entropy of one clipped prediction. */
  function LogLossTerm(t: Transcendentals, p: real, won: bool): (r: real)
    requires Sound(t)
    ensures r > 0.0
  {
    var q := ClipProbability(p);
    var y := Indicator(won);
    assert t.ln(q) < 0.0 && t.ln(1.0 - q) < 0.0 by {
      assert t.ln(q) < t.ln(1.0);
      assert t.ln(1.0 - q) < t.ln(1.0);
    }
    -(y * t.ln(q) + (1.0 - y) * t.ln(1.0 - q))
  }

  function LogLossSum(t: Transcendentals, preds: seq<real>, outcomes: seq<bool>, n: nat): (s: real)
    requires Sound(t)
    requires n <= |preds| && n <= |outcomes|
    ensures n > 0 ==> s > 0.0
    ensures n == 0 ==> s == 0.0
  {
    if n == 0 then 0.0 else LogLossSum(t, preds, outcomes, n - 1) + LogLossTerm(t, preds[n - 1], outcomes[n - 1])
  }

  /** The mean cross-entropy of the clipped predictions: always positive,
      `None` (Java's `NaN`) for no predictions. */
  function LogLoss(t: Transcendentals, preds: seq<real>, outcomes: seq<bool>): (r: Option<real>)
    requires Sound(t)
    requires |preds| <= |outcomes|
    ensures r.None? <==> |preds| == 0
    ensures r.Some? ==> r.value > 0.0
  {
    if |preds| == 0 then None
    else Some(LogLossSum(t, preds, outcomes, |preds|) / (|preds| as real))
  }

  // ---------------------------------------------------------------------
  // Calibration error

  /** `(int) Math.floor(p * 10)`. */
  function Bin(p: real): int {
    (p * 10.0).Floor
  }

  /** Number of the first `n` predictions falling in bin `b`. */
  function BinCount(preds: seq<real>, b: int, n: nat): (c: nat)
    requires n <= |preds|
    ensures c <= n
  {
    if n == 0 then 0 else BinCount(preds, b, n - 1) + (if Bin(preds[n - 1]) == b then 1 else 0)
  }

  /** Σ (p_i - y_i) over the first `n` predictions falling in bin `b`: the
      bin's size times (mean prediction - mean outcome). */
  function BinGap(preds: seq<real>, outcomes: seq<bool>, b: int, n: nat): real
    requires n <= |preds| && n <= |outcomes|
  {
    if n == 0 then 0.0
    else
      BinGap(preds, outcomes, b, n - 1) +
        (if Bin(preds[n - 1]) == b then preds[n - 1] - Indicator(outcomes[n - 1]) else 0.0)
  }

  /** The bins the first `n` predictions occupy, each once, in order of
      first use. */
  function OccupiedBins(preds: seq<real>, n: nat): (bins: seq<int>)
    requires n <= |preds|
    ensures forall i, j :: 0 <= i < j < |bins| ==> bins[i] != bins[j]
    ensures forall b :: b in bins <==> BinCount(preds, b, n) > 0
  {
    if n == 0 then []
    else
      var earlier := OccupiedBins(preds, n - 1);
      var b := Bin(preds[n - 1]);
      if b in earlier then earlier else earlier + [b]
  }

  /** Σ over `bins` of |bin gap|. */
  function TotalError(preds: seq<real>, outcomes: seq<bool>, bins: seq<int>): real
    requires |preds| <= |outcomes|
  {
    if |bins| == 0 then 0.0
    else TotalError(preds, outcomes, bins[..|bins| - 1]) + AbsReal(BinGap(preds, outcomes, bins[|bins| - 1], |preds|))
  }

  /** Σ over `bins` of the bin size. */
  function TotalSamples(preds: seq<real>, bins: seq<int>, n: nat): nat
    requires n <= |preds|
  {
    if |bins| == 0 then 0 else TotalSamples(preds, bins[..|bins| - 1], n) + BinCount(preds, bins[|bins| - 1], n)
  }

  /** The size-weighted mean gap between mean prediction and mean outcome
      over the occupied bins, 0 when there are no samples. The sum runs over
      the bins in order of first use; the sum does not depend on the order
      in which `calculateCalibrationError`'s hash map yields them. */
  function CalibrationError(preds: seq<real>, outcomes: seq<bool>): (r: real)
    requires |preds| <= |outcomes|
    ensures |preds| == 0 ==> r == 0.0
    ensures r >= 0.0
    ensures AllProbabilities(preds) ==> r <= 1.0
  {
    var bins := OccupiedBins(preds, |preds|);
    var totalError := TotalError(preds, outcomes, bins);
    var totalSamples := TotalSamples(preds, bins, |preds|);
    TotalErrorBounded(preds, outcomes, bins);
    if totalSamples > 0 then
      if AllProbabilities(preds) then
        FractionBounds(totalError, totalSamples as real);
        totalError / (totalSamples as real)
      else
        totalError / (totalSamples as real)
    else 0.0
  }

  /** One bin's gap is at most its size when predictions are probabilities. */
  lemma {:induction false} BinGapBounded(preds: seq<real>, outcomes: seq<bool>, b: int, n: nat)
    requires n <= |preds| && n <= |outcomes|
    requires AllProbabilities(preds)
    ensures AbsReal(BinGap(preds, outcomes, b, n)) <= BinCount(preds, b, n) as real
  {
    if n > 0 {
      BinGapBounded(preds, outcomes, b, n - 1);
    }
  }

  lemma {:induction false} TotalErrorBounded(preds: seq<real>, outcomes: seq<bool>, bins: seq<int>)
    requires |preds| <= |outcomes|
    ensures TotalError(preds, outcomes, bins) >= 0.0
    ensures AllProbabilities(preds) ==>
      TotalError(preds, outcomes, bins) <= TotalSamples(preds, bins, |preds|) as real
  {
    if |bins| > 0 {
      TotalErrorBounded(preds, outcomes, bins[..|bins| - 1]);
      if AllProbabilities(preds) {
        BinGapBounded(preds, outcomes, bins[|bins| - 1], |preds|);
      }
    }
  }

  /** Number of occurrences of `x` in `bins`. */
  function Occurrences(bins: seq<int>, x: int): nat {
    if |bins| == 0 then 0 else Occurrences(bins[..|bins| - 1], x) + (if bins[|bins| - 1] == x then 1 else 0)
  }

  lemma {:induction false} OccurrencesDistinct(bins: seq<int>, x: int)
    requires forall i, j :: 0 <= i < j < |bins| ==> bins[i] != bins[j]
    ensures Occurrences(bins, x) == if x in bins then 1 else 0
  {
    if |bins| > 0 {
      var prefix := bins[..|bins| - 1];
      OccurrencesDistinct(prefix, x);
      assert x in bins <==> x in prefix || bins[|bins| - 1] == x;
      if bins[|bins| - 1] == x {
        assert x !in prefix;
      }
    }
  }

  /** Adding one more prediction adds one to the size of its own bin. */
  lemma {:induction false} TotalSamplesStep(preds: seq<real>, bins: seq<int>, n: nat)
    requires 0 < n <= |preds|
    ensures TotalSamples(preds, bins, n) ==
      TotalSamples(preds, bins, n - 1) + Occurrences(bins, Bin(preds[n - 1]))
  {
    if |bins| > 0 {
      TotalSamplesStep(preds, bins[..|bins| - 1], n);
    }
  }

  lemma {:induction false} TotalSamplesOfNewBin(preds: seq<real>, bins: seq<int>, b: int, n: nat)
    requires n <= |preds| && BinCount(preds, b, n) == 0
    ensures TotalSamples(preds, bins + [b], n) == TotalSamples(preds, bins, n)
  {
    assert (bins + [b])[..|bins|] == bins;
  }

  /** Every prediction lies in exactly one occupied bin, so the bin sizes
      add up to the number of predictions. */
  lemma {:induction false} BinsPartitionSamples(preds: seq<real>, n: nat)
    requires n <= |preds|
    ensures TotalSamples(preds, OccupiedBins(preds, n), n) == n
  {
    if n > 0 {
      var earlier := OccupiedBins(preds, n - 1);
      var b := Bin(preds[n - 1]);
      var bins := OccupiedBins(preds, n);
      BinsPartitionSamples(preds, n - 1);
      TotalSamplesStep(preds, bins, n);
      OccurrencesDistinct(bins, b);
      assert b in bins;
      if b !in earlier {
        assert BinCount(preds, b, n - 1) == 0;
        TotalSamplesOfNewBin(preds, earlier, b, n - 1);
      }
    }
  }

  /** With at least one prediction, the error is divided by the number of
      predictions: (1/N) · Σ_bins |Σ_{i in bin} (p_i - y_i)|. */
  lemma CalibrationErrorIsMeanGap(preds: seq<real>, outcomes: seq<bool>)
    requires 0 < |preds| <= |outcomes|
    ensures CalibrationError(preds, outcomes) ==
      TotalError(preds, outcomes, OccupiedBins(preds, |preds|)) / (|preds| as real)
  {
    BinsPartitionSamples(preds, |preds|);
  }

  /** Metrics of one evaluation run. */
  datatype CalibrationMetrics = CalibrationMetrics(
    brierScore: Option<real>,
    logLoss: Option<real>,
    calibrationError: real)

  function ComputeMetrics(t: Transcendentals, preds: seq<real>, outcomes: seq<bool>): (m: CalibrationMetrics)
    requires Sound(t)
    requires |preds| <= |outcomes|
    ensures m.brierScore == BrierScore(preds, outcomes)
    ensures m.logLoss == LogLoss(t, preds, outcomes)
    ensures m.calibrationError == CalibrationError(preds, outcomes)
  {
    CalibrationMetrics(BrierScore(preds, outcomes), LogLoss(t, preds, outcomes), CalibrationError(preds, outcomes))
  }
}

=== FILE: calibration_tester.dfy ===
/** The calibration test bench: five fixed scenarios of test matches, the
    predictions the calibrator gives for them, the average and spread of
    those predictions, the pass/fail heuristic and the summary count.

    The calibrator is a parameter (`Predictor`); `CalibratorPredictor`
    supplies the calibrated model. The report text is not modelled.
 */
module Tester {
  import opened Optional
  import opened JavaNum
  import opened Text
  import opened Analysis
  import opened Domain
  import Calibrator
  import HistoryManager

  // ---------------------------------------------------------------------
  // Average and variance

  /** The total of the values. */
  function Sum(xs: seq<real>): real {
    if |xs| == 0 then 0.0 else Sum(xs[..|xs| - 1]) + xs[|xs| - 1]
  }

  /** `average().orElse(0.0)`: the arithmetic mean, 0 for no values. */
  function Mean(xs: seq<real>): (mu: real)
    ensures |xs| == 0 ==> mu == 0.0
    ensures |xs| > 0 ==> mu * (|xs| as real) == Sum(xs)
  {
    if |xs| == 0 then 0.0 else Sum(xs) / (|xs| as real)
  }

  /** `(x - mu)²` for every value. */
  function SquaredDeviations(xs: seq<real>, mu: real): (ds: seq<real>)
    ensures |ds| == |xs|
    ensures forall i :: 0 <= i < |xs| ==> ds[i] >= 0.0
  {
    forall i | 0 <= i < |xs| ensures (xs[i] - mu) * (xs[i] - mu) >= 0.0 {
      SquareNonNegative(xs[i] - mu);
    }
    seq(|xs|, i requires 0 <= i < |xs| => (xs[i] - mu) * (xs[i] - mu))
  }

  lemma SquareNonNegative(d: real)
    ensures d * d >= 0.0
  {
    if d < 0.0 {
      assert d * d == (-d) * (-d);
    }
  }

  /** The population variance around the mean, 0 for no values and never
      negative. */
  function Variance(xs: seq<real>): (v: real)
    ensures |xs| == 0 ==> v == 0.0
    ensures v >= 0.0
  {
    var ds := SquaredDeviations(xs, Mean(xs));
    SumNonNegative(ds);
    if |ds| > 0 then
      assert Sum(ds) / (|ds| as real) >= 0.0;
      Mean(ds)
    else Mean(ds)
  }

  /** Values in [lo, hi] total between `lo·n` and `hi·n`. */
  lemma {:induction false} SumWithin(xs: seq<real>, lo: real, hi: real)
    requires forall i :: 0 <= i < |xs| ==> lo <= xs[i] <= hi
    ensures lo * (|xs| as real) <= Sum(xs) <= hi * (|xs| as real)
  {
    if |xs| > 0 {
      var n := |xs| - 1;
      var prefix := xs[..n];
      assert forall i :: 0 <= i < n ==> prefix[i] == xs[i];
      SumWithin(prefix, lo, hi);
      assert Sum(xs) == Sum(prefix) + xs[n];
      AddWithin(n as real, Sum(prefix), xs[n], lo, hi, |xs| as real, Sum(xs));
    }
  }

  /** Non-negative values have a non-negative total. */
  lemma {:induction false} SumNonNegative(xs: seq<real>)
    requires forall i :: 0 <= i < |xs| ==> xs[i] >= 0.0
    ensures Sum(xs) >= 0.0
  {
    if |xs| > 0 {
      var prefix := xs[..|xs| - 1];
      assert forall i :: 0 <= i < |prefix| ==> prefix[i] == xs[i];
      SumNonNegative(prefix);
    }
  }

  /** `n` copies of `c` total `n·c`. */
  lemma {:induction false} SumConstant(xs: seq<real>, c: real)
    requires forall i :: 0 <= i < |xs| ==> xs[i] == c
    ensures Sum(xs) == (|xs| as real) * c
  {
    if |xs| > 0 {
      var n := |xs| - 1;
      var prefix := xs[..n];
      assert forall i :: 0 <= i < n ==> prefix[i] == xs[i];
      SumConstant(prefix, c);
      assert (n as real) * c + c == ((n + 1) as real) * c;
    }
  }

  /** The mean of values in [lo, hi] lies in [lo, hi]. */
  lemma MeanWithin(xs: seq<real>, lo: real, hi: real)
    requires |xs| > 0
    requires forall i :: 0 <= i < |xs| ==> lo <= xs[i] <= hi
    ensures lo <= Mean(xs) <= hi
  {
    SumWithin(xs, lo, hi);
    MeanBounds(Sum(xs), |xs| as real, lo, hi);
  }

  /** Values that are all the same have that value as mean and no
      variance. */
  lemma ConstantHasNoVariance(xs: seq<real>)
    requires |xs| > 0 && forall i :: 0 <= i < |xs| ==> xs[i] == xs[0]
    ensures Mean(xs) == xs[0]
    ensures Variance(xs) == 0.0
  {
    var n := |xs| as real;
    SumConstant(xs, xs[0]);
    assert Sum(xs) / n == xs[0];
    var ds := SquaredDeviations(xs, xs[0]);
    SumConstant(ds, 0.0);
  }

  // ---------------------------------------------------------------------
  // Test results

  /** `TestResult`: the predictions of one scenario with their average and
      variance. The per-match detail lines are not modelled. */
  datatype TestResult = TestResult(
    scenarioName: string,
    predictions: seq<real>,
    expectedBehavior: string,
    averagePrediction: real,
    predictionVariance: real)

  /** The `TestResult` constructor: the statistics are computed once. */
  function NewTestResult(name: string, predictions: seq<real>, expected: string): (r: TestResult)
    ensures r.scenarioName == name && r.predictions == predictions && r.expectedBehavior == expected
    ensures r.predictionVariance >= 0.0
    ensures |predictions| == 0 ==> r.averagePrediction == 0.0 && r.predictionVariance == 0.0
  {
    TestResult(name, predictions, expected, Mean(predictions), Variance(predictions))
  }

  /** `isReasonablyCalibrated`: an average between 0.1 and 0.9 and some
      spread. */
  predicate IsReasonablyCalibrated(r: TestResult) {
    0.1 <= r.averagePrediction <= 0.9 && r.predictionVariance > 0.001
  }

  /** A scenario whose predictions are all the same never passes, so in
      particular one with a single match never does; nor does one with no
      matches. */
  lemma UniformPredictionsFail(name: string, predictions: seq<real>, expected: string)
    requires forall i :: 0 <= i < |predictions| ==> predictions[i] == predictions[0]
    ensures !IsReasonablyCalibrated(NewTestResult(name, predictions, expected))
  {
    if |predictions| > 0 {
      ConstantHasNoVariance(predictions);
    }
  }

  /** A passing scenario has two different predictions. */
  lemma PassingNeedsSpread(name: string, predictions: seq<real>, expected: string)
    requires IsReasonablyCalibrated(NewTestResult(name, predictions, expected))
    ensures exists i, j :: 0 <= i < j < |predictions| && predictions[i] != predictions[j]
  {
    if forall i :: 0 <= i < |predictions| ==> predictions[i] == predictions[0] {
      UniformPredictionsFail(name, predictions, expected);
    } else {
      var j :| 0 <= j < |predictions| && predictions[j] != predictions[0];
      assert 0 < j;
    }
  }

  // ---------------------------------------------------------------------
  // The summary

  /** How many results pass. */
  function PassedCount(results: seq<TestResult>): nat {
    if |results| == 0 then 0
    else PassedCount(results[..|results| - 1]) + (if IsReasonablyCalibrated(results[|results| - 1]) then 1 else 0)
  }

  /** The names of the failing results, in order: the scenarios the
      summary recommends reviewing. */
  function NeedsReview(results: seq<TestResult>): seq<string> {
    if |results| == 0 then []
    else
      var last := results[|results| - 1];
      NeedsReview(results[..|results| - 1]) + (if IsReasonablyCalibrated(last) then [] else [last.scenarioName])
  }

  /** Passing and failing results add up to all of them; all pass exactly
      when none is listed for review. */
  lemma {:induction false} SummaryCounts(results: seq<TestResult>)
    ensures PassedCount(results) + |NeedsReview(results)| == |results|
    ensures PassedCount(results) == |results| <==> forall i :: 0 <= i < |results| ==> IsReasonablyCalibrated(results[i])
    ensures PassedCount(results) == |results| <==> NeedsReview(results) == []
  {
    if |results| > 0 {
      var n := |results| - 1;
      var prefix := results[..n];
      assert forall i :: 0 <= i < n ==> prefix[i] == results[i];
      SummaryCounts(prefix);
    }
  }

  // ---------------------------------------------------------------------
  // Scenarios

  /** `TestScenario`. */
  datatype TestScenario = TestScenario(name: string, matches: seq<Match>, expectedBehavior: string)

  /** `Math.max(1, 5000 - rank * 30)` in `int` arithmetic. */
  function TestRankPoints(rank: Int32): (points: Int32)
    ensures points >= 1
    ensures 0 <= rank <= 1000 ==> points as int == (if 5000 - rank * 30 >= 1 then 5000 - rank * 30 else 1)
  {
    var p := Wrap32(5000 - Wrap32(rank * 30));
    if p >= 1 then p else 1
  }

  /** `createTestPlayer`: id "P" and the rank, the rank and its points.
      Age, height and hand come from a random generator and are left
      unset here. */
  function CreateTestPlayer(rank: Int32): (p: Player)
    ensures p.rank == Some(rank)
    ensures p.rankPoints.Some? && p.rankPoints.value >= 1
    ensures p.playerId.Some? && |p.playerId.value| > 1 && p.playerId.value[0] == 'P'
    ensures p.rankPoints == Some(TestRankPoints(rank))
    ensures ParseInt(p.playerId.value[1..]) == Some(rank)
  {
    ParseFormat(rank);
    assert ("P" + FormatInt(rank))[1..] == FormatInt(rank);
    Player(Some("P" + FormatInt(rank)), None, None, None, None, None, None, None, Some(rank), Some(TestRankPoints(rank)))
  }

  /** Test players of different ranks have different ids. */
  lemma TestPlayerIdsDistinct(a: Int32, b: Int32)
    ensures CreateTestPlayer(a).playerId == CreateTestPlayer(b).playerId ==> a == b
  {
    var x, y := "P" + FormatInt(a), "P" + FormatInt(b);
    if x == y {
      assert x[1..] == FormatInt(a) && y[1..] == FormatInt(b);
      ParseFormat(a);
      ParseFormat(b);
    }
  }

  /** `createTestMatch`: the first rank's player wins, played on 1 June
      2024; everything else is unset and there are no statistics. */
  function CreateTestMatch(rank1: Int32, rank2: Int32, surface: string, level: string, round: string): (m: Match)
    ensures m.winner.rank == Some(rank1) && m.loser.rank == Some(rank2)
    ensures m.surface == Some(surface) && m.tourneyLevel == Some(level) && m.round == Some(round)
    ensures m.tourneyDate == Some(20240601)
    ensures m.winnerStats.None? && m.loserStats.None?
  {
    Match(None, None, Some(surface), None, Some(level), Some(20240601), None, Some(round), None, None, None,
          CreateTestPlayer(rank1), CreateTestPlayer(rank2), None, None)
  }

  /** `createSpecialistMatch`: a Grand Slam quarter-final. The history it
      means to simulate is never written, so the match is a plain test
      match. */
  function CreateSpecialistMatch(surface: string, rank1: Int32, rank2: Int32): (m: Match)
    ensures m == CreateTestMatch(rank1, rank2, surface, "G", "QF")
  {
    CreateTestMatch(rank1, rank2, surface, "G", "QF")
  }

  /** The arguments of one `createTestMatch` or `createSpecialistMatch`
      call in a scenario. */
  datatype MatchSpec =
    | Plain(rank1: Int32, rank2: Int32, surface: string, level: string, round: string)
    | Specialist(surface: string, rank1: Int32, rank2: Int32)

  function MatchOf(spec: MatchSpec): Match {
    match spec
    case Plain(r1, r2, surface, level, round) => CreateTestMatch(r1, r2, surface, level, round)
    case Specialist(surface, r1, r2) => CreateSpecialistMatch(surface, r1, r2)
  }

  /** A scenario built from its match calls. */
  function Scenario(name: string, specs: seq<MatchSpec>, expected: string): (s: TestScenario)
    ensures s.name == name && s.expectedBehavior == expected && |s.matches| == |specs|
    ensures forall i :: 0 <= i < |specs| ==> s.matches[i] == MatchOf(specs[i])
  {
    TestScenario(name, seq(|specs|, i requires 0 <= i < |specs| => MatchOf(specs[i])), expected)
  }

  const RankingSensitivitySpecs: seq<MatchSpec> :=
    [Plain(1, 150, "Hard", "G", "R128"),
     Plain(1, 100, "Hard", "G", "R64"),
     Plain(1, 50, "Hard", "G", "R32"),
     Plain(5, 50, "Hard", "M", "R16"),
     Plain(10, 30, "Hard", "A", "QF")]

  const SurfaceImpactSpecs: seq<MatchSpec> :=
    [Plain(5, 15, "Hard", "G", "QF"),
     Plain(5, 15, "Clay", "G", "QF"),
     Plain(5, 15, "Grass", "G", "QF"),
     Specialist("Clay", 5, 15),
     Specialist("Grass", 5, 15)]

  const HeadToHeadSpecs: seq<MatchSpec> :=
    [Plain(10, 12, "Hard", "M", "SF"),
     Plain(12, 10, "Hard", "M", "SF")]

  const FormFactorSpecs: seq<MatchSpec> :=
    [Plain(20, 25, "Hard", "A", "QF"),
     Plain(25, 20, "Hard", "A", "QF")]

  const TournamentContextSpecs: seq<MatchSpec> :=
    [Plain(8, 15, "Hard", "G", "F"),
     Plain(8, 15, "Hard", "M", "F"),
     Plain(8, 15, "Hard", "A", "F"),
     Plain(8, 15, "Hard", "G", "R32")]

  const ScenarioNames: seq<string> :=
    ["Ranking Sensitivity", "Surface Impact", "Head-to-Head Consistency", "Form Factor", "Tournament Context"]

  // What each scenario is meant to show, as reported.

  const RankingSensitivityText: string :=
    "Tests if model properly reflects ranking differences. Expected: Higher-ranked players should have significantly higher win probabilities against lower-ranked opponents."

  const SurfaceImpactText: string :=
    "Tests if model differentiates surface impact. Expected: Probabilities should vary meaningfully across surfaces, especially for specialists."

  const HeadToHeadText: string :=
    "Tests if P(A beats B) + P(B beats A) \U{2248} 1.0. Expected: Complementary probabilities should be consistent."

  const FormFactorText: string :=
    "Tests if recent form affects predictions appropriately. Expected: Players in good form should have higher win probabilities."

  const TournamentContextText: string :=
    "Tests if tournament level and round affect predictions. Expected: Different contexts should produce different probabilities."

  /** `createCalibrationTestScenarios`: the five scenarios, in order. */
  function Scenarios(): seq<TestScenario> {
    [Scenario(ScenarioNames[0], RankingSensitivitySpecs,
       RankingSensitivityText),
     Scenario(ScenarioNames[1], SurfaceImpactSpecs,
       SurfaceImpactText),
     Scenario(ScenarioNames[2], HeadToHeadSpecs,
       HeadToHeadText),
     Scenario(ScenarioNames[3], FormFactorSpecs,
       FormFactorText),
     Scenario(ScenarioNames[4], TournamentContextSpecs,
       TournamentContextText)]
  }

  /** Five scenarios under their names, of 5, 5, 2, 2 and 4 matches. */
  lemma ScenarioShape()
    ensures |Scenarios()| == |ScenarioNames| == 5
    ensures forall i :: 0 <= i < 5 ==> Scenarios()[i].name == ScenarioNames[i]
    ensures |Scenarios()[0].matches| == 5 && |Scenarios()[1].matches| == 5
    ensures |Scenarios()[2].matches| == 2 && |Scenarios()[3].matches| == 2 && |Scenarios()[4].matches| == 4
  {
  }

  /** The two surface-specialist matches are the plain clay and grass
      quarter-finals of the same pairing. */
  lemma SpecialistsArePlainMatches()
    ensures MatchOf(SurfaceImpactSpecs[3]) == MatchOf(SurfaceImpactSpecs[1])
    ensures MatchOf(SurfaceImpactSpecs[4]) == MatchOf(SurfaceImpactSpecs[2])
  {
  }

  /** The head-to-head pair is one pairing seen from both sides. */
  lemma HeadToHeadIsMirrored()
    ensures MatchOf(HeadToHeadSpecs[1]) == SwapSides(MatchOf(HeadToHeadSpecs[0]))
  {
  }

  /** Test players of rank 1 to 166 get 5000 less 30 points per rank; from
      rank 167 on they get the floor of 1. */
  lemma TestRankPointsSchedule(rank: Int32)
    requires 1 <= rank <= 1000
    ensures rank <= 166 ==> TestRankPoints(rank) as int == 5000 - 30 * rank
    ensures rank > 166 ==> TestRankPoints(rank) == 1
  {
  }

  // ---------------------------------------------------------------------
  // Running the scenarios

  /** How the bench obtains a prediction for player 1 (the winner). */
  type Predictor = Match -> real

  /** The calibrated model as the bench's predictor. */
  function CalibratorPredictor(t: Transcendentals, reg: HistoryManager.Registry): Predictor
    requires Sound(t)
  {
    m => Calibrator.CalibratedPrediction(t, reg, m, true)
  }

  /** Every prediction lies in [lo, hi]. */
  ghost predicate PredictsWithin(predict: Predictor, lo: real, hi: real) {
    forall m :: lo <= predict(m) <= hi
  }

  /** The calibrated model only predicts within its clamp. */
  lemma CalibratorPredictsWithin(t: Transcendentals, reg: HistoryManager.Registry)
    requires Sound(t)
    ensures PredictsWithin(CalibratorPredictor(t, reg), Calibrator.MinProbability, Calibrator.MaxProbability)
  {
  }

  /** The predictions for a list of matches, in order. */
  function Predictions(predict: Predictor, ms: seq<Match>): (ps: seq<real>)
    ensures |ps| == |ms|
    ensures forall i :: 0 <= i < |ms| ==> ps[i] == predict(ms[i])
  {
    if |ms| == 0 then [] else Predictions(predict, ms[..|ms| - 1]) + [predict(ms[|ms| - 1])]
  }

  /** `runTestScenario`: the scenario's name and expected behaviour, one
      prediction per match in order, and a variance that is never
      negative. */
  function RunTestScenario(predict: Predictor, s: TestScenario): (r: TestResult)
    ensures r.scenarioName == s.name && r.expectedBehavior == s.expectedBehavior
    ensures |r.predictions| == |s.matches|
    ensures forall i :: 0 <= i < |s.matches| ==> r.predictions[i] == predict(s.matches[i])
    ensures r.predictionVariance >= 0.0
  {
    NewTestResult(s.name, Predictions(predict, s.matches), s.expectedBehavior)
  }

  /** `runCalibrationTests` over the given scenarios: one result per
      scenario, in order. */
  function RunAll(predict: Predictor, scenarios: seq<TestScenario>): (rs: seq<TestResult>)
    ensures |rs| == |scenarios|
    ensures forall i :: 0 <= i < |rs| ==> rs[i] == RunTestScenario(predict, scenarios[i])
  {
    seq(|scenarios|, i requires 0 <= i < |scenarios| => RunTestScenario(predict, scenarios[i]))
  }

  /** `runCalibrationTests`: one result per fixed scenario, in order,
      each under its scenario's name with one prediction per match. */
  function RunCalibrationTests(predict: Predictor): (rs: seq<TestResult>)
    ensures |rs| == |Scenarios()|
    ensures forall i :: 0 <= i < |rs| ==>
      rs[i].scenarioName == Scenarios()[i].name && |rs[i].predictions| == |Scenarios()[i].matches|
  {
    RunAll(predict, Scenarios())
  }

  /** With predictions in [lo, hi], every scenario's average lies there
      too; the calibrated model's averages lie in [0.05, 0.95]. */
  lemma AveragesWithin(predict: Predictor, lo: real, hi: real, s: TestScenario)
    requires PredictsWithin(predict, lo, hi) && |s.matches| > 0
    ensures lo <= RunTestScenario(predict, s).averagePrediction <= hi
  {
    MeanWithin(Predictions(predict, s.matches), lo, hi);
  }

  /** The names of the scenarios, in order. */
  function Names(scenarios: seq<TestScenario>): (ns: seq<string>)
    ensures |ns| == |scenarios| && forall i :: 0 <= i < |ns| ==> ns[i] == scenarios[i].name
  {
    seq(|scenarios|, i requires 0 <= i < |scenarios| => scenarios[i].name)
  }

  /** Results that all fail are all listed for review, in order. */
  lemma {:induction false} AllFailingNeedReview(results: seq<TestResult>)
    requires forall i :: 0 <= i < |results| ==> !IsReasonablyCalibrated(results[i])
    ensures NeedsReview(results) == seq(|results|, i requires 0 <= i < |results| => results[i].scenarioName)
  {
    if |results| > 0 {
      var prefix := results[..|results| - 1];
      assert forall i :: 0 <= i < |prefix| ==> prefix[i] == results[i];
      AllFailingNeedReview(prefix);
    }
  }

  /** A predictor that ignores the match fails every scenario, so the
      summary lists every scenario for review. */
  lemma ConstantPredictorFailsAll(c: real, scenarios: seq<TestScenario>)
    ensures NeedsReview(RunAll(_ => c, scenarios)) == Names(scenarios)
  {
    var rs := RunAll(_ => c, scenarios);
    forall i | 0 <= i < |rs| ensures !IsReasonablyCalibrated(rs[i]) {
      var s := scenarios[i];
      UniformPredictionsFail(s.name, Predictions(_ => c, s.matches), s.expectedBehavior);
    }
    AllFailingNeedReview(rs);
  }
}

=== FILE: calibrator.dfy ===
/** The calibrated win probability of a match: a ranking prior refined by
    surface ratings, recent form, the head-to-head record and the tournament
    context, then clamped to [0.05, 0.95]. Also the adaptive-K rating update
    and the validation run over a list of matches.

    Each stage takes the histories and the head-to-head record it needs as
    arguments, so that the stages can be reasoned about one at a time; the
    pipeline looks them up in the registry.
 */
module Calibrator {
  import opened Optional
  import opened JavaNum
  import opened Analysis
  import opened Records
  import opened Domain
  import opened Metrics
  import History
  import HistoryManager

  const RankSensitivity: real := 0.8
  const SurfaceImpact: real := 0.15
  const HeadToHeadDecay: real := 0.95
  const FormWeightRecent: real := 0.7
  const FormWeightSurface: real := 0.3
  const KHighRank: real := 20.0
  const KLowRank: real := 32.0
  const EloFloor: real := 1000.0
  const EloCeiling: real := 2500.0
  const MinProbability: real := 0.05
  const MaxProbability: real := 0.95
  /** The rank assumed for a player with no (or a non-positive) rank. */
  const MissingRank: int := 500
  const FormWindow: int := 10

  // ---------------------------------------------------------------------
  // Shared pieces

  /** A missing or non-positive rank counts as 500. */
  function EffectiveRank(rank: Option<Int32>): (r: int)
    ensures r > 0
    ensures rank.Some? && rank.value > 0 ==> r == rank.value
    ensures rank.None? || rank.value <= 0 ==> r == MissingRank
  {
    if rank.None? || rank.value <= 0 then MissingRank else rank.value
  }

  /** `p * (1 - w) + q * w`: a point between `p` and `q` when `w` is a
      weight. */
  function Blend(p: real, q: real, w: real): (r: real)
    ensures 0.0 <= w <= 1.0 ==> MinReal(p, q) <= r <= MaxReal(p, q)
    ensures w == 0.0 ==> r == p
    ensures w == 1.0 ==> r == q
  {
    var r := p * (1.0 - w) + q * w;
    if 0.0 <= w <= 1.0 then BlendBetween(p, q, w); r else r
  }

  lemma BlendBetween(p: real, q: real, w: real)
    requires 0.0 <= w <= 1.0
    ensures MinReal(p, q) <= p * (1.0 - w) + q * w <= MaxReal(p, q)
  {
    if p <= q {
      var d := q - p;
      ScaleWithin(d, w);
      assert p * (1.0 - w) + q * w == p + d * w;
      assert p + d * w <= q;
    } else {
      var d := p - q;
      ScaleWithin(d, 1.0 - w);
      assert p * (1.0 - w) + q * w == q + d * (1.0 - w);
      assert q + d * (1.0 - w) <= p;
    }
  }

  lemma BlendComplement(p: real, q: real, w: real)
    ensures Blend(1.0 - p, 1.0 - q, w) == 1.0 - Blend(p, q, w)
  {
  }

  /** The history of a player, `null` (here `None`) when the player has no id
      or the registry has never seen it. */
  function HistoryOf(reg: HistoryManager.Registry, p: Player): (h: Option<History.PlayerHistory>)
    ensures p.playerId.None? ==> h.None?
    ensures p.playerId.Some? ==> h == HistoryManager.GetPlayerHistory(reg, p.playerId.value)
  {
    if p.playerId.None? then None else HistoryManager.GetPlayerHistory(reg, p.playerId.value)
  }

  /** The head-to-head record of `p1` against `p2`, absent when either id is. */
  function RecordBetween(reg: HistoryManager.Registry, p1: Player, p2: Player): (r: Option<HeadToHeadRecord>)
    ensures p1.playerId.None? || p2.playerId.None? ==> r.None?
    ensures p1.playerId.Some? && p2.playerId.Some? ==>
      r == HistoryManager.GetHeadToHeadRecord(reg, p1.playerId.value, p2.playerId.value)
  {
    if p1.playerId.None? || p2.playerId.None? then None
    else HistoryManager.GetHeadToHeadRecord(reg, p1.playerId.value, p2.playerId.value)
  }

  // ---------------------------------------------------------------------
  // Stage 1: ranking prior

  /** sigmoid(0.8 · (ln r2 - ln r1)): above 1/2 exactly when player 1 is the
      better ranked (smaller rank number). */
  function RankingPrior(t: Transcendentals, p1: Player, p2: Player): (r: real)
    requires Sound(t)
    ensures 0.0 < r < 1.0
    ensures EffectiveRank(p1.rank) == EffectiveRank(p2.rank) ==> r == 0.5
    ensures EffectiveRank(p1.rank) < EffectiveRank(p2.rank) ==> r > 0.5
    ensures EffectiveRank(p1.rank) > EffectiveRank(p2.rank) ==> r < 0.5
  {
    var r1 := EffectiveRank(p1.rank) as real;
    var r2 := EffectiveRank(p2.rank) as real;
    assert r1 < r2 ==> t.ln(r1) < t.ln(r2);
    assert r2 < r1 ==> t.ln(r2) < t.ln(r1);
    Sigmoid(t, (t.ln(r2) - t.ln(r1)) * RankSensitivity)
  }

  lemma RankingPriorComplement(t: Transcendentals, p1: Player, p2: Player)
    requires Sound(t)
    ensures RankingPrior(t, p2, p1) == 1.0 - RankingPrior(t, p1, p2)
  {
    var l1 := t.ln(EffectiveRank(p1.rank) as real);
    var l2 := t.ln(EffectiveRank(p2.rank) as real);
    assert (l1 - l2) * RankSensitivity == -((l2 - l1) * RankSensitivity);
    SigmoidComplement(t, (l2 - l1) * RankSensitivity);
  }

  // ---------------------------------------------------------------------
  // Stage 2: surface ratings

  /** The adjustment table (Hard 1.0, Clay 1.2, Grass 1.3, Carpet 1.1, any
      other surface 1.0) scaled by 0.15. */
  function SurfaceWeight(surface: string): (w: real)
    ensures 0.15 <= w <= 0.195
  {
    var factor :=
      if surface == "Clay" then 1.2
      else if surface == "Grass" then 1.3
      else if surface == "Carpet" then 1.1
      else 1.0;
    factor * SurfaceImpact
  }

  lemma SurfaceWeightTable()
    ensures SurfaceWeight("Hard") == 0.15
    ensures SurfaceWeight("Clay") == 0.18
    ensures SurfaceWeight("Grass") == 0.195
    ensures SurfaceWeight("Carpet") == 0.165
    ensures SurfaceWeight("Indoor") == 0.15
  {
  }

  /** The surface name the stage uses: a missing surface is "Hard". */
  function SurfaceKey(surface: Option<string>): string {
    surface.GetOr("Hard")
  }

  /** The rating-based expectation of player 1 on the match surface. */
  function SurfaceExpectation(t: Transcendentals, h1: History.PlayerHistory, h2: History.PlayerHistory, surface: Option<string>): (e: real)
    requires Sound(t)
    ensures 0.0 < e < 1.0
    ensures History.SurfaceElo(h1, Some(SurfaceKey(surface))) == History.SurfaceElo(h2, Some(SurfaceKey(surface))) ==> e == 0.5
  {
    var key := Some(SurfaceKey(surface));
    EloExpectation(t, History.SurfaceElo(h1, key) - History.SurfaceElo(h2, key))
  }

  lemma SurfaceExpectationComplement(t: Transcendentals, h1: History.PlayerHistory, h2: History.PlayerHistory, surface: Option<string>)
    requires Sound(t)
    ensures SurfaceExpectation(t, h2, h1, surface) == 1.0 - SurfaceExpectation(t, h1, h2, surface)
  {
    var key := Some(SurfaceKey(surface));
    var d := History.SurfaceElo(h1, key) - History.SurfaceElo(h2, key);
    assert History.SurfaceElo(h2, key) - History.SurfaceElo(h1, key) == -d;
    EloExpectationComplement(t, d);
  }

  /** Unchanged when either history is missing; otherwise a blend of the
      input and the surface-rating expectation with the surface's weight. */
  function SurfaceStage(t: Transcendentals, p: real, h1: Option<History.PlayerHistory>, h2: Option<History.PlayerHistory>,
                        surface: Option<string>): (r: real)
    requires Sound(t)
    ensures h1.None? || h2.None? ==> r == p
    ensures h1.Some? && h2.Some? ==>
      var e := SurfaceExpectation(t, h1.value, h2.value, surface);
      MinReal(p, e) <= r <= MaxReal(p, e)
    ensures 0.0 < p < 1.0 ==> 0.0 < r < 1.0
  {
    if h1.None? || h2.None? then p
    else Blend(p, SurfaceExpectation(t, h1.value, h2.value, surface), SurfaceWeight(SurfaceKey(surface)))
  }

  lemma SurfaceStageComplement(t: Transcendentals, p: real, h1: Option<History.PlayerHistory>, h2: Option<History.PlayerHistory>,
                               surface: Option<string>)
    requires Sound(t)
    ensures SurfaceStage(t, 1.0 - p, h2, h1, surface) == 1.0 - SurfaceStage(t, p, h1, h2, surface)
  {
    if h1.Some? && h2.Some? {
      SurfaceExpectationComplement(t, h1.value, h2.value, surface);
      BlendComplement(p, SurfaceExpectation(t, h1.value, h2.value, surface), SurfaceWeight(SurfaceKey(surface)));
    }
  }

  // ---------------------------------------------------------------------
  // Stage 3: form

  /** 0.7 · recent form + 0.3 · surface form, over the last 10 results. */
  function CombinedForm(h: History.PlayerHistory, surface: Option<string>): (f: real)
    ensures 0.0 <= f <= 1.0
  {
    FormWeightRecent * History.RecentForm(h, FormWindow) + FormWeightSurface * History.SurfaceForm(h, surface, FormWindow)
  }

  /** tanh(2 · form difference) · 0.1: at most ten points either way, with
      the sign of the difference. */
  function FormAdjustment(t: Transcendentals, diff: real): (a: real)
    requires Sound(t)
    ensures -0.1 <= a <= 0.1
    ensures diff == 0.0 ==> a == 0.0
    ensures diff >= 0.0 ==> a >= 0.0
    ensures diff <= 0.0 ==> a <= 0.0
  {
    assert t.tanh(0.0) == 0.0 by {
      assert 0.0 + 0.0 == 0.0;
      assert t.tanh(0.0) + t.tanh(0.0) == 0.0;
    }
    assert diff >= 0.0 ==> t.tanh(0.0) <= t.tanh(diff * 2.0);
    assert diff <= 0.0 ==> t.tanh(diff * 2.0) <= t.tanh(0.0);
    t.tanh(diff * 2.0) * 0.1
  }

  lemma FormAdjustmentOdd(t: Transcendentals, diff: real)
    requires Sound(t)
    ensures FormAdjustment(t, -diff) == -FormAdjustment(t, diff)
  {
    assert -diff * 2.0 + diff * 2.0 == 0.0;
    assert t.tanh(-diff * 2.0) + t.tanh(diff * 2.0) == 0.0;
  }

  /** Unchanged when either history is missing; otherwise the input moved by
      the form adjustment and clamped to [0.05, 0.95]. The clamp never moves
      a probability that was already inside it by more than the
      adjustment. */
  function FormStage(t: Transcendentals, p: real, h1: Option<History.PlayerHistory>, h2: Option<History.PlayerHistory>,
                     surface: Option<string>): (r: real)
    requires Sound(t)
    ensures h1.None? || h2.None? ==> r == p
    ensures h1.Some? && h2.Some? ==> MinProbability <= r <= MaxProbability
    ensures h1.Some? && h2.Some? && MinProbability <= p <= MaxProbability ==> -0.1 <= r - p <= 0.1
    ensures h1.Some? && h2.Some? && CombinedForm(h1.value, surface) == CombinedForm(h2.value, surface) ==>
      r == Clamp(MinProbability, MaxProbability, p)
    ensures h1.Some? && h2.Some? && CombinedForm(h1.value, surface) >= CombinedForm(h2.value, surface) ==>
      r >= Clamp(MinProbability, MaxProbability, p)
    ensures 0.0 < p < 1.0 ==> 0.0 < r < 1.0
  {
    if h1.None? || h2.None? then p
    else
      var a := FormAdjustment(t, CombinedForm(h1.value, surface) - CombinedForm(h2.value, surface));
      Clamp(MinProbability, MaxProbability, p + a)
  }

  lemma FormStageComplement(t: Transcendentals, p: real, h1: Option<History.PlayerHistory>, h2: Option<History.PlayerHistory>,
                            surface: Option<string>)
    requires Sound(t)
    ensures FormStage(t, 1.0 - p, h2, h1, surface) == 1.0 - FormStage(t, p, h1, h2, surface)
  {
    if h1.Some? && h2.Some? {
      var d := CombinedForm(h1.value, surface) - CombinedForm(h2.value, surface);
      assert CombinedForm(h2.value, surface) - CombinedForm(h1.value, surface) == -d;
      FormAdjustmentOdd(t, d);
      var a := FormAdjustment(t, d);
      assert (1.0 - p) + -a == 1.0 - (p + a);
      ClampComplement(MinProbability, p + a);
    }
  }

  // ---------------------------------------------------------------------
  // Stage 4: head-to-head

  /** min(1, n/10) · 0.95^n: the weight of a rivalry of `n` meetings. */
  function HeadToHeadWeight(n: nat): (w: real)
    ensures n == 0 ==> w == 0.0
    ensures n > 0 ==> 0.0 < w < 1.0
  {
    PowUnitInterval(HeadToHeadDecay, n);
    var reliability := MinReal(1.0, (n as real) / 10.0);
    assert n > 0 ==> 0.0 < reliability <= 1.0;
    assert n > 0 ==> reliability * Pow(HeadToHeadDecay, n) <= 1.0 * Pow(HeadToHeadDecay, n);
    reliability * Pow(HeadToHeadDecay, n)
  }

  lemma HeadToHeadWeightRises(n: nat)
    requires 0 < n < 10
    ensures HeadToHeadWeight(n) <= HeadToHeadWeight(n + 1)
  {
    PowUnitInterval(HeadToHeadDecay, n);
    var q := Pow(HeadToHeadDecay, n);
    var a, b := n as real, ((n + 1) as real) * HeadToHeadDecay;
    assert a * q <= b * q by {
      assert a <= b;
    }
    var x, y := HeadToHeadWeight(n), HeadToHeadWeight(n + 1);
    assert x * 10.0 == a * q;
    assert y * 10.0 == b * q by {
      assert Pow(HeadToHeadDecay, n + 1) == HeadToHeadDecay * q;
    }
  }

  lemma HeadToHeadWeightFalls(n: nat)
    requires n >= 10
    ensures HeadToHeadWeight(n + 1) <= HeadToHeadWeight(n)
  {
    PowUnitInterval(HeadToHeadDecay, n);
    assert HeadToHeadWeight(n) == Pow(HeadToHeadDecay, n);
    assert HeadToHeadWeight(n + 1) == HeadToHeadDecay * Pow(HeadToHeadDecay, n);
  }

  /** The weight of the head-to-head record grows with the first ten
      meetings and shrinks after them: a rivalry of ten meetings weighs the
      most, and a longer one counts for less. */
  lemma {:induction false} HeadToHeadWeightPeaksAtTen(n: nat)
    requires n > 0
    ensures HeadToHeadWeight(n) <= HeadToHeadWeight(10)
    decreases if n <= 10 then 10 - n else n
  {
    if n < 10 {
      HeadToHeadWeightRises(n);
      HeadToHeadWeightPeaksAtTen(n + 1);
    } else if n > 10 {
      HeadToHeadWeightFalls(n - 1);
      HeadToHeadWeightPeaksAtTen(n - 1);
    }
  }

  /** Unchanged with no record or an empty one; otherwise strictly a blend
      of the input and the head-to-head win rate. */
  function HeadToHeadStage(p: real, rec: Option<HeadToHeadRecord>): (r: real)
    ensures rec.None? || TotalMatches(rec.value) == 0 ==> r == p
    ensures rec.Some? && TotalMatches(rec.value) > 0 ==>
      var rate := HeadToHeadWinRate(rec.value);
      MinReal(p, rate) <= r <= MaxReal(p, rate) &&
      (p != rate ==> r != p)
    ensures 0.0 < p < 1.0 ==> 0.0 <= r <= 1.0
  {
    if rec.None? || TotalMatches(rec.value) == 0 then p
    else
      var w := HeadToHeadWeight(TotalMatches(rec.value));
      var rate := HeadToHeadWinRate(rec.value);
      assert p != rate ==> Blend(p, rate, w) != p by {
        assert Blend(p, rate, w) - p == (rate - p) * w;
      }
      Blend(p, rate, w)
  }

  lemma HeadToHeadStageComplement(p: real, rec: Option<HeadToHeadRecord>, mirror: Option<HeadToHeadRecord>)
    requires HistoryManager.MirrorPair(rec, mirror)
    ensures HeadToHeadStage(1.0 - p, mirror) == 1.0 - HeadToHeadStage(p, rec)
  {
    if rec.Some? {
      HeadToHeadRateComplement(rec.value, mirror.value);
      BlendComplement(p, HeadToHeadWinRate(rec.value), HeadToHeadWeight(TotalMatches(rec.value)));
    }
  }

  // ---------------------------------------------------------------------
  // Stage 5: tournament context

  predicate IsGrandSlam(level: Option<string>) {
    level == Some("G")
  }

  predicate IsLateRound(round: Option<string>) {
    round == Some("SF") || round == Some("F")
  }

  /** Late rounds stretch the distance from 1/2 by a tenth; a Grand Slam
      then adds two points in favour of player 1. */
  function TournamentStage(p: real, level: Option<string>, round: Option<string>): (r: real)
    ensures var bias := if IsGrandSlam(level) then 0.02 else 0.0;
      var stretch := if IsLateRound(round) then 1.1 else 1.0;
      r - bias - 0.5 == stretch * (p - 0.5)
  {
    var levelAdjustment := if IsGrandSlam(level) then 0.02 else 0.0;
    var roundAdjustment := if IsLateRound(round) then (p - 0.5) * 0.1 else 0.0;
    p + levelAdjustment + roundAdjustment
  }

  /** Outside Grand Slams the stage treats the two sides alike; in a Grand
      Slam both sides gain the same two points. */
  lemma TournamentStageComplement(p: real, level: Option<string>, round: Option<string>)
    ensures !IsGrandSlam(level) ==> TournamentStage(1.0 - p, level, round) == 1.0 - TournamentStage(p, level, round)
    ensures IsGrandSlam(level) ==> TournamentStage(1.0 - p, level, round) + TournamentStage(p, level, round) == 1.04
  {
  }

  // ---------------------------------------------------------------------
  // The pipeline

  /** The player whose probability is computed and the opponent. */
  function Sides(m: Match, player1IsWinner: bool): (Player, Player) {
    if player1IsWinner then (m.winner, m.loser) else (m.loser, m.winner)
  }

  /** The five stages in order, for player `p1` against `p2` with their
      histories and head-to-head record, before the final clamp. Without a
      history on both sides and without a past meeting, only the ranking
      prior and the tournament adjustment act. The result stays within
      five points below 0 and seven above 1, which is why the final clamp
      is needed. */
  function Stages(t: Transcendentals, p1: Player, p2: Player, h1: Option<History.PlayerHistory>,
                  h2: Option<History.PlayerHistory>, rec: Option<HeadToHeadRecord>, m: Match): (r: real)
    requires Sound(t)
    ensures (h1.None? || h2.None?) && (rec.None? || TotalMatches(rec.value) == 0) ==>
      r == TournamentStage(RankingPrior(t, p1, p2), m.tourneyLevel, m.round)
    ensures -0.05 <= r <= 1.07
  {
    var base := RankingPrior(t, p1, p2);
    var surfaceAdjusted := SurfaceStage(t, base, h1, h2, m.surface);
    var formAdjusted := FormStage(t, surfaceAdjusted, h1, h2, m.surface);
    var h2hAdjusted := HeadToHeadStage(formAdjusted, rec);
    TournamentStage(h2hAdjusted, m.tourneyLevel, m.round)
  }

  /** The stages read from the registry, before the final clamp. */
  function Unclamped(t: Transcendentals, reg: HistoryManager.Registry, m: Match, player1IsWinner: bool): real
    requires Sound(t)
  {
    var (p1, p2) := Sides(m, player1IsWinner);
    Stages(t, p1, p2, HistoryOf(reg, p1), HistoryOf(reg, p2), RecordBetween(reg, p1, p2), m)
  }

  /** The surface and form stages together, run from the other side on
      the complementary prior, give the complementary probability. */
  lemma SurfaceFormComplement(t: Transcendentals, p: real, q: real, h1: Option<History.PlayerHistory>,
                              h2: Option<History.PlayerHistory>, surface: Option<string>)
    requires Sound(t) && q == 1.0 - p
    ensures FormStage(t, SurfaceStage(t, q, h2, h1, surface), h2, h1, surface) ==
      1.0 - FormStage(t, SurfaceStage(t, p, h1, h2, surface), h1, h2, surface)
  {
    if h1.Some? && h2.Some? {
      var s := SurfaceStage(t, p, h1, h2, surface);
      var s' := SurfaceStage(t, q, h2, h1, surface);
      assert s' == 1.0 - s by {
        SurfaceStageComplement(t, p, h1, h2, surface);
      }
      FormStageComplement(t, s, h1, h2, surface);
    }
  }

  /** Outside Grand Slams, running the stages from the other side, with the
      mirrored head-to-head record, gives the complementary probability. */
  lemma StagesComplement(t: Transcendentals, p1: Player, p2: Player, h1: Option<History.PlayerHistory>,
                         h2: Option<History.PlayerHistory>, rec: Option<HeadToHeadRecord>,
                         mirror: Option<HeadToHeadRecord>, m: Match)
    requires Sound(t)
    requires HistoryManager.MirrorPair(rec, mirror)
    requires !IsGrandSlam(m.tourneyLevel)
    ensures Stages(t, p2, p1, h2, h1, mirror, m) == 1.0 - Stages(t, p1, p2, h1, h2, rec, m)
  {
    var base := RankingPrior(t, p1, p2);
    var base' := RankingPrior(t, p2, p1);
    assert base' == 1.0 - base by {
      RankingPriorComplement(t, p1, p2);
    }
    var f := FormStage(t, SurfaceStage(t, base, h1, h2, m.surface), h1, h2, m.surface);
    var f' := FormStage(t, SurfaceStage(t, base', h2, h1, m.surface), h2, h1, m.surface);
    SurfaceFormComplement(t, base, base', h1, h2, m.surface);
    LateStagesComplement(f, f', rec, mirror, m.tourneyLevel, m.round);
    assert Stages(t, p1, p2, h1, h2, rec, m) == TournamentStage(HeadToHeadStage(f, rec), m.tourneyLevel, m.round);
    assert Stages(t, p2, p1, h2, h1, mirror, m) == TournamentStage(HeadToHeadStage(f', mirror), m.tourneyLevel, m.round);
  }

  /** The head-to-head and tournament stages, run from the other side on
      the complementary probability with the mirrored record, give the
      complementary probability outside Grand Slams. */
  lemma LateStagesComplement(p: real, q: real, rec: Option<HeadToHeadRecord>, mirror: Option<HeadToHeadRecord>,
                             level: Option<string>, round: Option<string>)
    requires q == 1.0 - p && HistoryManager.MirrorPair(rec, mirror) && !IsGrandSlam(level)
    ensures TournamentStage(HeadToHeadStage(q, mirror), level, round) ==
      1.0 - TournamentStage(HeadToHeadStage(p, rec), level, round)
  {
    var hh := HeadToHeadStage(p, rec);
    assert HeadToHeadStage(q, mirror) == 1.0 - hh by {
      HeadToHeadStageComplement(p, rec, mirror);
    }
    TournamentStageComplement(hh, level, round);
  }

  /** The calibrated probability that player 1 (the winner when
      `player1IsWinner`, the loser otherwise) wins the match. */
  function CalibratedPrediction(t: Transcendentals, reg: HistoryManager.Registry, m: Match, player1IsWinner: bool): (r: real)
    requires Sound(t)
    ensures MinProbability <= r <= MaxProbability
  {
    Clamp(MinProbability, MaxProbability, Unclamped(t, reg, m, player1IsWinner))
  }

  /** Two unknown players of equal rank in an ordinary early-round match are
      an even contest. */
  lemma UnknownEqualsAreEven(t: Transcendentals, reg: HistoryManager.Registry, m: Match)
    requires Sound(t)
    requires m.winner.playerId.None? && m.loser.playerId.None?
    requires EffectiveRank(m.winner.rank) == EffectiveRank(m.loser.rank)
    requires !IsGrandSlam(m.tourneyLevel)
    ensures CalibratedPrediction(t, reg, m, true) == 0.5
  {
  }

  /** With the head-to-head records kept mirrored (as every ingest keeps
      them) and outside Grand Slams, the predictions for the two sides of a
      match add up to 1. */
  lemma PredictionsComplement(t: Transcendentals, reg: HistoryManager.Registry, m: Match)
    requires Sound(t)
    requires HistoryManager.Mirrored(reg)
    requires !IsGrandSlam(m.tourneyLevel)
    ensures CalibratedPrediction(t, reg, m, true) + CalibratedPrediction(t, reg, m, false) == 1.0
  {
    var a, b := m.winner, m.loser;
    var rec, mirror := RecordBetween(reg, a, b), RecordBetween(reg, b, a);
    assert HistoryManager.MirrorPair(rec, mirror) by {
      if a.playerId.Some? && b.playerId.Some? {
        var x, y := a.playerId.value, b.playerId.value;
        assert HistoryManager.MirrorPair(HistoryManager.LookupPair(reg.headToHead, x, y), HistoryManager.LookupPair(reg.headToHead, y, x));
      }
    }
    StagesComplement(t, a, b, HistoryOf(reg, a), HistoryOf(reg, b), rec, mirror, m);
    ClampComplement(MinProbability, Unclamped(t, reg, m, true));
  }

  // ---------------------------------------------------------------------
  // Rating update

  /** 20 for a top-50 player, 32 otherwise (a missing rank counts as 500),
      raised by a fifth at Grand Slams and a tenth at Masters. */
  function KFactor(p: Player, level: Option<string>): (k: real)
    ensures 20.0 <= k <= 38.4
    ensures EffectiveRank(p.rank) <= 50 ==> k <= 24.0
    ensures EffectiveRank(p.rank) > 50 ==> k >= 32.0
  {
    var baseK := if EffectiveRank(p.rank) <= 50 then KHighRank else KLowRank;
    if level == Some("G") then baseK * 1.2
    else if level == Some("M") then baseK * 1.1
    else baseK
  }

  /** A top-50 player always moves less than a lower-ranked one at the same
      event, and a more important event always moves a player more. */
  lemma KFactorOrdering(top: Player, other: Player, level: Option<string>)
    requires EffectiveRank(top.rank) <= 50 < EffectiveRank(other.rank)
    ensures KFactor(top, level) < KFactor(other, level)
    ensures KFactor(top, Some("G")) > KFactor(top, Some("M")) > KFactor(top, None)
    ensures KFactor(other, Some("G")) > KFactor(other, Some("M")) > KFactor(other, None)
  {
  }

  /** `elo + k · (score - expected)` clamped to [1000, 2500]. */
  function RatedElo(elo: real, k: real, score: real, expected: real): (r: real)
    ensures EloFloor <= r <= EloCeiling
    ensures EloFloor <= elo <= EloCeiling && k >= 0.0 && score >= expected ==> r >= elo
    ensures EloFloor <= elo <= EloCeiling && k >= 0.0 && score <= expected ==> r <= elo
  {
    assert k >= 0.0 && score >= expected ==> k * (score - expected) >= 0.0;
    assert k >= 0.0 && score <= expected ==> k * (expected - score) >= 0.0;
    Clamp(EloFloor, EloCeiling, elo + k * (score - expected))
  }

  /** The rating update applies only when both ids are present and both
      players have a history. */
  predicate EloUpdateApplies(reg: HistoryManager.Registry, m: Match) {
    HistoryOf(reg, m.winner).Some? && HistoryOf(reg, m.loser).Some?
  }

  /** The new (winner, loser) ratings on the match surface. */
  function NewRatings(t: Transcendentals, reg: HistoryManager.Registry, m: Match): (rs: (real, real))
    requires Sound(t)
    requires EloUpdateApplies(reg, m)
    ensures EloFloor <= rs.0 <= EloCeiling && EloFloor <= rs.1 <= EloCeiling
  {
    var winnerElo := History.SurfaceElo(HistoryOf(reg, m.winner).value, m.surface);
    var loserElo := History.SurfaceElo(HistoryOf(reg, m.loser).value, m.surface);
    var expectedWinner := EloExpectation(t, winnerElo - loserElo);
    var expectedLoser := 1.0 - expectedWinner;
    (RatedElo(winnerElo, KFactor(m.winner, m.tourneyLevel), 1.0, expectedWinner),
     RatedElo(loserElo, KFactor(m.loser, m.tourneyLevel), 0.0, expectedLoser))
  }

  /** `updatePlayerELO`: the winner's then the loser's surface rating is
      replaced by its new value. When both sides carry the same id, they
      share one history and the loser's value is the one kept. */
  function UpdatePlayerElo(t: Transcendentals, reg: HistoryManager.Registry, m: Match): (reg': HistoryManager.Registry)
    requires Sound(t)
    ensures !EloUpdateApplies(reg, m) ==> reg' == reg
    ensures reg'.headToHead == reg.headToHead
    ensures reg'.histories.Keys == reg.histories.Keys
  {
    if !EloUpdateApplies(reg, m) then reg
    else
      var (newWinnerElo, newLoserElo) := NewRatings(t, reg, m);
      var w, l := m.winner.playerId.value, m.loser.playerId.value;
      var hs := reg.histories;
      var hs1 := hs[w := History.UpdateSurfaceElo(hs[w], m.surface, newWinnerElo)];
      var hs2 := hs1[l := History.UpdateSurfaceElo(hs1[l], m.surface, newLoserElo)];
      reg.(histories := hs2)
  }

  /** What the update does to each history: the two players' ratings on the
      match surface become the new ratings, and nothing else changes (no
      other surface, no log, no other player). */
  lemma UpdatePlayerEloEffect(t: Transcendentals, reg: HistoryManager.Registry, m: Match)
    requires Sound(t)
    requires EloUpdateApplies(reg, m)
    ensures var reg' := UpdatePlayerElo(t, reg, m);
      var w, l := m.winner.playerId.value, m.loser.playerId.value;
      && History.SurfaceElo(reg'.histories[l], m.surface) == NewRatings(t, reg, m).1
      && (w != l ==> History.SurfaceElo(reg'.histories[w], m.surface) == NewRatings(t, reg, m).0)
      && (forall id :: id in reg.histories && id != w && id != l ==> reg'.histories[id] == reg.histories[id])
      && reg'.histories[w].matchHistory == reg.histories[w].matchHistory
      && reg'.histories[l].matchHistory == reg.histories[l].matchHistory
      && (forall s :: History.NormalizeSurface(s) != History.NormalizeSurface(m.surface) ==>
            History.SurfaceElo(reg'.histories[w], s) == History.SurfaceElo(reg.histories[w], s) &&
            History.SurfaceElo(reg'.histories[l], s) == History.SurfaceElo(reg.histories[l], s))
  {
  }

  /** A win never lowers the winner's rating and a loss never raises the
      loser's, provided the ratings started inside [1000, 2500]. */
  lemma EloUpdateDirection(t: Transcendentals, reg: HistoryManager.Registry, m: Match)
    requires Sound(t)
    requires EloUpdateApplies(reg, m)
    requires EloFloor <= History.SurfaceElo(HistoryOf(reg, m.winner).value, m.surface) <= EloCeiling
    requires EloFloor <= History.SurfaceElo(HistoryOf(reg, m.loser).value, m.surface) <= EloCeiling
    ensures NewRatings(t, reg, m).0 >= History.SurfaceElo(HistoryOf(reg, m.winner).value, m.surface)
    ensures NewRatings(t, reg, m).1 <= History.SurfaceElo(HistoryOf(reg, m.loser).value, m.surface)
  {
  }

  /** With equal K factors and no clamping, what the winner gains the loser
      loses. */
  lemma EloUpdateZeroSum(elo1: real, elo2: real, k: real, expected: real)
    requires EloFloor <= elo1 + k * (1.0 - expected) <= EloCeiling
    requires EloFloor <= elo2 + k * (0.0 - (1.0 - expected)) <= EloCeiling
    ensures RatedElo(elo1, k, 1.0, expected) + RatedElo(elo2, k, 0.0, 1.0 - expected) == elo1 + elo2
  {
  }

  // ---------------------------------------------------------------------
  // Validation run

  /** The calibrated prediction for the winner of every match, in order. */
  function WinnerPredictions(t: Transcendentals, reg: HistoryManager.Registry, ms: seq<Match>): (ps: seq<real>)
    requires Sound(t)
    ensures |ps| == |ms|
    ensures forall i :: 0 <= i < |ps| ==> MinProbability <= ps[i] <= MaxProbability
  {
    if |ms| == 0 then []
    else WinnerPredictions(t, reg, ms[..|ms| - 1]) + [CalibratedPrediction(t, reg, ms[|ms| - 1], true)]
  }

  /** The outcome list of a validation run: every match was won by the side
      predicted for. */
  function AllWins(n: nat): (ys: seq<bool>)
    ensures |ys| == n
    ensures forall i :: 0 <= i < n ==> ys[i]
  {
    seq(n, _ => true)
  }

  /** `validateCalibration`: the metrics of the winners' predictions against
      outcomes that are all wins. */
  function ValidateCalibration(t: Transcendentals, reg: HistoryManager.Registry, ms: seq<Match>): (r: CalibrationMetrics)
    requires Sound(t)
    ensures r.brierScore.None? <==> |ms| == 0
    ensures r.logLoss.None? <==> |ms| == 0
    ensures r.brierScore.Some? ==> 0.0025 <= r.brierScore.value <= 0.9025
    ensures 0.0 <= r.calibrationError <= 1.0
  {
    var ps := WinnerPredictions(t, reg, ms);
    var ys := AllWins(|ms|);
    assert AllProbabilities(ps);
    ConfidentWinsBrier(ps, ys);
    ComputeMetrics(t, ps, ys)
  }

  /** The Brier score of predictions in [0.05, 0.95] against wins lies in
      [0.05², 0.95²]. */
  lemma ConfidentWinsBrier(ps: seq<real>, ys: seq<bool>)
    requires |ps| == |ys|
    requires forall i :: 0 <= i < |ps| ==> MinProbability <= ps[i] <= MaxProbability
    requires forall i :: 0 <= i < |ys| ==> ys[i]
    ensures BrierScore(ps, ys).Some? ==> 0.0025 <= BrierScore(ps, ys).value <= 0.9025
  {
    ConfidentWinsBounds(ps, ys, |ps|);
    if |ps| > 0 {
      MeanBounds(SquaredErrors(ps, ys, |ps|), |ps| as real, 0.0025, 0.9025);
    }
  }

  /** Each squared error of a prediction in [0.05, 0.95] against a win lies
      in [0.05², 0.95²]. */
  lemma {:induction false} ConfidentWinsBounds(ps: seq<real>, ys: seq<bool>, n: nat)
    requires n <= |ps| && n <= |ys|
    requires forall i :: 0 <= i < |ps| ==> MinProbability <= ps[i] <= MaxProbability
    requires forall i :: 0 <= i < |ys| ==> ys[i]
    ensures 0.0025 * (n as real) <= SquaredErrors(ps, ys, n) <= 0.9025 * (n as real)
  {
    if n > 0 {
      ConfidentWinsBounds(ps, ys, n - 1);
      var d := ps[n - 1] - 1.0;
      assert -0.95 <= d <= -0.05;
      assert 0.0025 <= Square(d) <= 0.9025 by {
        assert Square(d) == (-d) * (-d);
        assert 0.05 * 0.05 <= (-d) * 0.05 <= (-d) * (-d);
        assert (-d) * (-d) <= 0.95 * (-d) <= 0.95 * 0.95;
      }
    }
  }
}

=== FILE: csv.dfy ===
/** The text handling the loader relies on: `String.split(",", -1)`,
    `String.trim()`, `Integer.parseInt` and `Integer.toString`.

    Characters are compared by code point; `trim` removes every character
    up to and including U+0020 from both ends, as Java's does.
 */
module Text {
  import opened Optional
  import opened JavaNum

  // ---------------------------------------------------------------------
  // Splitting on commas

  function FirstComma(s: string): (i: nat)
    requires ',' in s
    ensures i < |s| && s[i] == ','
    ensures forall k :: 0 <= k < i ==> s[k] != ','
    ensures ',' !in s[..i]
  {
    if s[0] == ',' then 0
    else
      assert ',' in s[1..] by {
        var k :| 0 <= k < |s| && s[k] == ',';
        assert s[1..][k - 1] == ',';
      }
      var j := FirstComma(s[1..]);
      assert s[..j + 1] == [s[0]] + s[1..][..j];
      assert forall k :: 1 <= k < j + 1 ==> s[k] == s[1..][k - 1];
      j + 1
  }

  /** `split(",", -1)`: the pieces between commas, trailing empty pieces
      kept, so there is always one more piece than commas. */
  function Split(s: string): (parts: seq<string>)
    ensures |parts| >= 1
    ensures forall i :: 0 <= i < |parts| ==> ',' !in parts[i]
    decreases |s|
  {
    if ',' !in s then [s]
    else
      var i := FirstComma(s);
      [s[..i]] + Split(s[i + 1..])
  }

  /** The pieces with a comma between each two: comma-free pieces give a
      line with one comma fewer than there are pieces. */
  function Join(parts: seq<string>): (s: string)
    requires |parts| >= 1
    ensures (forall i :: 0 <= i < |parts| ==> ',' !in parts[i]) ==> CountCommas(s) == |parts| - 1
  {
    if |parts| == 1 then
      if ',' !in parts[0] then NoCommaCount(parts[0]); parts[0] else parts[0]
    else
      var rest := Join(parts[1..]);
      if forall i :: 0 <= i < |parts| ==> ',' !in parts[i] then
        NoCommaCount(parts[0]);
        CountCommasAppend(parts[0] + ",", rest);
        CountCommasAppend(parts[0], ",");
        assert CountCommas(",") == 1 by {
          assert ","[..0] == "";
        }
        assert forall i :: 0 <= i < |parts| - 1 ==> parts[1..][i] == parts[i + 1];
        parts[0] + "," + rest
      else parts[0] + "," + rest
  }

  function CountCommas(s: string): nat {
    if |s| == 0 then 0 else CountCommas(s[..|s| - 1]) + (if s[|s| - 1] == ',' then 1 else 0)
  }

  lemma {:induction false} CountCommasAppend(a: string, b: string)
    ensures CountCommas(a + b) == CountCommas(a) + CountCommas(b)
    decreases |b|
  {
    if |b| > 0 {
      assert (a + b)[..|a + b| - 1] == a + b[..|b| - 1];
      CountCommasAppend(a, b[..|b| - 1]);
    } else {
      assert a + b == a;
    }
  }

  lemma {:induction false} NoCommaCount(s: string)
    requires ',' !in s
    ensures CountCommas(s) == 0
  {
    if |s| > 0 {
      var prefix := s[..|s| - 1];
      assert ',' !in prefix by {
        forall k | 0 <= k < |prefix| ensures prefix[k] != ',' {
          assert prefix[k] == s[k];
        }
      }
      NoCommaCount(prefix);
    }
  }

  /** Joining the pieces of a split gives the line back. */
  lemma {:induction false} JoinSplit(s: string)
    ensures Join(Split(s)) == s
    decreases |s|
  {
    if ',' in s {
      var i := FirstComma(s);
      var rest := s[i + 1..];
      var parts := Split(s);
      assert parts == [s[..i]] + Split(rest);
      assert parts[0] == s[..i] && parts[1..] == Split(rest);
      assert Join(parts) == s[..i] + "," + Join(Split(rest));
      JoinSplit(rest);
      assert s == s[..i] + "," + rest by {
        assert s == s[..i] + [s[i]] + s[i + 1..];
      }
    }
  }

  /** A line with `n` commas splits into `n + 1` pieces. */
  lemma {:induction false} SplitCount(s: string)
    ensures |Split(s)| == CountCommas(s) + 1
    decreases |s|
  {
    if ',' !in s {
      NoCommaCount(s);
    } else {
      var i := FirstComma(s);
      var rest := s[i + 1..];
      SplitCount(rest);
      assert s == (s[..i] + ",") + rest;
      NoCommaCount(s[..i]);
      CountCommasAppend(s[..i] + ",", rest);
      CountCommasAppend(s[..i], ",");
      assert CountCommas(",") == 1 by {
        assert ","[..0] == "";
      }
    }
  }

  /** Splitting a join of comma-free pieces gives the pieces back. */
  lemma {:induction false} SplitJoin(parts: seq<string>)
    requires |parts| >= 1
    requires forall i :: 0 <= i < |parts| ==> ',' !in parts[i]
    ensures Split(Join(parts)) == parts
  {
    if |parts| > 1 {
      SplitAtFirstComma(parts[0], Join(parts[1..]));
      SplitJoin(parts[1..]);
      assert parts == [parts[0]] + parts[1..];
    }
  }

  /** A comma-free head and the first comma after it split off as the
      first piece. */
  lemma SplitAtFirstComma(a: string, rest: string)
    requires ',' !in a
    ensures Split(a + "," + rest) == [a] + Split(rest)
  {
    var s := a + "," + rest;
    assert s[|a|] == ',';
    var i := FirstComma(s);
    assert i == |a| by {
      assert forall k :: 0 <= k < |a| ==> s[k] == a[k];
    }
    assert s[..i] == a;
    assert s[i + 1..] == rest;
  }


  // ---------------------------------------------------------------------
  // Trimming

  predicate IsSpace(c: char) {
    c <= ' '
  }

  /** The string without its leading spaces. */
  function TrimStart(s: string): string {
    if |s| > 0 && IsSpace(s[0]) then TrimStart(s[1..]) else s
  }

  /** The string without its trailing spaces. */
  function TrimEnd(s: string): string {
    if |s| > 0 && IsSpace(s[|s| - 1]) then TrimEnd(s[..|s| - 1]) else s
  }

  /** `TrimStart` drops a run of spaces and stops at the first other
      character. */
  lemma {:induction false} TrimStartDropsSpaces(s: string)
    ensures |TrimStart(s)| <= |s| && TrimStart(s) == s[|s| - |TrimStart(s)|..]
    ensures |TrimStart(s)| > 0 ==> !IsSpace(TrimStart(s)[0])
    ensures forall k :: 0 <= k < |s| - |TrimStart(s)| ==> IsSpace(s[k])
  {
    if |s| > 0 && IsSpace(s[0]) {
      TrimStartDropsSpaces(s[1..]);
    }
  }

  /** `TrimEnd` drops a run of spaces from the end and stops at the last
      other character. */
  lemma {:induction false} TrimEndDropsSpaces(s: string)
    ensures |TrimEnd(s)| <= |s| && TrimEnd(s) == s[..|TrimEnd(s)|]
    ensures |TrimEnd(s)| > 0 ==> !IsSpace(TrimEnd(s)[|TrimEnd(s)| - 1])
    ensures forall k :: |TrimEnd(s)| <= k < |s| ==> IsSpace(s[k])
  {
    if |s| > 0 && IsSpace(s[|s| - 1]) {
      TrimEndDropsSpaces(s[..|s| - 1]);
    }
  }

  /** `trim()`: never longer than the input, no space at either end, and
      empty exactly when the input is all spaces. */
  function Trim(s: string): (t: string)
    ensures |t| <= |s|
    ensures |t| > 0 ==> !IsSpace(t[0]) && !IsSpace(t[|t| - 1])
    ensures t == "" <==> forall k :: 0 <= k < |s| ==> IsSpace(s[k])
  {
    var front := TrimStart(s);
    TrimStartDropsSpaces(s);
    TrimEndDropsSpaces(front);
    var t := TrimEnd(front);
    assert |t| > 0 ==> t[0] == s[|s| - |front|];
    t
  }

  /** The trim is the longest middle slice with no space at either end:
      it starts after a run of spaces, ends before one, and neither of its
      own ends is a space. */
  lemma TrimIsMiddleSlice(s: string) returns (a: nat)
    ensures a + |Trim(s)| <= |s| && Trim(s) == s[a..a + |Trim(s)|]
    ensures |Trim(s)| > 0 ==> !IsSpace(Trim(s)[0]) && !IsSpace(Trim(s)[|Trim(s)| - 1])
    ensures forall k :: 0 <= k < a ==> IsSpace(s[k])
    ensures forall k :: a + |Trim(s)| <= k < |s| ==> IsSpace(s[k])
  {
    var front := TrimStart(s);
    TrimStartDropsSpaces(s);
    TrimEndDropsSpaces(front);
    a := |s| - |front|;
    var r := TrimEnd(front);
    assert r == s[a..a + |r|];
    forall k | a + |r| <= k < |s|
      ensures IsSpace(s[k])
    {
      assert s[k] == front[k - a];
    }
  }

  /** Trimming twice trims nothing more. */
  lemma TrimIdempotent(s: string)
    ensures Trim(Trim(s)) == Trim(s)
  {
    var _ := TrimIsMiddleSlice(s);
    TrimOfTrimmed(Trim(s));
  }

  /** A string without spaces at its ends is its own trim. */
  lemma TrimOfTrimmed(s: string)
    requires |s| > 0 ==> !IsSpace(s[0]) && !IsSpace(s[|s| - 1])
    ensures Trim(s) == s
  {
    if |s| > 0 {
      assert TrimStart(s) == s;
      assert TrimEnd(s) == s;
    }
  }

  // ---------------------------------------------------------------------
  // Decimal integers

  predicate IsDigit(c: char) {
    '0' <= c <= '9'
  }

  predicate AllDigits(s: string) {
    forall i :: 0 <= i < |s| ==> IsDigit(s[i])
  }

  function DigitValue(c: char): nat
    requires IsDigit(c)
  {
    (c as int) - ('0' as int)
  }

  function DigitChar(d: nat): (c: char)
    requires d < 10
    ensures IsDigit(c) && DigitValue(c) == d
  {
    (('0' as int) + d) as char
  }

  /** The value of a string of decimal digits. */
  function DigitsValue(s: string): nat
    requires AllDigits(s)
  {
    if |s| == 0 then 0 else DigitsValue(s[..|s| - 1]) * 10 + DigitValue(s[|s| - 1])
  }

  /** `Integer.parseInt`: an optional sign and at least one decimal digit,
      with a value inside the `int` range; `null` for anything else (the
      caller turns the exception into `null`). */
  function ParseInt(s: string): (r: Option<Int32>)
    ensures r.Some? ==> |s| > 0
    ensures r.Some? && s[0] != '-' && s[0] != '+' ==> AllDigits(s) && r.value as int == DigitsValue(s)
    ensures r.Some? <==>
      || (|s| > 0 && AllDigits(s) && DigitsValue(s) <= IntMax)
      || (|s| > 1 && s[0] == '+' && AllDigits(s[1..]) && DigitsValue(s[1..]) <= IntMax)
      || (|s| > 1 && s[0] == '-' && AllDigits(s[1..]) && DigitsValue(s[1..]) <= -IntMin)
    ensures r.Some? && s[0] == '+' ==> r.value as int == DigitsValue(s[1..])
    ensures r.Some? && s[0] == '-' ==> r.value as int == -(DigitsValue(s[1..]) as int)
  {
    if |s| == 0 then None
    else
      var negative := s[0] == '-';
      var digits := if s[0] == '-' || s[0] == '+' then s[1..] else s;
      if |digits| == 0 || !AllDigits(digits) then None
      else
        var v: int := if negative then -(DigitsValue(digits) as int) else DigitsValue(digits) as int;
        if IsInt32(v) then Some(v as Int32) else None
  }

  /** The decimal digits of a natural number, no leading zeros. */
  function FormatNat(n: nat): (s: string)
    ensures |s| > 0 && AllDigits(s)
    ensures DigitsValue(s) == n
    ensures |s| > 1 ==> s[0] != '0'
  {
    if n < 10 then [DigitChar(n)]
    else
      var front := FormatNat(n / 10);
      var s := front + [DigitChar(n % 10)];
      assert s[..|s| - 1] == front;
      s
  }

  /** `Integer.toString`. */
  function FormatInt(x: Int32): (s: string)
    ensures |s| > 0
    ensures x < 0 <==> s[0] == '-'
  {
    if x < 0 then "-" + FormatNat(-(x as int)) else FormatNat(x as int)
  }

  /** Parsing the text of any `int` gives that `int` back. */
  lemma ParseFormat(x: Int32)
    ensures ParseInt(FormatInt(x)) == Some(x)
  {
    var s := FormatInt(x);
    if x < 0 {
      assert s[1..] == FormatNat(-(x as int));
    }
  }

  /** Values beyond the `int` range are rejected, not wrapped. */
  lemma ParseRejectsOverflow(n: nat)
    requires n > IntMax
    ensures ParseInt(FormatNat(n)) == None
    ensures n > -IntMin ==> ParseInt("-" + FormatNat(n)) == None
  {
    assert ("-" + FormatNat(n))[1..] == FormatNat(n);
  }

  /** A leading plus sign and leading zeros are accepted; a trailing
      non-digit is not. */
  lemma ParseExamples()
    ensures ParseInt("+5") == Some(5)
    ensures ParseInt("007") == Some(7)
    ensures ParseInt("-12") == Some(-12)
    ensures ParseInt("-12a") == None
  {
    assert "007"[..2] == "00" && "00"[..1] == "0" && "0"[..0] == "";
    assert DigitsValue("007") == 7;
    assert ("+5")[1..] == "5" && "5"[..0] == "";
    assert DigitsValue("5") == 5;
    assert ("-12")[1..] == "12" && "12"[..1] == "1" && "1"[..0] == "";
    assert DigitsValue("12") == 12;
    assert !IsDigit('a') && ("-12a")[1..] == "12a";
  }

  /** A sign or nothing is not a number. */
  lemma ParseRejectsEmpty()
    ensures ParseInt("") == None && ParseInt("-") == None && ParseInt("+") == None
  {
  }
}

=== FILE: data_loader.dfy ===
/** Reading matches from the lines of a results file: the first line names
    the columns, every further line is one match.

    Reading the file into lines is left to the caller. `Double.parseDouble`
    is a parameter: the model only needs that it yields a number or fails.
 */
module Loader {
  import opened Optional
  import opened JavaNum
  import opened Text
  import opened Stats
  import opened Domain

  /** `Double.parseDouble`, with its `NumberFormatException` as `None`. */
  type DoubleParser = string -> Option<real>

  /** Column name to position. A name that occurs twice keeps its last
      position. */
  type ColumnIndex = map<string, nat>

  /** `createColumnIndex`: every trimmed header name maps to the last
      position at which it occurs. */
  function CreateColumnIndex(headers: seq<string>): (index: ColumnIndex)
    ensures forall k :: k in index ==> index[k] < |headers|
    ensures |headers| > 0 ==> var last := Trim(headers[|headers| - 1]); last in index && index[last] == |headers| - 1
  {
    if |headers| == 0 then map[]
    else CreateColumnIndex(headers[..|headers| - 1])[Trim(headers[|headers| - 1]) := |headers| - 1]
  }

  /** Every trimmed header name is indexed. */
  lemma {:induction false} ColumnIndexCoversHeaders(headers: seq<string>)
    ensures forall j :: 0 <= j < |headers| ==> Trim(headers[j]) in CreateColumnIndex(headers)
  {
    if |headers| > 0 {
      var n := |headers| - 1;
      var prefix := headers[..n];
      ColumnIndexCoversHeaders(prefix);
      assert forall j :: 0 <= j < n ==> prefix[j] == headers[j];
    }
  }

  /** Each indexed name sits at a position holding that name. */
  lemma {:induction false} ColumnIndexPointsAtName(headers: seq<string>)
    ensures forall k :: k in CreateColumnIndex(headers) ==>
      CreateColumnIndex(headers)[k] < |headers| && Trim(headers[CreateColumnIndex(headers)[k]]) == k
  {
    if |headers| > 0 {
      var n := |headers| - 1;
      var prefix := headers[..n];
      ColumnIndexPointsAtName(prefix);
      var m, m' := CreateColumnIndex(headers), CreateColumnIndex(prefix);
      assert m == m'[Trim(headers[n]) := n];
      forall k | k in m
        ensures m[k] < |headers| && Trim(headers[m[k]]) == k
      {
        if k != Trim(headers[n]) {
          assert k in m' && m[k] == m'[k];
          assert prefix[m'[k]] == headers[m'[k]];
        }
      }
    }
  }

  /** A name does not occur again after its indexed position: a duplicate
      name keeps its last position. */
  lemma {:induction false} ColumnIndexIsLastPosition(headers: seq<string>)
    ensures forall k, j :: k in CreateColumnIndex(headers) && CreateColumnIndex(headers)[k] < j < |headers| ==>
      Trim(headers[j]) != k
  {
    if |headers| > 0 {
      var n := |headers| - 1;
      var prefix := headers[..n];
      ColumnIndexIsLastPosition(prefix);
      var m, m' := CreateColumnIndex(headers), CreateColumnIndex(prefix);
      assert m == m'[Trim(headers[n]) := n];
      forall k, j | k in m && m[k] < j < |headers|
        ensures Trim(headers[j]) != k
      {
        if k != Trim(headers[n]) {
          assert k in m' && m[k] == m'[k];
          if j < n {
            assert prefix[j] == headers[j];
          }
        }
      }
    }
  }

  /** `getValue`: the trimmed field of the named column, `null` when the
      column is unknown, lies beyond the end of the row or is blank. */
  function GetValue(values: seq<string>, index: ColumnIndex, column: string): (r: Option<string>)
    ensures r.Some? <==> column in index && index[column] < |values| && Trim(values[index[column]]) != ""
    ensures r.Some? ==> r.value == Trim(values[index[column]]) && r.value != ""
  {
    if column !in index || index[column] >= |values| then None
    else
      var value := Trim(values[index[column]]);
      if value == "" then None else Some(value)
  }

  /** `getIntegerValue`: `null` for a missing field or one `parseInt`
      rejects. */
  function GetIntegerValue(values: seq<string>, index: ColumnIndex, column: string): (r: Option<Int32>)
    ensures GetValue(values, index, column).None? ==> r.None?
    ensures GetValue(values, index, column).Some? ==> r == ParseInt(GetValue(values, index, column).value)
  {
    match GetValue(values, index, column)
    case None => None
    case Some(v) => ParseInt(v)
  }

  /** `getDoubleValue`: `null` for a missing field or one `parseDouble`
      rejects. */
  function GetDoubleValue(parse: DoubleParser, values: seq<string>, index: ColumnIndex, column: string): (r: Option<real>)
    ensures GetValue(values, index, column).None? ==> r.None?
    ensures GetValue(values, index, column).Some? ==> r == parse(GetValue(values, index, column).value)
  {
    match GetValue(values, index, column)
    case None => None
    case Some(v) => parse(v)
  }

  /** No indexed column lies inside the row: a line cut short. */
  predicate ShortRow(values: seq<string>, index: ColumnIndex) {
    forall k :: k in index ==> index[k] >= |values|
  }

  /** A player from the columns `<prefix>id`, `<prefix>name`, ... A row too
      short to reach any column gives a player about whom nothing is known;
      a known id or rank is read from that player's own column. */
  function ParsePlayer(parse: DoubleParser, values: seq<string>, index: ColumnIndex, prefix: string): (p: Player)
    ensures ShortRow(values, index) ==> p == Player(None, None, None, None, None, None, None, None, None, None)
    ensures p.playerId.Some? ==> var c := prefix + "id";
      c in index && index[c] < |values| && p.playerId.value == Trim(values[index[c]]) && p.playerId.value != ""
    ensures p.rank.Some? ==> var c := prefix + "rank";
      c in index && index[c] < |values| && p.rank == ParseInt(Trim(values[index[c]]))
  {
    Player(
      GetValue(values, index, prefix + "id"),
      GetValue(values, index, prefix + "name"),
      GetValue(values, index, prefix + "hand"),
      GetValue(values, index, prefix + "ioc"),
      GetIntegerValue(values, index, prefix + "seed"),
      GetValue(values, index, prefix + "entry"),
      GetIntegerValue(values, index, prefix + "ht"),
      GetDoubleValue(parse, values, index, prefix + "age"),
      GetIntegerValue(values, index, prefix + "rank"),
      GetIntegerValue(values, index, prefix + "rank_points"))
  }

  /** Serve statistics from the columns `<prefix>ace`, `<prefix>df`, ... A
      row too short to reach any column gives no counts at all; a known
      serve-point count is read from the `<prefix>svpt` column. */
  function ParseStats(values: seq<string>, index: ColumnIndex, prefix: string): (st: MatchStats)
    ensures ShortRow(values, index) ==> st == MatchStats(None, None, None, None, None, None, None, None, None)
    ensures st.servePoints.Some? ==> var c := prefix + "svpt";
      c in index && index[c] < |values| && st.servePoints == ParseInt(Trim(values[index[c]]))
  {
    MatchStats(
      GetIntegerValue(values, index, prefix + "ace"),
      GetIntegerValue(values, index, prefix + "df"),
      GetIntegerValue(values, index, prefix + "svpt"),
      GetIntegerValue(values, index, prefix + "1stIn"),
      GetIntegerValue(values, index, prefix + "1stWon"),
      GetIntegerValue(values, index, prefix + "2ndWon"),
      GetIntegerValue(values, index, prefix + "SvGms"),
      GetIntegerValue(values, index, prefix + "bpSaved"),
      GetIntegerValue(values, index, prefix + "bpFaced"))
  }

  /** `parseMatch`: every field read by column name. The winner's player
      and statistics come from the `winner_` and `w_` columns, the loser's
      from `loser_` and `l_`. Both statistics records are always built, so
      a loaded match always carries them. None of the reads can fail, so
      the error branch that drops a line is never taken. */
  function ParseMatch(parse: DoubleParser, values: seq<string>, index: ColumnIndex): (m: Match)
    ensures m.winnerStats.Some? && m.loserStats.Some?
    ensures m.winner == ParsePlayer(parse, values, index, "winner_")
    ensures m.loser == ParsePlayer(parse, values, index, "loser_")
  {
    Match(
      GetValue(values, index, "tourney_id"),
      GetValue(values, index, "tourney_name"),
      GetValue(values, index, "surface"),
      GetIntegerValue(values, index, "draw_size"),
      GetValue(values, index, "tourney_level"),
      GetIntegerValue(values, index, "tourney_date"),
      GetIntegerValue(values, index, "match_num"),
      GetValue(values, index, "round"),
      GetIntegerValue(values, index, "best_of"),
      GetIntegerValue(values, index, "minutes"),
      GetValue(values, index, "score"),
      ParsePlayer(parse, values, index, "winner_"),
      ParsePlayer(parse, values, index, "loser_"),
      Some(ParseStats(values, index, "w_")),
      Some(ParseStats(values, index, "l_")))
  }

  const NoPlayer: Player := Player(None, None, None, None, None, None, None, None, None, None)
  const NoStats: MatchStats := MatchStats(None, None, None, None, None, None, None, None, None)

  /** A row too short to reach any known column yields a match of nulls,
      not an error. */
  lemma ShortRowGivesNulls(parse: DoubleParser, values: seq<string>, index: ColumnIndex)
    requires forall k :: k in index ==> index[k] >= |values|
    ensures ParseMatch(parse, values, index) ==
      Match(None, None, None, None, None, None, None, None, None, None, None,
            NoPlayer, NoPlayer, Some(NoStats), Some(NoStats))
  {
  }

  /** How one data line becomes a match, given the column index. */
  function LineParser(parse: DoubleParser, index: ColumnIndex): string -> Match {
    line => ParseMatch(parse, Split(line), index)
  }

  /** `loadMatches` over the lines of a file: nothing for an empty file,
      otherwise one match per data line, in file order, each parsed
      against the index of the header line. */
  method LoadMatches(parse: DoubleParser, lines: seq<string>) returns (matches: seq<Match>)
    ensures |lines| == 0 ==> matches == []
    ensures |lines| > 0 ==> |matches| == |lines| - 1
    ensures |lines| > 0 ==> forall i :: 0 <= i < |matches| ==>
      matches[i] == ParseMatch(parse, Split(lines[i + 1]), CreateColumnIndex(Split(lines[0])))
  {
    matches := [];
    if |lines| == 0 {
      return;
    }
    var columnIndex := CreateColumnIndex(Split(lines[0]));
    matches := MapLines(LineParser(parse, columnIndex), lines[1..]);
  }

  /** The loop of `loadMatches`: each line through `f`, in file order. */
  method MapLines<B>(f: string -> B, lines: seq<string>) returns (r: seq<B>)
    ensures |r| == |lines|
    ensures forall i :: 0 <= i < |lines| ==> r[i] == f(lines[i])
  {
    r := [];
    var n := 0;
    while n < |lines|
      invariant 0 <= n <= |lines|
      invariant |r| == n
      invariant forall i :: 0 <= i < n ==> r[i] == f(lines[i])
    {
      r := r + [f(lines[n])];
      n := n + 1;
    }
  }

  /** A field that is already trimmed, not blank, and holds no comma. */
  predicate CleanField(s: string) {
    |s| > 0 && !IsSpace(s[0]) && !IsSpace(s[|s| - 1]) && ',' !in s
  }

  /** With distinct, already trimmed names, each name is indexed at its own
      position. */
  lemma IndexOfDistinctNames(headers: seq<string>, i: nat)
    requires i < |headers|
    requires forall j :: 0 <= j < |headers| ==> Trim(headers[j]) == headers[j]
    requires forall j, k :: 0 <= j < k < |headers| ==> headers[j] != headers[k]
    ensures headers[i] in CreateColumnIndex(headers) && CreateColumnIndex(headers)[headers[i]] == i
  {
    ColumnIndexCoversHeaders(headers);
    ColumnIndexPointsAtName(headers);
    assert Trim(headers[i]) == headers[i];
    var p := CreateColumnIndex(headers)[headers[i]];
    assert Trim(headers[p]) == headers[i];
    assert headers[p] == headers[i];
  }

  /** Writing a header and a row of clean fields as comma-joined lines and
      reading them back recovers every field under its column name,
      provided the column names are distinct. */
  lemma ReadBackField(headers: seq<string>, values: seq<string>, i: nat)
    requires |headers| == |values| && i < |headers|
    requires forall j :: 0 <= j < |headers| ==> CleanField(headers[j]) && CleanField(values[j])
    requires forall j, k :: 0 <= j < k < |headers| ==> headers[j] != headers[k]
    ensures GetValue(Split(Join(values)), CreateColumnIndex(Split(Join(headers))), headers[i]) == Some(values[i])
  {
    SplitJoin(headers);
    SplitJoin(values);
    forall j | 0 <= j < |headers|
      ensures Trim(headers[j]) == headers[j]
    {
      TrimOfTrimmed(headers[j]);
    }
    IndexOfDistinctNames(headers, i);
    TrimOfTrimmed(values[i]);
  }
}

=== FILE: domain.dfy ===
/** The plain data records the engine passes around: a player as listed in a
    results file, a match context, and a finished match. All fields are
    nullable, as in the data files.
 */
module Domain {
  import opened Optional
  import opened JavaNum
  import opened Stats

  datatype Player = Player(
    playerId: Option<string>,
    name: Option<string>,
    hand: Option<string>,
    nationality: Option<string>,
    seed: Option<Int32>,
    entry: Option<string>,
    height: Option<Int32>,
    age: Option<real>,
    rank: Option<Int32>,
    rankPoints: Option<Int32>)

  datatype MatchContext = MatchContext(
    surface: Option<string>,
    tourneyLevel: Option<string>,
    tourneyDate: Option<Int32>,
    round: Option<string>,
    bestOf: Option<Int32>)

  datatype Match = Match(
    tourneyId: Option<string>,
    tourneyName: Option<string>,
    surface: Option<string>,
    drawSize: Option<Int32>,
    tourneyLevel: Option<string>,
    tourneyDate: Option<Int32>,
    matchNum: Option<Int32>,
    round: Option<string>,
    bestOf: Option<Int32>,
    minutes: Option<Int32>,
    score: Option<string>,
    winner: Player,
    loser: Player,
    winnerStats: Option<MatchStats>,
    loserStats: Option<MatchStats>)

  /** The same match with the two sides' players and statistics exchanged. */
  function SwapSides(m: Match): Match {
    m.(winner := m.loser, loser := m.winner,
       winnerStats := m.loserStats, loserStats := m.winnerStats)
  }
}

=== FILE: feature_extractor.dfy ===
/** Turning a match into a feature vector for the learner: tournament codes,
    the date split into year, month and day, thirteen features per player,
    two head-to-head features, sixteen serve statistics when both sides have
    them, and three ranking features.

    A missing value is a `null` that `addFeature` turns into NaN; here it is
    `None`. The encoders look keys up in immutable `Map.of` tables, which
    throw `NullPointerException` for a `null` key, and so does the history
    lookup for a `null` player id; that exception is the `Failure` of
    `ExtractFeatures`.
 */
module Features {
  import opened Optional
  import opened JavaNum
  import opened Analysis
  import opened Records
  import opened Stats
  import opened Domain
  import History
  import HistoryManager

  /** A feature value; `None` is the NaN that marks a missing value. */
  type Value = Option<real>

  /** A feature name with its value. */
  type Named = (string, Value)

  datatype FeatureVector = FeatureVector(features: seq<Value>, names: seq<string>)

  datatype FeatureError = NullPointer

  // ---------------------------------------------------------------------
  // Appending features

  const NoFeatures: FeatureVector := FeatureVector([], [])

  /** `addFeature`: the value and its name are appended together, so the
      two lists keep the same length and every earlier entry stays put. */
  function AddFeature(fv: FeatureVector, name: string, value: Value): (r: FeatureVector)
    ensures |fv.features| == |fv.names| ==> |r.features| == |r.names|
    ensures |r.features| == |fv.features| + 1 && |r.names| == |fv.names| + 1
    ensures r.features[..|fv.features|] == fv.features && r.names[..|fv.names|] == fv.names
    ensures r.features[|fv.features|] == value && r.names[|fv.names|] == name
  {
    FeatureVector(fv.features + [value], fv.names + [name])
  }

  /** The named features appended one by one, in order. */
  function AddAll(fv: FeatureVector, ps: seq<Named>): FeatureVector
    decreases |ps|
  {
    if |ps| == 0 then fv else AddAll(AddFeature(fv, ps[0].0, ps[0].1), ps[1..])
  }

  /** Names paired with values, position by position. */
  function Zip(names: seq<string>, values: seq<Value>): (ps: seq<Named>)
    requires |names| == |values|
    ensures |ps| == |names|
    ensures forall i :: 0 <= i < |ps| ==> ps[i] == (names[i], values[i])
  {
    seq(|names|, i requires 0 <= i < |names| => (names[i], values[i]))
  }

  /** Appending a list of named features one at a time extends the values
      by exactly the values and the names by exactly the names, so the
      i-th value added sits beside the i-th name. */
  lemma {:induction false} AddAllZip(fv: FeatureVector, names: seq<string>, values: seq<Value>)
    requires |names| == |values|
    ensures AddAll(fv, Zip(names, values)) == FeatureVector(fv.features + values, fv.names + names)
    decreases |names|
  {
    if |names| > 0 {
      var ps := Zip(names, values);
      assert ps[1..] == Zip(names[1..], values[1..]);
      var fv' := AddFeature(fv, names[0], values[0]);
      AddAllZip(fv', names[1..], values[1..]);
      assert fv.features + [values[0]] + values[1..] == fv.features + values;
      assert fv.names + [names[0]] + names[1..] == fv.names + names;
    } else {
      assert fv.features + values == fv.features;
      assert fv.names + names == fv.names;
    }
  }

  // ---------------------------------------------------------------------
  // Encoders

  const SurfaceCodes: seq<string> := ["Hard", "Clay", "Grass", "Carpet"]
  const HandCodes: seq<string> := ["R", "L", "U"]
  const LevelCodes: seq<string> := ["G", "M", "A", "B", "F", "D"]
  const RoundCodes: seq<string> := ["R128", "R64", "R32", "R16", "QF", "SF", "F"]
  const EntryCodes: seq<string> := ["Q", "WC", "LL", "SE", ""]

  predicate Distinct(table: seq<string>) {
    forall i, j :: 0 <= i < j < |table| ==> table[i] != table[j]
  }

  /** The first position of `key` in `table`. */
  function IndexOf(table: seq<string>, key: string): (r: Option<nat>)
    ensures r.None? <==> key !in table
    ensures r.Some? ==> r.value < |table| && table[r.value] == key
    ensures r.Some? ==> forall j :: 0 <= j < r.value ==> table[j] != key
  {
    if |table| == 0 then None
    else if table[0] == key then Some(0)
    else
      match IndexOf(table[1..], key)
      case None => None
      case Some(i) => Some(i + 1)
  }

  /** The code of a key in one of the encoding tables; an unknown key has
      no code (`null`, so NaN as a feature). */
  function Encode(table: seq<string>, key: string): (v: Value)
    ensures v.None? <==> key !in table
  {
    match IndexOf(table, key)
    case None => None
    case Some(i) => Some(i as real)
  }

  /** In a table of distinct keys every key is encoded as its position, so
      the position decodes back to the key. */
  lemma EncodeDecode(table: seq<string>, i: nat)
    requires Distinct(table) && i < |table|
    ensures Encode(table, table[i]) == Some(i as real)
    ensures table[Encode(table, table[i]).value.Floor] == table[i]
  {
  }

  /** Each table lists distinct keys. */
  lemma TablesDistinct()
    ensures Distinct(SurfaceCodes) && Distinct(HandCodes) && Distinct(LevelCodes)
    ensures Distinct(RoundCodes) && Distinct(EntryCodes)
  {
  }

  /** Every listed surface, level, round, hand and entry is encoded as its
      position in its table (Hard 0 … Carpet 3, G 0 … D 5, R128 0 … F 6,
      R 0 … U 2, Q 0 … the empty entry 4), and so decodes back to itself. */
  lemma CodesArePositions()
    ensures forall i :: 0 <= i < |SurfaceCodes| ==> Encode(SurfaceCodes, SurfaceCodes[i]) == Some(i as real)
    ensures forall i :: 0 <= i < |LevelCodes| ==> Encode(LevelCodes, LevelCodes[i]) == Some(i as real)
    ensures forall i :: 0 <= i < |RoundCodes| ==> Encode(RoundCodes, RoundCodes[i]) == Some(i as real)
    ensures forall i :: 0 <= i < |HandCodes| ==> Encode(HandCodes, HandCodes[i]) == Some(i as real)
    ensures forall i :: 0 <= i < |EntryCodes| ==> Encode(EntryCodes, EntryCodes[i]) == Some(i as real)
  {
    TablesDistinct();
    forall i | 0 <= i < |SurfaceCodes| { EncodeDecode(SurfaceCodes, i); }
    forall i | 0 <= i < |LevelCodes| { EncodeDecode(LevelCodes, i); }
    forall i | 0 <= i < |RoundCodes| { EncodeDecode(RoundCodes, i); }
    forall i | 0 <= i < |HandCodes| { EncodeDecode(HandCodes, i); }
    forall i | 0 <= i < |EntryCodes| { EncodeDecode(EntryCodes, i); }
  }

  /** `encodeEntry`: a `null` entry is looked up as the empty entry. */
  function EncodeEntry(entry: Option<string>): Value {
    Encode(EntryCodes, entry.GetOr(""))
  }

  /** `safeDouble`: an `Integer` widened, `null` kept. */
  function SafeDouble(x: Option<Int32>): (v: Value)
    ensures v.Some? <==> x.Some?
    ensures v.Some? ==> v.value == x.value as real
  {
    match x
    case None => None
    case Some(n) => Some(n as real)
  }

  // ---------------------------------------------------------------------
  // Groups of features

  const TournamentNames: seq<string> := ["surface", "draw_size", "tourney_level", "best_of", "round"]

  function TournamentValues(m: Match, surface: string, level: string, round: string): (vs: seq<Value>)
    ensures |vs| == |TournamentNames|
  {
    [Encode(SurfaceCodes, surface), SafeDouble(m.drawSize), Encode(LevelCodes, level),
     SafeDouble(m.bestOf), Encode(RoundCodes, round)]
  }

  const DateNames: seq<string> := ["year", "month", "day_of_month"]

  /** `addDateFeatures`: a positive YYYYMMDD value split into its fields;
      three NaNs for a missing or non-positive date. */
  function DateValues(date: Option<Int32>): (vs: seq<Value>)
    ensures |vs| == |DateNames|
    ensures date.None? || date.value <= 0 ==> vs == [None, None, None]
    ensures date.Some? && date.value > 0 ==> vs[0].Some? && vs[1].Some? && vs[2].Some?
  {
    if date.Some? && date.value > 0 then
      var d := date.value;
      [Some((d / 10000) as real), Some(((d / 100) % 100) as real), Some((d % 100) as real)]
    else [None, None, None]
  }

  /** The three date fields put back together give the date: the split
      loses nothing. */
  lemma DateFieldsRecompose(d: Int32)
    requires d > 0
    ensures var vs := DateValues(Some(d));
      vs[0].value.Floor * 10000 + vs[1].value.Floor * 100 + vs[2].value.Floor == d as int
    ensures var vs := DateValues(Some(d));
      0.0 <= vs[1].value < 100.0 && 0.0 <= vs[2].value < 100.0
  {
    var q := d / 100;
    assert d as int == q * 100 + d % 100;
    assert q == (d / 10000) * 100 + q % 100;
  }

  function PlayerNames(prefix: string): (ns: seq<string>)
    ensures |ns| == 13
  {
    [prefix + "seed", prefix + "entry", prefix + "hand", prefix + "height", prefix + "age",
     prefix + "rank", prefix + "rank_points", prefix + "recent_form_5", prefix + "recent_form_10",
     prefix + "surface_form_10", prefix + "surface_elo", prefix + "total_matches", prefix + "career_win_rate"]
  }

  /** The six history features: recent form over 5 and 10 results, surface
      form over 10, surface rating, number of results kept and career win
      rate; a player without a history gets the defaults 0.5, 0.5, 0.5,
      1500, 0 and 0.5. */
  function HistoryValues(h: Option<History.PlayerHistory>, surface: Option<string>): (vs: seq<real>)
    ensures |vs| == 6
    ensures h.None? ==> vs == [0.5, 0.5, 0.5, 1500.0, 0.0, 0.5]
  {
    match h
    case None => [0.5, 0.5, 0.5, 1500.0, 0.0, 0.5]
    case Some(ph) =>
      var total := History.TotalMatches(ph);
      [History.RecentForm(ph, 5), History.RecentForm(ph, 10), History.SurfaceForm(ph, surface, 10),
       History.SurfaceElo(ph, surface), total as real,
       if total > 0 then (History.TotalWins(ph) as real) / (total as real) else 0.5]
  }

  /** The form features and the career win rate are fractions, the result
      count is at most the log's cap, for a known player as for a new one. */
  lemma HistoryValuesBounded(h: Option<History.PlayerHistory>, surface: Option<string>)
    requires h.Some? ==> History.Valid(h.value)
    ensures var vs := HistoryValues(h, surface);
      && 0.0 <= vs[0] <= 1.0 && 0.0 <= vs[1] <= 1.0 && 0.0 <= vs[2] <= 1.0
      && 0.0 <= vs[4] <= History.MaxHistory as real && 0.0 <= vs[5] <= 1.0
  {
    if h.Some? {
      var ph := h.value;
      History.TotalsBounded(ph);
      var total := History.TotalMatches(ph);
      if total > 0 {
        FractionBounds(History.TotalWins(ph) as real, total as real);
      }
    }
  }

  /** A player whose history holds no results gets exactly the features of
      a player with no history at all. */
  lemma EmptyHistoryLooksNew(surface: Option<string>)
    ensures HistoryValues(Some(History.Fresh()), surface) == HistoryValues(None, surface)
  {
    History.FreshDefaults(surface, 5);
    History.FreshDefaults(surface, 10);
  }

  function Lift(xs: seq<real>): (vs: seq<Value>)
    ensures |vs| == |xs|
    ensures forall i :: 0 <= i < |xs| ==> vs[i] == Some(xs[i])
  {
    seq(|xs|, i requires 0 <= i < |xs| => Some(xs[i]))
  }

  /** `addPlayerFeatures`: seven fields of the player record, then the six
      history features. */
  function PlayerValues(reg: HistoryManager.Registry, p: Player, id: string, hand: string,
                        surface: Option<string>): (vs: seq<Value>)
    ensures |vs| == 13
  {
    [SafeDouble(p.seed), EncodeEntry(p.entry), Encode(HandCodes, hand), SafeDouble(p.height), p.age,
     SafeDouble(p.rank), SafeDouble(p.rankPoints)]
      + Lift(HistoryValues(HistoryManager.GetPlayerHistory(reg, id), surface))
  }

  const HeadToHeadNames: seq<string> := ["h2h_win_rate", "h2h_total_matches"]

  /** `addHeadToHeadFeatures`: the win rate and number of meetings when the
      pair has met, 0.5 and 0 otherwise. */
  function HeadToHeadValues(reg: HistoryManager.Registry, id1: string, id2: string): (vs: seq<real>)
    ensures |vs| == 2
    ensures 0.0 <= vs[0] <= 1.0 && vs[1] >= 0.0
  {
    match HistoryManager.GetHeadToHeadRecord(reg, id1, id2)
    case Some(rec) =>
      if TotalMatches(rec) > 0 then [HeadToHeadWinRate(rec), TotalMatches(rec) as real] else [0.5, 0.0]
    case None => [0.5, 0.0]
  }

  /** With mirrored records the two players see the same number of
      meetings and complementary win rates. */
  lemma HeadToHeadValuesMirror(reg: HistoryManager.Registry, a: string, b: string)
    requires HistoryManager.Mirrored(reg)
    ensures HeadToHeadValues(reg, b, a)[1] == HeadToHeadValues(reg, a, b)[1]
    ensures HeadToHeadValues(reg, b, a)[0] == 1.0 - HeadToHeadValues(reg, a, b)[0]
  {
    var x, y := HistoryManager.GetHeadToHeadRecord(reg, a, b), HistoryManager.GetHeadToHeadRecord(reg, b, a);
    assert HistoryManager.MirrorPair(x, y) by {
      assert x == HistoryManager.LookupPair(reg.headToHead, a, b);
      assert y == HistoryManager.LookupPair(reg.headToHead, b, a);
    }
    if x.Some? {
      HeadToHeadRateComplement(x.value, y.value);
    }
  }

  function StatsNames(prefix: string): (ns: seq<string>)
    ensures |ns| == 8
  {
    [prefix + "aces", prefix + "double_faults", prefix + "first_serve_pct", prefix + "first_serve_win_pct",
     prefix + "second_serve_win_pct", prefix + "ace_rate", prefix + "df_rate", prefix + "bp_save_pct"]
  }

  /** `addMatchStatsFeatures` for one side: the two counts widened, then
      the six ratios, each NaN when its counts are missing or its
      denominator is zero. The second-serve ratio is the corrected one,
      which on counts that are not negative is the getter's own value. */
  function StatsValues(s: MatchStats): (vs: seq<Value>)
    ensures |vs| == |StatsNames("")|
    ensures (vs[0].Some? <==> s.aces.Some?) && (vs[1].Some? <==> s.doubleFaults.Some?)
    ensures vs[4].Some? <==> (s.servePoints.Some? && s.firstServeIn.Some? && s.secondServeWon.Some?
      && s.servePoints.value - s.firstServeIn.value > 0)
    ensures (s.servePoints.Some? ==> s.servePoints.value >= 0) && (s.firstServeIn.Some? ==> s.firstServeIn.value >= 0)
      ==> vs[4] == SecondServeWinPercentageWrapped(s)
  {
    [SafeDouble(s.aces), SafeDouble(s.doubleFaults), FirstServePercentage(s), FirstServeWinPercentage(s),
     SecondServeWinPercentage(s), AceRate(s), DoubleFaultRate(s), BreakPointSavePercentage(s)]
  }

  const RankingNames: seq<string> := ["rank_diff_log", "rank_ratio", "avg_rank_quality"]

  /** `Math.log` of an `int` argument: NaN below zero. The only non-positive
      argument that reaches it is `rank + 1` wrapped to `Integer.MIN_VALUE`. */
  function LogOf(t: Transcendentals, x: Int32): Value {
    if x > 0 then Some(t.ln(x as real)) else None
  }

  /** NaN minus anything, or anything minus NaN, is NaN. */
  function Minus(a: Value, b: Value): Value {
    if a.Some? && b.Some? then Some(a.value - b.value) else None
  }

  /** `addRankingFeatures`: with two positive ranks, the log-rank difference,
      the rank ratio and the inverse mean root rank; `rank + 1` is an `int`
      sum. Three NaNs otherwise. The sum of the two roots of positive ranks
      is positive, so for `Math.sqrt` the division never meets zero; the
      guard only keeps the function total for any `t`. */
  function RankingValues(t: Transcendentals, rank1: Option<Int32>, rank2: Option<Int32>): (vs: seq<Value>)
    ensures |vs| == |RankingNames|
    ensures vs[1].Some? <==> rank1.Some? && rank2.Some? && rank1.value > 0 && rank2.value > 0
    ensures vs[1].None? ==> vs == [None, None, None]
  {
    if rank1.Some? && rank2.Some? && rank1.value > 0 && rank2.value > 0 then
      var r1, r2 := rank1.value, rank2.value;
      var q := t.sqrt(r1 as real) + t.sqrt(r2 as real);
      [Minus(LogOf(t, Wrap32(r2 + 1)), LogOf(t, Wrap32(r1 + 1))),
       Some((r2 as real) / (Wrap32(r1 + 1) as real)),
       if q > 0.0 then Some(2.0 / q) else None]
    else [None, None, None]
  }

  /** With sound square roots the rank quality is present exactly when the
      ranks are, and positive. */
  lemma RankQualityPositive(t: Transcendentals, rank1: Option<Int32>, rank2: Option<Int32>)
    requires Sound(t)
    ensures RankingValues(t, rank1, rank2)[2].Some? <==> RankingValues(t, rank1, rank2)[1].Some?
    ensures RankingValues(t, rank1, rank2)[2].Some? ==> RankingValues(t, rank1, rank2)[2].value > 0.0
  {
  }

  /** Below `Integer.MAX_VALUE` the log-rank difference is present and
      positive exactly when player 1 is the better ranked (smaller number),
      and swapping the ranks negates it. */
  lemma RankDiffSign(t: Transcendentals, r1: Int32, r2: Int32)
    requires Sound(t)
    requires 0 < r1 < IntMax && 0 < r2 < IntMax
    ensures var d := RankingValues(t, Some(r1), Some(r2))[0];
      d.Some? && (d.value > 0.0 <==> r1 < r2) && (d.value == 0.0 <==> r1 == r2)
    ensures RankingValues(t, Some(r2), Some(r1))[0].value == -RankingValues(t, Some(r1), Some(r2))[0].value
    ensures RankingValues(t, Some(r2), Some(r1))[2] == RankingValues(t, Some(r1), Some(r2))[2]
  {
    assert Wrap32(r1 + 1) == r1 + 1 && Wrap32(r2 + 1) == r2 + 1;
    var a, b := (r1 + 1) as real, (r2 + 1) as real;
    if r1 < r2 {
      assert t.ln(a) < t.ln(b);
    } else if r2 < r1 {
      assert t.ln(b) < t.ln(a);
    }
    assert t.sqrt(r2 as real) + t.sqrt(r1 as real) == t.sqrt(r1 as real) + t.sqrt(r2 as real);
  }

  /** At `Integer.MAX_VALUE` the sum `rank + 1` wraps negative: the log is
      NaN and the ratio turns negative. */
  lemma RankAtIntMaxWraps(t: Transcendentals, r2: Int32)
    requires r2 > 0
    ensures RankingValues(t, Some(IntMax as Int32), Some(r2))[0] == None
    ensures RankingValues(t, Some(IntMax as Int32), Some(r2))[1].value < 0.0
  {
    assert Wrap32(IntMax + 1) == IntMin;
  }

  // ---------------------------------------------------------------------
  // The whole vector

  /** The statistics names: both sides' when both are present, none
      otherwise. */
  function StatsLayout(withStats: bool): (ns: seq<string>)
    ensures |ns| == (if withStats then 16 else 0)
  {
    if withStats then StatsNames("p1_") + StatsNames("p2_") else []
  }

  /** The feature names in order; they depend only on whether both sides
      have serve statistics. */
  function Layout(withStats: bool): (ns: seq<string>)
    ensures |ns| == (if withStats then 55 else 39)
  {
    TournamentNames + DateNames + PlayerNames("p1_") + PlayerNames("p2_") + HeadToHeadNames
      + StatsLayout(withStats) + RankingNames
  }

  /** The lookups that throw on a `null` key: the three tournament
      encoders, the two hand encoders and the two history lookups. */
  predicate NullKey(m: Match, p1: Player, p2: Player) {
    m.surface.None? || m.tourneyLevel.None? || m.round.None?
      || p1.hand.None? || p2.hand.None? || p1.playerId.None? || p2.playerId.None?
  }

  /** The player whose features come first: the winner or the loser. */
  function First(m: Match, player1IsWinner: bool): Player {
    if player1IsWinner then m.winner else m.loser
  }

  function Second(m: Match, player1IsWinner: bool): Player {
    if player1IsWinner then m.loser else m.winner
  }

  function FirstStats(m: Match, player1IsWinner: bool): Option<MatchStats> {
    if player1IsWinner then m.winnerStats else m.loserStats
  }

  function SecondStats(m: Match, player1IsWinner: bool): Option<MatchStats> {
    if player1IsWinner then m.loserStats else m.winnerStats
  }

  predicate BothStats(m: Match) {
    m.winnerStats.Some? && m.loserStats.Some?
  }

  /** The values in layout order. Only consulted when no lookup key is
      `null`, so the empty string standing in for a missing key is never
      looked up. */
  function FeatureValues(t: Transcendentals, reg: HistoryManager.Registry, m: Match, player1IsWinner: bool)
    : (vs: seq<Value>)
    ensures |vs| == |Layout(BothStats(m))|
  {
    var p1, p2 := First(m, player1IsWinner), Second(m, player1IsWinner);
    var id1, id2 := p1.playerId.GetOr(""), p2.playerId.GetOr("");
    var front :=
      TournamentValues(m, m.surface.GetOr(""), m.tourneyLevel.GetOr(""), m.round.GetOr(""))
      + DateValues(m.tourneyDate)
      + PlayerValues(reg, p1, id1, p1.hand.GetOr(""), m.surface)
      + PlayerValues(reg, p2, id2, p2.hand.GetOr(""), m.surface)
      + Lift(HeadToHeadValues(reg, id1, id2));
    assert |front| == 36;
    front + StatsBlock(m, player1IsWinner) + RankingValues(t, p1.rank, p2.rank)
  }

  /** The statistics values: both sides' when both are present, none
      otherwise. */
  function StatsBlock(m: Match, player1IsWinner: bool): (vs: seq<Value>)
    ensures |vs| == |StatsLayout(BothStats(m))|
  {
    if BothStats(m) then StatsValues(FirstStats(m, player1IsWinner).value) + StatsValues(SecondStats(m, player1IsWinner).value)
    else []
  }

  /** Seven zipped runs laid end to end are the zip of the joined runs. */
  lemma ZipGroups(n1: seq<string>, n2: seq<string>, n3: seq<string>, n4: seq<string>, n5: seq<string>, n6: seq<string>, n7: seq<string>,
                  v1: seq<Value>, v2: seq<Value>, v3: seq<Value>, v4: seq<Value>, v5: seq<Value>, v6: seq<Value>, v7: seq<Value>)
    requires |n1| == |v1| && |n2| == |v2| && |n3| == |v3| && |n4| == |v4| && |n5| == |v5| && |n6| == |v6| && |n7| == |v7|
    ensures Zip(n1, v1) + Zip(n2, v2) + Zip(n3, v3) + Zip(n4, v4) + Zip(n5, v5) + Zip(n6, v6) + Zip(n7, v7)
         == Zip(n1 + n2 + n3 + n4 + n5 + n6 + n7, v1 + v2 + v3 + v4 + v5 + v6 + v7)
  {
  }

  /** The statistics block: both sides' entries when both are present,
      none otherwise. */
  function StatsEntries(m: Match, player1IsWinner: bool): seq<Named> {
    if BothStats(m) then
      Zip(StatsNames("p1_"), StatsValues(FirstStats(m, player1IsWinner).value))
        + Zip(StatsNames("p2_"), StatsValues(SecondStats(m, player1IsWinner).value))
    else []
  }

  /** The named features as `extractFeatures` adds them, group by group:
      each group pairs its names with its own values. */
  function Entries(t: Transcendentals, reg: HistoryManager.Registry, m: Match, player1IsWinner: bool): seq<Named> {
    var p1, p2 := First(m, player1IsWinner), Second(m, player1IsWinner);
    var id1, id2 := p1.playerId.GetOr(""), p2.playerId.GetOr("");
    Zip(TournamentNames, TournamentValues(m, m.surface.GetOr(""), m.tourneyLevel.GetOr(""), m.round.GetOr("")))
      + Zip(DateNames, DateValues(m.tourneyDate))
      + Zip(PlayerNames("p1_"), PlayerValues(reg, p1, id1, p1.hand.GetOr(""), m.surface))
      + Zip(PlayerNames("p2_"), PlayerValues(reg, p2, id2, p2.hand.GetOr(""), m.surface))
      + Zip(HeadToHeadNames, Lift(HeadToHeadValues(reg, id1, id2)))
      + StatsEntries(m, player1IsWinner)
      + Zip(RankingNames, RankingValues(t, p1.rank, p2.rank))
  }

  /** The statistics block pairs the statistics names of the layout with
      the statistics values. */
  lemma StatsEntriesAreZip(m: Match, player1IsWinner: bool)
    ensures StatsEntries(m, player1IsWinner) == Zip(StatsLayout(BothStats(m)), StatsBlock(m, player1IsWinner))
  {
    if BothStats(m) {
      ZipConcat(StatsNames("p1_"), StatsValues(FirstStats(m, player1IsWinner).value),
                StatsNames("p2_"), StatsValues(SecondStats(m, player1IsWinner).value));
    }
  }

  /** Two zipped runs laid end to end are the zip of the joined runs. */
  lemma ZipConcat(a: seq<string>, b: seq<Value>, c: seq<string>, d: seq<Value>)
    requires |a| == |b| && |c| == |d|
    ensures Zip(a, b) + Zip(c, d) == Zip(a + c, b + d)
  {
  }

  /** The group-by-group entries pair the layout's names with the values,
      position by position. */
  lemma EntriesAreLayout(t: Transcendentals, reg: HistoryManager.Registry, m: Match, player1IsWinner: bool)
    ensures Entries(t, reg, m, player1IsWinner) == Zip(Layout(BothStats(m)), FeatureValues(t, reg, m, player1IsWinner))
  {
    var p1, p2 := First(m, player1IsWinner), Second(m, player1IsWinner);
    var id1, id2 := p1.playerId.GetOr(""), p2.playerId.GetOr("");
    StatsEntriesAreZip(m, player1IsWinner);
    ZipGroups(TournamentNames, DateNames, PlayerNames("p1_"), PlayerNames("p2_"), HeadToHeadNames,
              StatsLayout(BothStats(m)), RankingNames,
              TournamentValues(m, m.surface.GetOr(""), m.tourneyLevel.GetOr(""), m.round.GetOr("")),
              DateValues(m.tourneyDate),
              PlayerValues(reg, p1, id1, p1.hand.GetOr(""), m.surface),
              PlayerValues(reg, p2, id2, p2.hand.GetOr(""), m.surface),
              Lift(HeadToHeadValues(reg, id1, id2)),
              StatsBlock(m, player1IsWinner),
              RankingValues(t, p1.rank, p2.rank));
  }

  /** Adding the entries one at a time to an empty vector gives the layout
      as names and the values beside them. */
  lemma EntriesBuildVector(t: Transcendentals, reg: HistoryManager.Registry, m: Match, player1IsWinner: bool)
    ensures AddAll(NoFeatures, Entries(t, reg, m, player1IsWinner))
         == FeatureVector(FeatureValues(t, reg, m, player1IsWinner), Layout(BothStats(m)))
  {
    EntriesAreLayout(t, reg, m, player1IsWinner);
    AddAllFromEmpty(Layout(BothStats(m)), FeatureValues(t, reg, m, player1IsWinner));
  }

  /** Adding named features to the empty vector leaves exactly those
      names and values. */
  lemma AddAllFromEmpty(names: seq<string>, values: seq<Value>)
    requires |names| == |values|
    ensures AddAll(NoFeatures, Zip(names, values)) == FeatureVector(values, names)
  {
    AddAllZip(NoFeatures, names, values);
    assert [] + values == values && [] + names == names;
  }

  /** `extractFeatures`: fails exactly when a lookup meets a `null` key.
      Otherwise every name is added together with its value, as
      `addFeature` does, so the names follow the fixed layout and the
      values are the groups' values in the same order. */
  function ExtractFeatures(t: Transcendentals, reg: HistoryManager.Registry, m: Match, player1IsWinner: bool)
    : (r: Result<FeatureVector, FeatureError>)
    ensures r.Failure? <==> NullKey(m, First(m, player1IsWinner), Second(m, player1IsWinner))
    ensures r.Success? ==> r.value.names == Layout(BothStats(m))
    ensures r.Success? ==> r.value.features == FeatureValues(t, reg, m, player1IsWinner)
  {
    if NullKey(m, First(m, player1IsWinner), Second(m, player1IsWinner)) then Failure(NullPointer)
    else
      EntriesBuildVector(t, reg, m, player1IsWinner);
      Success(AddAll(NoFeatures, Entries(t, reg, m, player1IsWinner)))
  }

  /** Where each of seven runs laid end to end sits, when the first five
      have the lengths of the fixed groups (5, 3, 13, 13 and 2). */
  lemma GroupsAt<T>(a: seq<T>, b: seq<T>, c: seq<T>, d: seq<T>, e: seq<T>, f: seq<T>, g: seq<T>)
    requires |a| == 5 && |b| == 3 && |c| == 13 && |d| == 13 && |e| == 2 && |g| == 3
    ensures var s := a + b + c + d + e + f + g;
      && s[..5] == a && s[5..8] == b && s[8..21] == c && s[21..34] == d && s[34..36] == e
      && s[36..36 + |f|] == f && s[|s| - 3..] == g
      && (|f| == 16 ==> s[36..44] == f[..8] && s[44..52] == f[8..])
  {
  }

  /** Two runs of eight laid end to end. */
  lemma HalvesAt<T>(a: seq<T>, b: seq<T>)
    requires |a| == 8 && |b| == 8
    ensures (a + b)[..8] == a && (a + b)[8..] == b
  {
  }

  /** The names of a successful extraction, group by group. */
  lemma LayoutGroups(withStats: bool)
    ensures var ns := Layout(withStats);
      && ns[..5] == TournamentNames && ns[5..8] == DateNames
      && ns[8..21] == PlayerNames("p1_") && ns[21..34] == PlayerNames("p2_")
      && ns[34..36] == HeadToHeadNames && ns[|ns| - 3..] == RankingNames
      && (withStats ==> ns[36..44] == StatsNames("p1_") && ns[44..52] == StatsNames("p2_"))
  {
    GroupsAt(TournamentNames, DateNames, PlayerNames("p1_"), PlayerNames("p2_"), HeadToHeadNames,
             StatsLayout(withStats), RankingNames);
    if withStats {
      HalvesAt(StatsNames("p1_"), StatsNames("p2_"));
    }
  }

  /** The value groups laid end to end make up the values. */
  lemma ValuesAreGroups(t: Transcendentals, reg: HistoryManager.Registry, m: Match, player1IsWinner: bool)
    ensures var p1, p2 := First(m, player1IsWinner), Second(m, player1IsWinner);
      var id1, id2 := p1.playerId.GetOr(""), p2.playerId.GetOr("");
      FeatureValues(t, reg, m, player1IsWinner)
        == TournamentValues(m, m.surface.GetOr(""), m.tourneyLevel.GetOr(""), m.round.GetOr(""))
         + DateValues(m.tourneyDate)
         + PlayerValues(reg, p1, id1, p1.hand.GetOr(""), m.surface)
         + PlayerValues(reg, p2, id2, p2.hand.GetOr(""), m.surface)
         + Lift(HeadToHeadValues(reg, id1, id2))
         + StatsBlock(m, player1IsWinner)
         + RankingValues(t, p1.rank, p2.rank)
  {
  }

  /** The values of a successful extraction outside the statistics block,
      group by group. */
  lemma ValueGroups(t: Transcendentals, reg: HistoryManager.Registry, m: Match, player1IsWinner: bool)
    ensures var vs := FeatureValues(t, reg, m, player1IsWinner);
      var p1, p2 := First(m, player1IsWinner), Second(m, player1IsWinner);
      var id1, id2 := p1.playerId.GetOr(""), p2.playerId.GetOr("");
      && vs[..5] == TournamentValues(m, m.surface.GetOr(""), m.tourneyLevel.GetOr(""), m.round.GetOr(""))
      && vs[5..8] == DateValues(m.tourneyDate)
      && vs[8..21] == PlayerValues(reg, p1, id1, p1.hand.GetOr(""), m.surface)
      && vs[21..34] == PlayerValues(reg, p2, id2, p2.hand.GetOr(""), m.surface)
      && vs[34..36] == Lift(HeadToHeadValues(reg, id1, id2))
      && vs[|vs| - 3..] == RankingValues(t, p1.rank, p2.rank)
  {
    var p1, p2 := First(m, player1IsWinner), Second(m, player1IsWinner);
    var id1, id2 := p1.playerId.GetOr(""), p2.playerId.GetOr("");
    ValuesAreGroups(t, reg, m, player1IsWinner);
    GroupsAt(TournamentValues(m, m.surface.GetOr(""), m.tourneyLevel.GetOr(""), m.round.GetOr("")),
             DateValues(m.tourneyDate),
             PlayerValues(reg, p1, id1, p1.hand.GetOr(""), m.surface),
             PlayerValues(reg, p2, id2, p2.hand.GetOr(""), m.surface),
             Lift(HeadToHeadValues(reg, id1, id2)),
             StatsBlock(m, player1IsWinner),
             RankingValues(t, p1.rank, p2.rank));
  }

  /** With both sides' statistics, player 1's eight values follow the
      head-to-head pair and player 2's eight follow those. */
  lemma StatsValueGroups(t: Transcendentals, reg: HistoryManager.Registry, m: Match, player1IsWinner: bool)
    requires BothStats(m)
    ensures var vs := FeatureValues(t, reg, m, player1IsWinner);
      && vs[36..44] == StatsValues(FirstStats(m, player1IsWinner).value)
      && vs[44..52] == StatsValues(SecondStats(m, player1IsWinner).value)
  {
    var p1, p2 := First(m, player1IsWinner), Second(m, player1IsWinner);
    var id1, id2 := p1.playerId.GetOr(""), p2.playerId.GetOr("");
    ValuesAreGroups(t, reg, m, player1IsWinner);
    GroupsAt(TournamentValues(m, m.surface.GetOr(""), m.tourneyLevel.GetOr(""), m.round.GetOr("")),
             DateValues(m.tourneyDate),
             PlayerValues(reg, p1, id1, p1.hand.GetOr(""), m.surface),
             PlayerValues(reg, p2, id2, p2.hand.GetOr(""), m.surface),
             Lift(HeadToHeadValues(reg, id1, id2)),
             StatsBlock(m, player1IsWinner),
             RankingValues(t, p1.rank, p2.rank));
    HalvesAt(StatsValues(FirstStats(m, player1IsWinner).value), StatsValues(SecondStats(m, player1IsWinner).value));
  }

  /** Each group's values sit under that group's names: the tournament
      fields, the date, player 1, player 2, the head-to-head pair, the two
      sides' statistics when both are present, and the ranking comparison
      last. */
  lemma FeatureGroups(t: Transcendentals, reg: HistoryManager.Registry, m: Match, player1IsWinner: bool)
    requires ExtractFeatures(t, reg, m, player1IsWinner).Success?
    ensures var fv := ExtractFeatures(t, reg, m, player1IsWinner).value;
      var p1, p2 := First(m, player1IsWinner), Second(m, player1IsWinner);
      && fv.names[..5] == TournamentNames
      && fv.features[..5] == TournamentValues(m, m.surface.value, m.tourneyLevel.value, m.round.value)
      && fv.names[5..8] == DateNames && fv.features[5..8] == DateValues(m.tourneyDate)
      && fv.names[8..21] == PlayerNames("p1_")
      && fv.features[8..21] == PlayerValues(reg, p1, p1.playerId.value, p1.hand.value, m.surface)
      && fv.names[21..34] == PlayerNames("p2_")
      && fv.features[21..34] == PlayerValues(reg, p2, p2.playerId.value, p2.hand.value, m.surface)
      && fv.names[34..36] == HeadToHeadNames
      && fv.features[34..36] == Lift(HeadToHeadValues(reg, p1.playerId.value, p2.playerId.value))
      && fv.names[|fv.names| - 3..] == RankingNames
      && fv.features[|fv.features| - 3..] == RankingValues(t, p1.rank, p2.rank)
    ensures var fv := ExtractFeatures(t, reg, m, player1IsWinner).value;
      BothStats(m) ==>
        && fv.names[36..44] == StatsNames("p1_")
        && fv.features[36..44] == StatsValues(FirstStats(m, player1IsWinner).value)
        && fv.names[44..52] == StatsNames("p2_")
        && fv.features[44..52] == StatsValues(SecondStats(m, player1IsWinner).value)
  {
    LayoutGroups(BothStats(m));
    ValueGroups(t, reg, m, player1IsWinner);
    if BothStats(m) {
      StatsValueGroups(t, reg, m, player1IsWinner);
    }
  }

  /** Extracting with the loser as player 1 is extracting from the match
      with its sides exchanged: nothing but the two players and their
      statistics trade places. */
  lemma ExtractFromLoserSide(t: Transcendentals, reg: HistoryManager.Registry, m: Match)
    ensures ExtractFeatures(t, reg, m, false) == ExtractFeatures(t, reg, SwapSides(m), true)
  {
  }

  /** The vector has 39 features, or 55 when both sides carry statistics. */
  lemma FeatureCount(t: Transcendentals, reg: HistoryManager.Registry, m: Match, player1IsWinner: bool)
    requires ExtractFeatures(t, reg, m, player1IsWinner).Success?
    ensures var fv := ExtractFeatures(t, reg, m, player1IsWinner).value;
      |fv.features| == |fv.names|
      && (|fv.features| == 55 <==> BothStats(m))
      && (|fv.features| == 39 <==> !BothStats(m))
  {
  }

  // ---------------------------------------------------------------------
  // The extractor as a value

  /** A feature extractor as `TrainingDataPreparer` holds it. */
  type Extractor = (Match, bool) -> Result<FeatureVector, FeatureError>

  /** What the preparer relies on: extraction throws exactly on a `null`
      key, yields 55 features when both sides have statistics and 39
      otherwise, and the loser's view is the swapped match's winner view. */
  ghost predicate BehavesAsExtractor(extract: Extractor) {
    && (forall m, w :: extract(m, w).Failure? <==> NullKey(m, First(m, w), Second(m, w)))
    && (forall m, w :: extract(m, w).Success? ==>
          |extract(m, w).value.features| == (if BothStats(m) then 55 else 39))
    && (forall m :: extract(m, false) == extract(SwapSides(m), true))
  }

  /** The extractor with its history registry, as a value. */
  function ExtractorOf(t: Transcendentals, reg: HistoryManager.Registry): Extractor {
    (m, w) => ExtractFeatures(t, reg, m, w)
  }

  lemma ExtractorBehaves(t: Transcendentals, reg: HistoryManager.Registry)
    ensures BehavesAsExtractor(ExtractorOf(t, reg))
  {
    var extract := ExtractorOf(t, reg);
    forall m, w | extract(m, w).Success?
      ensures |extract(m, w).value.features| == (if BothStats(m) then 55 else 39)
    {
      FeatureCount(t, reg, m, w);
    }
    forall m
      ensures extract(m, false) == extract(SwapSides(m), true)
    {
      ExtractFromLoserSide(t, reg, m);
    }
  }
}

=== FILE: history_manager.dfy ===
/** The registry every result is ingested through: one history per player id
    and one head-to-head record per ordered pair of ids.

    The nested map `player1 -> player2 -> record` is modelled as one map keyed
    by the ordered pair; an outer entry is only ever created together with an
    inner one, so the two are indistinguishable through the lookups.
 */
module HistoryManager {
  import opened Optional
  import opened JavaNum
  import opened Records
  import opened Domain
  import History

  /** One history per player id. */
  type HistoryMap = map<string, History.PlayerHistory>

  /** One head-to-head record per ordered pair of player ids. */
  type PairMap = map<(string, string), HeadToHeadRecord>

  datatype Registry = Registry(histories: HistoryMap, headToHead: PairMap)

  function Empty(): Registry {
    Registry(map[], map[])
  }

  /** `getPlayerHistory`: `null` (here `None`) exactly for an unseen
      player, otherwise the stored history itself. */
  function GetPlayerHistory(reg: Registry, playerId: string): (r: Option<History.PlayerHistory>)
    ensures r.None? <==> playerId !in reg.histories
    ensures r.Some? ==> r.value == reg.histories[playerId]
  {
    if playerId in reg.histories then Some(reg.histories[playerId]) else None
  }

  /** `getHeadToHeadRecord`: `null` (here `None`) exactly for an unseen
      ordered pair, otherwise that pair's record; the pair (b, a) is a
      different key from (a, b). */
  function GetHeadToHeadRecord(reg: Registry, player1Id: string, player2Id: string): (r: Option<HeadToHeadRecord>)
    ensures r.None? <==> (player1Id, player2Id) !in reg.headToHead
    ensures r.Some? ==> r.value == reg.headToHead[(player1Id, player2Id)]
  {
    LookupPair(reg.headToHead, player1Id, player2Id)
  }

  function LookupPair(m: PairMap, a: string, b: string): Option<HeadToHeadRecord> {
    Find(m, (a, b))
  }

  // ---------------------------------------------------------------------
  // The two halves of an ingest

  /** `getOrCreateHistory`: the stored history, or a fresh one. */
  function HistoryOrFresh(hs: HistoryMap, playerId: string): History.PlayerHistory {
    if playerId in hs then hs[playerId] else History.Fresh()
  }

  /** `getOrCreateHistory(playerId).addMatch(won, surface, date)`. */
  function RecordResult(hs: HistoryMap, playerId: string, won: bool, surface: Option<string>, date: Option<Int32>): HistoryMap {
    hs[playerId := History.AddMatch(HistoryOrFresh(hs, playerId), won, surface, date)]
  }

  /** The record of an ordered pair, a new one when the pair never met. */
  function RecordOrNew(m: PairMap, player1Id: string, player2Id: string): HeadToHeadRecord {
    if (player1Id, player2Id) in m then m[(player1Id, player2Id)] else NewHeadToHead()
  }

  /** `updateHeadToHead`: the record of the ordered pair, created on first
      use, counts one more win or loss for `player1Id`; every other ordered
      pair keeps its record or its absence. */
  function UpdateHeadToHead(m: PairMap, player1Id: string, player2Id: string, player1Won: bool): (m': PairMap)
    ensures LookupPair(m', player1Id, player2Id).Some?
    ensures var r, r' := RecordOrNew(m, player1Id, player2Id), LookupPair(m', player1Id, player2Id).value;
      && TotalMatches(r') == TotalMatches(r) + 1
      && r'.wins == r.wins + (if player1Won then 1 else 0)
    ensures forall a, b :: (a, b) != (player1Id, player2Id) ==> LookupPair(m', a, b) == LookupPair(m, a, b)
  {
    var k, r := (player1Id, player2Id), AddHeadToHeadMatch(RecordOrNew(m, player1Id, player2Id), player1Won);
    assert forall a, b :: (a, b) != k ==> LookupPair(m[k := r], a, b) == LookupPair(m, a, b) by {
      forall a, b | (a, b) != k {
        StoreThenFind(m, k, r, (a, b));
      }
    }
    m[k := r]
  }

  /** After an update the updated ordered pair holds its record (created if
      missing) with one more result for `player1Id`, and every other ordered
      pair reads as before. */
  lemma UpdateHeadToHeadAt(m: PairMap, player1Id: string, player2Id: string, player1Won: bool, a: string, b: string)
    ensures LookupPair(UpdateHeadToHead(m, player1Id, player2Id, player1Won), a, b) ==
      if a == player1Id && b == player2Id
      then Some(AddHeadToHeadMatch(RecordOrNew(m, player1Id, player2Id), player1Won))
      else LookupPair(m, a, b)
  {
    var k := (player1Id, player2Id);
    var r := AddHeadToHeadMatch(RecordOrNew(m, player1Id, player2Id), player1Won);
    StoreThenFind(m, k, r, (a, b));
    assert (a, b) == k <==> a == player1Id && b == player2Id;
  }

  /** The value stored under a key, if any. */
  function Find<K, V>(m: map<K, V>, k: K): Option<V> {
    if k in m then Some(m[k]) else None
  }

  /** Storing under one key changes what that key finds and nothing else. */
  lemma StoreThenFind<K, V>(m: map<K, V>, k: K, v: V, x: K)
    ensures Find(m[k := v], x) == if x == k then Some(v) else Find(m, x)
  {
    if x != k {
      assert x in m[k := v] <==> x in m;
    }
  }

  /** Both head-to-head updates of one match: a win for (w, l), then a loss
      for (l, w). */
  function CountMeeting(m: PairMap, w: string, l: string): PairMap {
    UpdateHeadToHead(UpdateHeadToHead(m, w, l, true), l, w, false)
  }

  /** The two records of a meeting of distinct players each gain their side
      of the result, and no other record changes. */
  lemma CountMeetingEffect(m: PairMap, w: string, l: string)
    ensures w != l ==> LookupPair(CountMeeting(m, w, l), w, l) == Some(AddHeadToHeadMatch(RecordOrNew(m, w, l), true))
    ensures w != l ==> LookupPair(CountMeeting(m, w, l), l, w) == Some(AddHeadToHeadMatch(RecordOrNew(m, l, w), false))
    ensures w == l ==>
      LookupPair(CountMeeting(m, w, l), w, w) ==
        Some(HeadToHeadRecord(RecordOrNew(m, w, w).wins + 1, RecordOrNew(m, w, w).losses + 1))
    ensures forall a, b :: (a, b) != (w, l) && (a, b) != (l, w) ==>
      LookupPair(CountMeeting(m, w, l), a, b) == LookupPair(m, a, b)
  {
    CountMeetingAt(m, w, l, w, l);
    CountMeetingAt(m, w, l, l, w);
    forall a, b | (a, b) != (w, l) && (a, b) != (l, w)
      ensures LookupPair(CountMeeting(m, w, l), a, b) == LookupPair(m, a, b)
    {
      assert !(a == w && b == l) && !(a == l && b == w);
      CountMeetingAt(m, w, l, a, b);
    }
  }

  /** What a meeting of `w` and `l` leaves under the ordered pair (a, b),
      given the pair's `prior` lookup and its record `r` (new when absent). */
  function MeetingEffect(prior: Option<HeadToHeadRecord>, r: HeadToHeadRecord, w: string, l: string, a: string, b: string)
    : Option<HeadToHeadRecord>
  {
    if a == w && b == l && w == l then Some(HeadToHeadRecord(r.wins + 1, r.losses + 1))
    else if a == w && b == l then Some(AddHeadToHeadMatch(r, true))
    else if a == l && b == w then Some(AddHeadToHeadMatch(r, false))
    else prior
  }

  /** The record of a pair is the one its lookup finds, or a new one. */
  lemma RecordOrNewIsLookup(m: PairMap, a: string, b: string)
    ensures RecordOrNew(m, a, b) == if LookupPair(m, a, b).Some? then LookupPair(m, a, b).value else NewHeadToHead()
  {
  }

  /** The record of one ordered pair after a meeting of `w` and `l`. */
  lemma CountMeetingAt(m: PairMap, w: string, l: string, a: string, b: string)
    ensures LookupPair(CountMeeting(m, w, l), a, b) ==
      MeetingEffect(LookupPair(m, a, b), RecordOrNew(m, a, b), w, l, a, b)
  {
    var m1 := UpdateHeadToHead(m, w, l, true);
    var m2 := UpdateHeadToHead(m1, l, w, false);
    assert m2 == CountMeeting(m, w, l);
    var r := RecordOrNew(m, a, b);
    UpdateHeadToHeadAt(m, w, l, true, a, b);
    UpdateHeadToHeadAt(m1, l, w, false, a, b);
    if a == l && b == w {
      var r1 := RecordOrNew(m1, l, w);
      assert LookupPair(m2, a, b) == Some(AddHeadToHeadMatch(r1, false));
      RecordOrNewIsLookup(m1, l, w);
      if w == l {
        assert r1 == AddHeadToHeadMatch(r, true);
      } else {
        RecordOrNewIsLookup(m, l, w);
        assert r1 == r;
      }
    } else {
      assert LookupPair(m2, a, b) == LookupPair(m1, a, b);
    }
  }

  // ---------------------------------------------------------------------
  // Ingesting one match

  /** Both players of a match carry an id (the maps reject `null` keys). */
  predicate HasIds(m: Match) {
    m.winner.playerId.Some? && m.loser.playerId.Some?
  }

  /** The body of `updateWithMatch` for winner `w` and loser `l`: a win in
      the winner's history, then a loss in the loser's, then the two
      head-to-head updates. The history and head-to-head halves touch
      disjoint maps, so they are computed side by side. */
  function Ingest1(reg: Registry, w: string, l: string, surface: Option<string>, date: Option<Int32>): Registry {
    Registry(
      RecordResult(RecordResult(reg.histories, w, true, surface, date), l, false, surface, date),
      CountMeeting(reg.headToHead, w, l))
  }

  /** `updateWithMatch`: the winner's history gains a win and the loser's
      a loss, (winner, loser) gains a win and (loser, winner) a loss, and
      every other player and ordered pair reads as before. */
  function UpdateWithMatch(reg: Registry, m: Match): (reg': Registry)
    requires HasIds(m)
    ensures var w, l := m.winner.playerId.value, m.loser.playerId.value;
      w != l ==>
        && GetPlayerHistory(reg', w) == Some(History.AddMatch(HistoryOrFresh(reg.histories, w), true, m.surface, m.tourneyDate))
        && GetPlayerHistory(reg', l) == Some(History.AddMatch(HistoryOrFresh(reg.histories, l), false, m.surface, m.tourneyDate))
        && GetHeadToHeadRecord(reg', w, l) == Some(AddHeadToHeadMatch(RecordOrNew(reg.headToHead, w, l), true))
        && GetHeadToHeadRecord(reg', l, w) == Some(AddHeadToHeadMatch(RecordOrNew(reg.headToHead, l, w), false))
    ensures var w, l := m.winner.playerId.value, m.loser.playerId.value;
      forall p :: p != w && p != l ==> GetPlayerHistory(reg', p) == GetPlayerHistory(reg, p)
    ensures var w, l := m.winner.playerId.value, m.loser.playerId.value;
      forall a, b :: (a, b) != (w, l) && (a, b) != (l, w) ==>
        GetHeadToHeadRecord(reg', a, b) == GetHeadToHeadRecord(reg, a, b)
  {
    var w, l := m.winner.playerId.value, m.loser.playerId.value;
    Ingest1Effect(reg, w, l, m.surface, m.tourneyDate);
    CountMeetingEffect(reg.headToHead, w, l);
    Ingest1(reg, w, l, m.surface, m.tourneyDate)
  }

  /** One ingest touches only the two players' histories and the two
      directions of their rivalry, and leaves both players with a history:
      the winner's gains a win, then the loser's a loss (one history gains
      both when the ids coincide). */
  lemma Ingest1Effect(reg: Registry, w: string, l: string, surface: Option<string>, date: Option<Int32>)
    ensures var reg' := Ingest1(reg, w, l, surface, date);
      forall p :: p != w && p != l ==> GetPlayerHistory(reg', p) == GetPlayerHistory(reg, p)
    ensures var reg' := Ingest1(reg, w, l, surface, date);
      forall a, b :: (a, b) != (w, l) && (a, b) != (l, w) ==>
        GetHeadToHeadRecord(reg', a, b) == GetHeadToHeadRecord(reg, a, b)
    ensures GetPlayerHistory(Ingest1(reg, w, l, surface, date), w).Some?
    ensures GetPlayerHistory(Ingest1(reg, w, l, surface, date), l) ==
      Some(History.AddMatch(HistoryOrFresh(RecordResult(reg.histories, w, true, surface, date), l), false, surface, date))
    ensures w != l ==>
      GetPlayerHistory(Ingest1(reg, w, l, surface, date), w) ==
        Some(History.AddMatch(HistoryOrFresh(reg.histories, w), true, surface, date))
  {
    var hs1 := RecordResult(reg.histories, w, true, surface, date);
    var reg' := Ingest1(reg, w, l, surface, date);
    assert reg'.histories == RecordResult(hs1, l, false, surface, date);
    assert reg'.headToHead == CountMeeting(reg.headToHead, w, l);
    CountMeetingEffect(reg.headToHead, w, l);
    forall p | p != w && p != l
      ensures GetPlayerHistory(reg', p) == GetPlayerHistory(reg, p)
    {
      GetIsLookup(reg, p);
      GetIsLookup(reg', p);
      RecordResultAt(reg.histories, w, true, surface, date, p);
      RecordResultAt(hs1, l, false, surface, date, p);
    }
    GetIsLookup(reg', w);
    GetIsLookup(reg', l);
    RecordResultAt(reg.histories, w, true, surface, date, w);
    RecordResultAt(hs1, l, false, surface, date, w);
    RecordResultAt(hs1, l, false, surface, date, l);
  }

  /** Recording a result for `playerId` changes what that id finds and no
      other. */
  lemma RecordResultAt(hs: HistoryMap, playerId: string, won: bool, surface: Option<string>, date: Option<Int32>, p: string)
    ensures LookupHistory(RecordResult(hs, playerId, won, surface, date), p) ==
      if p == playerId then Some(History.AddMatch(HistoryOrFresh(hs, playerId), won, surface, date)) else LookupHistory(hs, p)
  {
    StoreThenFind(hs, playerId, History.AddMatch(HistoryOrFresh(hs, playerId), won, surface, date), p);
  }

  /** There is no de-duplication: ingesting the same match twice counts it
      twice in both directions. */
  lemma DuplicateIngestCountsTwice(reg: Registry, m: Match)
    requires HasIds(m) && m.winner.playerId != m.loser.playerId
    ensures var w, l := m.winner.playerId.value, m.loser.playerId.value;
      var r := RecordOrNew(reg.headToHead, w, l);
      GetHeadToHeadRecord(UpdateWithMatch(UpdateWithMatch(reg, m), m), w, l) ==
        Some(HeadToHeadRecord(r.wins + 2, r.losses))
  {
    var w, l := m.winner.playerId.value, m.loser.playerId.value;
    var once := UpdateWithMatch(reg, m);
    CountMeetingEffect(reg.headToHead, w, l);
    CountMeetingEffect(once.headToHead, w, l);
  }

  /** `reset`: both maps emptied. */
  function Reset(reg: Registry): (reg': Registry)
    ensures forall p :: GetPlayerHistory(reg', p).None?
    ensures forall a, b :: GetHeadToHeadRecord(reg', a, b).None?
  {
    Empty()
  }

  // ---------------------------------------------------------------------
  // The mirrored-counter invariant

  /** The records of (a, b) and (b, a) are both absent, or both present
      with one side's wins the other side's losses. */
  predicate MirrorPair(x: Option<HeadToHeadRecord>, y: Option<HeadToHeadRecord>) {
    || (x.None? && y.None?)
    || (x.Some? && y.Some? && x.value.wins == y.value.losses && x.value.losses == y.value.wins)
  }

  ghost predicate MirroredMap(m: PairMap) {
    forall a, b :: MirrorPair(LookupPair(m, a, b), LookupPair(m, b, a))
  }

  ghost predicate Mirrored(reg: Registry) {
    MirroredMap(reg.headToHead)
  }

  /** Counting both directions of a meeting keeps the records mirrored. */
  lemma CountMeetingKeepsMirrored(m: PairMap, w: string, l: string)
    requires MirroredMap(m)
    ensures MirroredMap(CountMeeting(m, w, l))
  {
    var m' := CountMeeting(m, w, l);
    forall a, b
      ensures MirrorPair(LookupPair(m', a, b), LookupPair(m', b, a))
    {
      CountMeetingAt(m, w, l, a, b);
      CountMeetingAt(m, w, l, b, a);
      MeetingKeepsMirror(LookupPair(m, a, b), LookupPair(m, b, a), RecordOrNew(m, a, b), RecordOrNew(m, b, a), w, l, a, b);
    }
  }

  /** A meeting keeps a mirrored pair of records mirrored. */
  lemma MeetingKeepsMirror(pab: Option<HeadToHeadRecord>, pba: Option<HeadToHeadRecord>,
                           rab: HeadToHeadRecord, rba: HeadToHeadRecord, w: string, l: string, a: string, b: string)
    requires MirrorPair(pab, pba)
    requires rab == if pab.Some? then pab.value else NewHeadToHead()
    requires rba == if pba.Some? then pba.value else NewHeadToHead()
    ensures MirrorPair(MeetingEffect(pab, rab, w, l, a, b), MeetingEffect(pba, rba, w, l, b, a))
  {
  }

  /** Every ingest keeps the two directions of each rivalry in step. */
  lemma UpdateKeepsMirrored(reg: Registry, m: Match)
    requires HasIds(m) && Mirrored(reg)
    ensures Mirrored(UpdateWithMatch(reg, m))
  {
    CountMeetingKeepsMirrored(reg.headToHead, m.winner.playerId.value, m.loser.playerId.value);
  }

  /** In a mirrored registry H2H(a,b).wins == H2H(b,a).losses, and the two
      directions have the same total. */
  lemma MirroredTotals(reg: Registry, a: string, b: string)
    requires Mirrored(reg)
    ensures GetHeadToHeadRecord(reg, a, b).Some? <==> GetHeadToHeadRecord(reg, b, a).Some?
    ensures GetHeadToHeadRecord(reg, a, b).Some? ==>
      GetHeadToHeadRecord(reg, a, b).value.wins == GetHeadToHeadRecord(reg, b, a).value.losses &&
      TotalMatches(GetHeadToHeadRecord(reg, a, b).value) == TotalMatches(GetHeadToHeadRecord(reg, b, a).value)
  {
    assert MirrorPair(LookupPair(reg.headToHead, a, b), LookupPair(reg.headToHead, b, a));
  }

  // ---------------------------------------------------------------------
  // Ingesting a sequence of matches

  predicate AllHaveIds(ms: seq<Match>) {
    forall i :: 0 <= i < |ms| ==> HasIds(ms[i])
  }

  lemma PrefixHasIds(ms: seq<Match>)
    requires AllHaveIds(ms) && |ms| > 0
    ensures AllHaveIds(ms[..|ms| - 1])
  {
    var prefix := ms[..|ms| - 1];
    forall i | 0 <= i < |prefix|
      ensures HasIds(prefix[i])
    {
      assert prefix[i] == ms[i];
    }
  }

  /** The registry after ingesting `ms`, oldest first, into an empty one. */
  function Ingest(ms: seq<Match>): Registry
    requires AllHaveIds(ms)
  {
    if |ms| == 0 then Empty()
    else
      PrefixHasIds(ms);
      UpdateWithMatch(Ingest(ms[..|ms| - 1]), ms[|ms| - 1])
  }

  /** The number of matches in `ms` won by `a` against `b`. */
  function Beat(ms: seq<Match>, a: string, b: string): nat {
    if |ms| == 0 then 0
    else
      var m := ms[|ms| - 1];
      Beat(ms[..|ms| - 1], a, b) +
        (if m.winner.playerId == Some(a) && m.loser.playerId == Some(b) then 1 else 0)
  }

  /** The last match of `ms`, won by `w` over `l`, adds one to the count
      of (a, b) exactly when it is a win of `a` over `b`. */
  lemma BeatStep(ms: seq<Match>, w: string, l: string, a: string, b: string)
    requires |ms| > 0 && ms[|ms| - 1].winner.playerId == Some(w) && ms[|ms| - 1].loser.playerId == Some(l)
    ensures Beat(ms, a, b) == Beat(ms[..|ms| - 1], a, b) + (if w == a && l == b then 1 else 0)
  {
  }

  /** Ingesting one more match is one more `Ingest1`. */
  lemma IngestStep(ms: seq<Match>)
    requires AllHaveIds(ms) && |ms| > 0
    ensures AllHaveIds(ms[..|ms| - 1])
    ensures var m := ms[|ms| - 1];
      Ingest(ms) == Ingest1(Ingest(ms[..|ms| - 1]), m.winner.playerId.value, m.loser.playerId.value, m.surface, m.tourneyDate)
  {
    PrefixHasIds(ms);
  }

  /** The head-to-head record of (a, b) after ingesting `ms`: absent when
      they never met, otherwise the wins of a over b and of b over a. Every
      ingest counts, so the same match ingested twice counts twice. */
  lemma {:induction false} IngestHeadToHead(ms: seq<Match>, a: string, b: string)
    requires AllHaveIds(ms)
    ensures GetHeadToHeadRecord(Ingest(ms), a, b) ==
      if Beat(ms, a, b) + Beat(ms, b, a) == 0 then None
      else Some(HeadToHeadRecord(Beat(ms, a, b), Beat(ms, b, a)))
  {
    IngestCountsMeetings(ms);
    CountAllTallies(ms, a, b);
  }

  /** The head-to-head map after counting every meeting of `ms`. */
  function CountAll(ms: seq<Match>): PairMap
    requires AllHaveIds(ms)
  {
    if |ms| == 0 then map[]
    else
      var m := ms[|ms| - 1];
      PrefixHasIds(ms);
      CountMeeting(CountAll(ms[..|ms| - 1]), m.winner.playerId.value, m.loser.playerId.value)
  }

  lemma {:induction false} IngestCountsMeetings(ms: seq<Match>)
    requires AllHaveIds(ms)
    ensures Ingest(ms).headToHead == CountAll(ms)
  {
    if |ms| > 0 {
      IngestStep(ms);
      IngestCountsMeetings(ms[..|ms| - 1]);
    }
  }

  /** A tally of (a, b) meetings stays a tally after one more meeting of
      `w` and `l`. */
  lemma TallyStep(prior: Option<HeadToHeadRecord>, r: HeadToHeadRecord, w: string, l: string, a: string, b: string,
                  ab: nat, ba: nat, ab': nat, ba': nat)
    requires prior == if ab + ba == 0 then None else Some(HeadToHeadRecord(ab, ba))
    requires r == if prior.Some? then prior.value else NewHeadToHead()
    requires ab' == ab + (if w == a && l == b then 1 else 0)
    requires ba' == ba + (if w == b && l == a then 1 else 0)
    ensures MeetingEffect(prior, r, w, l, a, b) == if ab' + ba' == 0 then None else Some(HeadToHeadRecord(ab', ba'))
  {
    assert r == HeadToHeadRecord(ab, ba);
  }

  lemma {:induction false} CountAllTallies(ms: seq<Match>, a: string, b: string)
    requires AllHaveIds(ms)
    ensures LookupPair(CountAll(ms), a, b) ==
      if Beat(ms, a, b) + Beat(ms, b, a) == 0 then None
      else Some(HeadToHeadRecord(Beat(ms, a, b), Beat(ms, b, a)))
  {
    if |ms| > 0 {
      var prefix := ms[..|ms| - 1];
      var m := ms[|ms| - 1];
      assert HasIds(m);
      var w := m.winner.playerId.value;
      var l := m.loser.playerId.value;
      PrefixHasIds(ms);
      var before := CountAll(prefix);
      assert CountAll(ms) == CountMeeting(before, w, l);
      BeatStep(ms, w, l, a, b);
      BeatStep(ms, w, l, b, a);
      CountAllTallies(prefix, a, b);
      CountMeetingAt(before, w, l, a, b);
      RecordOrNewIsLookup(before, a, b);
      TallyStep(LookupPair(before, a, b), RecordOrNew(before, a, b), w, l, a, b,
                Beat(prefix, a, b), Beat(prefix, b, a), Beat(ms, a, b), Beat(ms, b, a));
    }
  }

  /** The history outcomes `ms` feeds to player `p`: for each match, a win
      when `p` won it and then a loss when `p` lost it. */
  function OutcomesOf(ms: seq<Match>, p: string): seq<History.Outcome> {
    if |ms| == 0 then []
    else
      var m := ms[|ms| - 1];
      OutcomesOf(ms[..|ms| - 1], p)
        + (if m.winner.playerId == Some(p) then [History.Outcome(true, m.surface, m.tourneyDate)] else [])
        + (if m.loser.playerId == Some(p) then [History.Outcome(false, m.surface, m.tourneyDate)] else [])
  }

  lemma ReplaySnoc(outs: seq<History.Outcome>, o: History.Outcome)
    ensures History.Replay(outs + [o]) == History.AddMatch(History.Replay(outs), o.won, o.surface, o.date)
  {
    assert (outs + [o])[..|outs|] == outs;
  }

  /** The history a replay of `outs` leaves: none before the first result. */
  function ReplayOrNone(outs: seq<History.Outcome>): Option<History.PlayerHistory> {
    if |outs| == 0 then None else Some(History.Replay(outs))
  }

  function LookupHistory(hs: HistoryMap, p: string): Option<History.PlayerHistory> {
    if p in hs then Some(hs[p]) else None
  }

  /** Recording a result for `playerId` extends that player's replay by one
      outcome and leaves every other player's as it was. */
  lemma RecordResultExtends(hs: HistoryMap, playerId: string, won: bool, surface: Option<string>, date: Option<Int32>,
                            p: string, outs: seq<History.Outcome>)
    requires LookupHistory(hs, p) == ReplayOrNone(outs)
    ensures LookupHistory(RecordResult(hs, playerId, won, surface, date), p) ==
      ReplayOrNone(outs + (if playerId == p then [History.Outcome(won, surface, date)] else []))
  {
    var after := RecordResult(hs, playerId, won, surface, date);
    if playerId == p {
      var o := History.Outcome(won, surface, date);
      var before := HistoryOrFresh(hs, p);
      assert LookupHistory(after, p) == Some(History.AddMatch(before, won, surface, date));
      ReplaySnoc(outs, o);
      assert before == History.Replay(outs) by {
        if |outs| == 0 {
          assert History.Replay(outs) == History.Fresh();
        }
      }
    } else {
      assert LookupHistory(after, p) == LookupHistory(hs, p);
      assert outs + [] == outs;
    }
  }

  /** One ingest extends a player's replay by the win, then the loss, that
      the match gives that player. */
  lemma Ingest1History(reg: Registry, w: string, l: string, surface: Option<string>, date: Option<Int32>,
                       p: string, outs: seq<History.Outcome>)
    requires GetPlayerHistory(reg, p) == ReplayOrNone(outs)
    ensures GetPlayerHistory(Ingest1(reg, w, l, surface, date), p) ==
      ReplayOrNone(outs
        + (if w == p then [History.Outcome(true, surface, date)] else [])
        + (if l == p then [History.Outcome(false, surface, date)] else []))
  {
    var hs1 := RecordResult(reg.histories, w, true, surface, date);
    var o1 := outs + (if w == p then [History.Outcome(true, surface, date)] else []);
    GetIsLookup(reg, p);
    GetIsLookup(Ingest1(reg, w, l, surface, date), p);
    RecordResultExtends(reg.histories, w, true, surface, date, p, outs);
    RecordResultExtends(hs1, l, false, surface, date, p, o1);
  }

  lemma GetIsLookup(reg: Registry, p: string)
    ensures GetPlayerHistory(reg, p) == LookupHistory(reg.histories, p)
  {
  }

  /** The last match adds the player's win, then loss, to the outcomes. */
  lemma OutcomesStep(ms: seq<Match>, p: string)
    requires AllHaveIds(ms) && |ms| > 0
    ensures var m := ms[|ms| - 1];
      OutcomesOf(ms, p) == OutcomesOf(ms[..|ms| - 1], p)
        + (if m.winner.playerId.value == p then [History.Outcome(true, m.surface, m.tourneyDate)] else [])
        + (if m.loser.playerId.value == p then [History.Outcome(false, m.surface, m.tourneyDate)] else [])
  {
  }

  /** A player's history after ingesting `ms` is absent when the player
      took part in none of them, and otherwise is exactly the replay of that
      player's own results; histories are created on first use. */
  lemma {:induction false} IngestHistory(ms: seq<Match>, p: string)
    requires AllHaveIds(ms)
    ensures GetPlayerHistory(Ingest(ms), p) == ReplayOrNone(OutcomesOf(ms, p))
  {
    if |ms| > 0 {
      var m := ms[|ms| - 1];
      IngestStep(ms);
      IngestHistory(ms[..|ms| - 1], p);
      OutcomesStep(ms, p);
      Ingest1History(Ingest(ms[..|ms| - 1]), m.winner.playerId.value, m.loser.playerId.value, m.surface, m.tourneyDate,
                     p, OutcomesOf(ms[..|ms| - 1], p));
    }
  }

  /** Ingesting any sequence of matches keeps the invariant. */
  lemma {:induction false} IngestMirrored(ms: seq<Match>)
    requires AllHaveIds(ms)
    ensures Mirrored(Ingest(ms))
  {
    if |ms| > 0 {
      PrefixHasIds(ms);
      IngestMirrored(ms[..|ms| - 1]);
      UpdateKeepsMirrored(Ingest(ms[..|ms| - 1]), ms[|ms| - 1]);
    }
  }
}

=== FILE: java_num.dfy ===
/** Java's 32-bit `int` arithmetic and the small numeric helpers shared by the
    model: wrap-around, truncating division and remainder, `Math.abs`,
    clamping, and integer powers of a real.
 */
module JavaNum {

  const IntMin: int := -0x8000_0000
  const IntMax: int := 0x7FFF_FFFF
  const TwoTo32: int := 0x1_0000_0000

  predicate IsInt32(x: int) {
    IntMin <= x <= IntMax
  }

  /** A Java `int` value. */
  type Int32 = x: int | -0x8000_0000 <= x <= 0x7FFF_FFFF

  /** The value a Java `int` expression holds after wrap-around. */
  function Wrap32(x: int): (r: Int32)
    ensures (x - r) % TwoTo32 == 0
    ensures IsInt32(x) ==> r == x
    ensures IntMax < x <= IntMax + TwoTo32 ==> r == x - TwoTo32
    ensures IntMin - TwoTo32 <= x < IntMin ==> r == x + TwoTo32
  {
    var m := x % TwoTo32;
    if m > IntMax then m - TwoTo32 else m
  }

  /** Java's `/` on `int` with a positive divisor: rounds toward zero. */
  function TruncDiv(a: int, b: int): (q: int)
    requires b > 0
    ensures a >= 0 ==> 0 <= a - q * b < b
    ensures a < 0 ==> -b < a - q * b <= 0
  {
    if a >= 0 then a / b else -((-a) / b)
  }

  /** Java's `%` on `int` with a positive divisor: takes the sign of `a`. */
  function TruncRem(a: int, b: int): (r: int)
    requires b > 0
    ensures a >= 0 ==> 0 <= r < b
    ensures a < 0 ==> -b < r <= 0
  {
    a - TruncDiv(a, b) * b
  }

  /** Java's `Math.abs(int)`: the negation of `Integer.MIN_VALUE` overflows
      back to `Integer.MIN_VALUE`. */
  function JavaAbs(x: Int32): (r: Int32)
    ensures x != IntMin ==> r >= 0 && (r as int == x as int || r as int == -(x as int))
    ensures x == IntMin ==> r < 0
  {
    if x == IntMin then IntMin
    else if x < 0 then (-(x as int)) as Int32
    else x
  }

  /** Away from `Integer.MIN_VALUE`, taking the absolute value before or
      after the remainder gives the same result. */
  lemma AbsRemSwap(x: Int32, b: int)
    requires x != IntMin && 0 < b <= IntMax
    ensures TruncRem(JavaAbs(x), b) == JavaAbs(TruncRem(x, b) as Int32)
  {
    if x < 0 {
      var q := (-x) / b;
      assert TruncDiv(x, b) == -q && TruncDiv(-x, b) == q;
      assert (-q) * b == -(q * b);
      assert TruncRem(x, b) == -TruncRem(-x, b);
    }
  }

  function MinReal(a: real, b: real): real {
    if a <= b then a else b
  }

  function MaxReal(a: real, b: real): real {
    if a >= b then a else b
  }

  function AbsReal(x: real): (r: real)
    ensures r >= 0.0 && (r == x || r == -x)
  {
    if x < 0.0 then -x else x
  }

  /** `Math.max(lo, Math.min(hi, x))`. */
  function Clamp(lo: real, hi: real, x: real): (r: real)
    requires lo <= hi
    ensures lo <= r <= hi
    ensures lo <= x <= hi ==> r == x
    ensures x < lo ==> r == lo
    ensures x > hi ==> r == hi
  {
    MaxReal(lo, MinReal(hi, x))
  }

  /** Clamping to an interval symmetric about 1/2 commutes with taking the
      complement. */
  lemma ClampComplement(lo: real, x: real)
    requires 0.0 <= lo <= 0.5
    ensures Clamp(lo, 1.0 - lo, x) + Clamp(lo, 1.0 - lo, 1.0 - x) == 1.0
  {
  }

  /** A quotient of a numerator between 0 and a positive denominator is a
      fraction. */
  lemma FractionBounds(n: real, d: real)
    requires d > 0.0 && 0.0 <= n <= d
    ensures 0.0 <= n / d <= 1.0
  {
    assert (n / d) * d == n;
  }

  /** A total between `lo·n` and `hi·n` has a mean over `n` between `lo`
      and `hi`. */
  lemma MeanBounds(s: real, n: real, lo: real, hi: real)
    requires n > 0.0 && lo * n <= s <= hi * n
    ensures lo <= s / n <= hi
  {
    var q := s / n;
    assert q * n == s;
    assert (q - lo) * n >= 0.0;
    assert (hi - q) * n >= 0.0;
  }

  /** One more value `x` between `lo` and `hi` keeps a total of `k` such
      values between the bounds: the new total `s'` of the `k'` = k+1
      values lies between `lo·k'` and `hi·k'`. */
  lemma AddWithin(k: real, s: real, x: real, lo: real, hi: real, k': real, s': real)
    requires lo * k <= s <= hi * k && lo <= x <= hi
    requires k' == k + 1.0 && s' == s + x
    ensures lo * k' <= s' <= hi * k'
  {
    assert lo * k' == lo * k + lo;
    assert hi * k' == hi * k + hi;
  }

  /** `AddWithin` for a value that may be absent: an absent value leaves
      the count and the total as they were. */
  lemma MaybeAddWithin(k: real, s: real, present: bool, x: real, lo: real, hi: real, k': real, s': real)
    requires lo * k <= s <= hi * k && (present ==> lo <= x <= hi)
    requires k' == k + (if present then 1.0 else 0.0) && s' == s + (if present then x else 0.0)
    ensures lo * k' <= s' <= hi * k'
  {
    if present {
      AddWithin(k, s, x, lo, hi, k', s');
    }
  }

  /** Scaling a non-negative amount by a weight in [0, 1] cannot enlarge
      it. */
  lemma ScaleWithin(x: real, w: real)
    requires x >= 0.0 && 0.0 <= w <= 1.0
    ensures 0.0 <= x * w <= x
  {
    assert x * (1.0 - w) >= 0.0;
  }

  /** `Math.pow(b, n)` for a non-negative integer exponent. */
  function Pow(b: real, n: nat): real {
    if n == 0 then 1.0 else b * Pow(b, n - 1)
  }

  lemma {:induction false} PowUnitInterval(b: real, n: nat)
    requires 0.0 < b < 1.0
    ensures 0.0 < Pow(b, n) <= 1.0
    ensures n > 0 ==> Pow(b, n) < 1.0
  {
    if n > 0 {
      PowUnitInterval(b, n - 1);
    }
  }

  lemma PowStep(b: real, n: nat)
    ensures Pow(b, n + 1) == b * Pow(b, n)
  {
  }
}

=== FILE: match_prediction.dfy ===
/** A prediction for an upcoming match: two players, the context and the
    probability that player 1 wins. */
module Prediction {
  import opened Domain

  datatype MatchPrediction = MatchPrediction(
    player1: Player,
    player2: Player,
    context: MatchContext,
    player1WinProbability: real)

  function Player2WinProbability(mp: MatchPrediction): (r: real)
    ensures r + mp.player1WinProbability == 1.0
  {
    1.0 - mp.player1WinProbability
  }

  /** Player 1 is the favourite only when strictly more likely than not to
      win; an even match names player 2. */
  predicate FavoriteIsPlayer1(mp: MatchPrediction) {
    mp.player1WinProbability > 0.5
  }

  function Favorite(mp: MatchPrediction): (p: Player)
    ensures FavoriteIsPlayer1(mp) ==> p == mp.player1
    ensures !FavoriteIsPlayer1(mp) ==> p == mp.player2
  {
    if mp.player1WinProbability > 0.5 then mp.player1 else mp.player2
  }

  /** The larger of the two sides' probabilities: never below 1/2, and at
      least each side's own probability. */
  function FavoriteProbability(mp: MatchPrediction): (r: real)
    ensures r >= 0.5
    ensures r >= mp.player1WinProbability && r >= Player2WinProbability(mp)
    ensures r == mp.player1WinProbability || r == Player2WinProbability(mp)
  {
    if mp.player1WinProbability >= 1.0 - mp.player1WinProbability then mp.player1WinProbability
    else 1.0 - mp.player1WinProbability
  }

  /** The favourite's probability is the win probability of the side
      `Favorite` names. */
  lemma FavoriteProbabilityIsFavoritesChance(mp: MatchPrediction)
    ensures FavoriteProbability(mp) ==
      if FavoriteIsPlayer1(mp) then mp.player1WinProbability else Player2WinProbability(mp)
  {
  }

  /** The same prediction told from the other side. */
  function Mirror(mp: MatchPrediction): MatchPrediction {
    MatchPrediction(mp.player2, mp.player1, mp.context, Player2WinProbability(mp))
  }

  /** Telling the prediction from the other side keeps the favourite and
      its probability, except in an even match, where each telling names
      its own player 2. */
  lemma MirrorKeepsFavorite(mp: MatchPrediction)
    ensures FavoriteProbability(Mirror(mp)) == FavoriteProbability(mp)
    ensures mp.player1WinProbability != 0.5 ==> Favorite(Mirror(mp)) == Favorite(mp)
    ensures mp.player1WinProbability == 0.5 ==> Favorite(Mirror(mp)) == mp.player1 && Favorite(mp) == mp.player2
    ensures Mirror(Mirror(mp)) == mp
  {
  }
}

=== FILE: match_stats.dfy ===
/** Per-player serve statistics of one match and the ratios derived from them.

    Every raw count is a nullable Java `Integer`. Each derived ratio is `null`
    (here `None`) unless its denominator is present and positive, so no getter
    ever divides by zero.
 */
module Stats {
  import opened Optional
  import opened JavaNum

  datatype MatchStats = MatchStats(
    aces: Option<Int32>,
    doubleFaults: Option<Int32>,
    servePoints: Option<Int32>,
    firstServeIn: Option<Int32>,
    firstServeWon: Option<Int32>,
    secondServeWon: Option<Int32>,
    serviceGames: Option<Int32>,
    breakPointsSaved: Option<Int32>,
    breakPointsFaced: Option<Int32>)

  /** `num / den` when the denominator is present and positive and the
      numerator is present; `null` otherwise. */
  function Ratio(num: Option<Int32>, den: Option<Int32>): (r: Option<real>)
    ensures r.Some? <==> num.Some? && den.Some? && den.value > 0
    ensures r.Some? ==> r.value * (den.value as real) == num.value as real
    ensures r.Some? && 0 <= num.value <= den.value ==> 0.0 <= r.value <= 1.0
  {
    if den.Some? && den.value > 0 && num.Some? then
      if 0 <= num.value <= den.value then
        FractionBounds(num.value as real, den.value as real);
        Some((num.value as real) / (den.value as real))
      else
        Some((num.value as real) / (den.value as real))
    else None
  }

  /** The share of serve points whose first serve went in. Present exactly when
      both counts are and the denominator is positive. */
  function FirstServePercentage(s: MatchStats): (r: Option<real>)
    ensures r.Some? <==> s.servePoints.Some? && s.servePoints.value > 0 && s.firstServeIn.Some?
    ensures r.Some? ==> r.value * (s.servePoints.value as real) == s.firstServeIn.value as real
    ensures r.Some? && 0 <= s.firstServeIn.value <= s.servePoints.value ==> 0.0 <= r.value <= 1.0
  {
    Ratio(s.firstServeIn, s.servePoints)
  }

  /** The share of first serves in that won the point. Present exactly when
      both counts are and the denominator is positive. */
  function FirstServeWinPercentage(s: MatchStats): (r: Option<real>)
    ensures r.Some? <==> s.firstServeIn.Some? && s.firstServeIn.value > 0 && s.firstServeWon.Some?
    ensures r.Some? ==> r.value * (s.firstServeIn.value as real) == s.firstServeWon.value as real
    ensures r.Some? && 0 <= s.firstServeWon.value <= s.firstServeIn.value ==> 0.0 <= r.value <= 1.0
  {
    Ratio(s.firstServeWon, s.firstServeIn)
  }

  /** Aces per serve point. Present exactly when
      both counts are and the denominator is positive. */
  function AceRate(s: MatchStats): (r: Option<real>)
    ensures r.Some? <==> s.servePoints.Some? && s.servePoints.value > 0 && s.aces.Some?
    ensures r.Some? ==> r.value * (s.servePoints.value as real) == s.aces.value as real
    ensures r.Some? && 0 <= s.aces.value <= s.servePoints.value ==> 0.0 <= r.value <= 1.0
  {
    Ratio(s.aces, s.servePoints)
  }

  /** Double faults per serve point. Present exactly when
      both counts are and the denominator is positive. */
  function DoubleFaultRate(s: MatchStats): (r: Option<real>)
    ensures r.Some? <==> s.servePoints.Some? && s.servePoints.value > 0 && s.doubleFaults.Some?
    ensures r.Some? ==> r.value * (s.servePoints.value as real) == s.doubleFaults.value as real
    ensures r.Some? && 0 <= s.doubleFaults.value <= s.servePoints.value ==> 0.0 <= r.value <= 1.0
  {
    Ratio(s.doubleFaults, s.servePoints)
  }

  /** The share of break points faced that were saved. Present exactly when
      both counts are and the denominator is positive. */
  function BreakPointSavePercentage(s: MatchStats): (r: Option<real>)
    ensures r.Some? <==> s.breakPointsFaced.Some? && s.breakPointsFaced.value > 0 && s.breakPointsSaved.Some?
    ensures r.Some? ==> r.value * (s.breakPointsFaced.value as real) == s.breakPointsSaved.value as real
    ensures r.Some? && 0 <= s.breakPointsSaved.value <= s.breakPointsFaced.value ==> 0.0 <= r.value <= 1.0
  {
    Ratio(s.breakPointsSaved, s.breakPointsFaced)
  }

  /** The five ratios with a direct denominator are present exactly when
      the denominator is positive, and are fractions when the counts are
      consistent (numerator between 0 and denominator). */
  lemma DirectRatiosGuarded(s: MatchStats)
    ensures FirstServePercentage(s).Some? <==>
      s.servePoints.Some? && s.servePoints.value > 0 && s.firstServeIn.Some?
    ensures FirstServeWinPercentage(s).Some? <==>
      s.firstServeIn.Some? && s.firstServeIn.value > 0 && s.firstServeWon.Some?
    ensures AceRate(s).Some? <==>
      s.servePoints.Some? && s.servePoints.value > 0 && s.aces.Some?
    ensures DoubleFaultRate(s).Some? <==>
      s.servePoints.Some? && s.servePoints.value > 0 && s.doubleFaults.Some?
    ensures BreakPointSavePercentage(s).Some? <==>
      s.breakPointsFaced.Some? && s.breakPointsFaced.value > 0 && s.breakPointsSaved.Some?
    ensures FirstServePercentage(s).Some? && 0 <= s.firstServeIn.value <= s.servePoints.value ==>
      0.0 <= FirstServePercentage(s).value <= 1.0
    ensures BreakPointSavePercentage(s).Some? && 0 <= s.breakPointsSaved.value <= s.breakPointsFaced.value ==>
      0.0 <= BreakPointSavePercentage(s).value <= 1.0
  {
  }

  /** Second-serve win percentage AS WRITTEN: the number of second-serve
      points `servePoints - firstServeIn` is an `int` subtraction, which
      wraps around for extreme inputs. */
  function SecondServeWinPercentageWrapped(s: MatchStats): (r: Option<real>)
    ensures r.Some? ==> s.servePoints.Some? && s.firstServeIn.Some? && s.secondServeWon.Some?
    ensures r.Some? ==> Wrap32(s.servePoints.value - s.firstServeIn.value) > 0
  {
    if s.servePoints.None? || s.firstServeIn.None? || s.secondServeWon.None? then None
    else
      var secondServePoints := Wrap32(s.servePoints.value - s.firstServeIn.value);
      Ratio(s.secondServeWon, Some(secondServePoints))
  }

  /** A serve-point count of `Integer.MIN_VALUE` with one first serve in: the
      true number of second-serve points is negative, yet the wrapped
      difference is `Integer.MAX_VALUE` and a percentage is produced. */
  lemma SecondServeWrapCounterexample()
    ensures var s := MatchStats(None, None, Some(IntMin), Some(1), None, Some(5), None, None, None);
      && s.servePoints.value - s.firstServeIn.value < 0
      && SecondServeWinPercentageWrapped(s).Some?
      && SecondServeWinPercentage(s).None?
  {
    var s := MatchStats(None, None, Some(IntMin), Some(1), None, Some(5), None, None, None);
    assert Wrap32(IntMin - 1) == IntMax;
  }

  /** Second-serve win percentage with the difference taken without
      wrap-around (as a `long` would): present only when there really are
      second-serve points. */
  function SecondServeWinPercentage(s: MatchStats): (r: Option<real>)
    ensures r.Some? <==>
      s.servePoints.Some? && s.firstServeIn.Some? && s.secondServeWon.Some? &&
      s.servePoints.value - s.firstServeIn.value > 0
    ensures r.Some? ==>
      r.value * ((s.servePoints.value - s.firstServeIn.value) as real) == s.secondServeWon.value as real
    ensures r.Some? && 0 <= s.secondServeWon.value <= s.servePoints.value - s.firstServeIn.value ==>
      0.0 <= r.value <= 1.0
  {
    if s.servePoints.None? || s.firstServeIn.None? || s.secondServeWon.None? then None
    else
      var secondServePoints := s.servePoints.value - s.firstServeIn.value;
      if secondServePoints > 0 then
        var won := s.secondServeWon.value as real;
        if 0.0 <= won <= secondServePoints as real then
          FractionBounds(won, secondServePoints as real);
          Some(won / (secondServePoints as real))
        else
          Some(won / (secondServePoints as real))
      else None
  }

  /** Whenever the counts are realistic (no negative counts), the corrected
      definition agrees with the code as written. */
  lemma SecondServeAgreesOnRealisticCounts(s: MatchStats)
    requires s.servePoints.Some? ==> s.servePoints.value >= 0
    requires s.firstServeIn.Some? ==> s.firstServeIn.value >= 0
    ensures SecondServeWinPercentageWrapped(s) == SecondServeWinPercentage(s)
  {
  }
}

=== FILE: odds.dfy ===
/** The pure helpers around scraped matches with bookmaker odds: removing
    duplicate listings, ordering by start time, implied probability and
    expected value of a bet, the value-bet decision, and the estimated
    player made up from a bare name.

    The scraping itself (network, HTML, clocks) is not modelled: the
    matches arrive as a sequence.
 */
module Odds {
  import opened Optional
  import opened JavaNum
  import opened Text
  import opened Domain
  import opened Prediction

  // ---------------------------------------------------------------------
  // Dates and times

  /** `java.time.LocalDate`. */
  datatype LocalDate = LocalDate(year: int, month: nat, day: nat)

  /** `java.time.LocalDateTime`: a date and the nanosecond of that day. */
  datatype LocalDateTime = LocalDateTime(date: LocalDate, nanoOfDay: nat)

  /** `LocalDateTime.compareTo(b) <= 0`: date first, then time of day. */
  predicate NotAfter(a: LocalDateTime, b: LocalDateTime) {
    a.date.year < b.date.year
    || (a.date.year == b.date.year
        && (a.date.month < b.date.month
            || (a.date.month == b.date.month
                && (a.date.day < b.date.day
                    || (a.date.day == b.date.day && a.nanoOfDay <= b.nanoOfDay)))))
  }

  /** `s` preceded by zeros up to `width` characters. */
  function PadZeros(s: string, width: nat): string
    decreases width - |s|
  {
    if |s| >= width then s else PadZeros("0" + s, width)
  }

  /** The padding is at least `width` long and never longer than needed,
      with `s` at the end and only zeros before it. */
  lemma {:induction false} PadZerosShape(s: string, width: nat)
    ensures var r := PadZeros(s, width);
      && |r| == (if |s| >= width then |s| else width)
      && r[|r| - |s|..] == s
      && forall i :: 0 <= i < |r| - |s| ==> r[i] == '0'
    decreases width - |s|
  {
    if |s| < width {
      PadZerosShape("0" + s, width);
      var r := PadZeros(s, width);
      assert r[|r| - |s|..] == ("0" + s)[1..];
      assert r[|r| - |s| - 1] == ("0" + s)[0];
    }
  }

  /** A number below 10^k has at most k digits, for k up to 4. */
  lemma {:induction false} FormatNatWidth(n: nat)
    ensures n < 10 ==> |FormatNat(n)| == 1
    ensures n < 100 ==> |FormatNat(n)| <= 2
    ensures n < 1000 ==> |FormatNat(n)| <= 3
    ensures n < 10000 ==> |FormatNat(n)| <= 4
  {
    if n >= 10 {
      FormatNatWidth(n / 10);
    }
  }

  /** `LocalDate.toString()`: `yyyy-MM-dd`, a year beyond 9999 with a
      leading `+`, a year before 0 with a leading `-`. */
  function DateText(d: LocalDate): string {
    var year :=
      if d.year > 9999 then "+" + FormatNat(d.year)
      else if d.year >= 0 then PadZeros(FormatNat(d.year), 4)
      else "-" + PadZeros(FormatNat(-d.year), 4);
    year + "-" + PadZeros(FormatNat(d.month), 2) + "-" + PadZeros(FormatNat(d.day), 2)
  }

  /** A date of the years 0 to 9999 reads `yyyy-MM-dd`: ten characters
      with the dashes at positions 4 and 7. Later years start with `+`,
      earlier ones with `-`. */
  lemma DateTextLayout(d: LocalDate)
    ensures 0 <= d.year <= 9999 && d.month < 100 && d.day < 100 ==>
      |DateText(d)| == 10 && DateText(d)[4] == '-' && DateText(d)[7] == '-'
    ensures d.year > 9999 ==> DateText(d)[0] == '+'
    ensures d.year < 0 ==> DateText(d)[0] == '-'
  {
    if 0 <= d.year <= 9999 && d.month < 100 && d.day < 100 {
      FormatNatWidth(d.year);
      FormatNatWidth(d.month);
      FormatNatWidth(d.day);
      PadZerosShape(FormatNat(d.year), 4);
      PadZerosShape(FormatNat(d.month), 2);
      PadZerosShape(FormatNat(d.day), 2);
      DashesAt(PadZeros(FormatNat(d.year), 4), PadZeros(FormatNat(d.month), 2), PadZeros(FormatNat(d.day), 2), '-');
    }
  }

  /** Four, two and two characters joined by dashes: ten characters with
      the dashes at positions 4 and 7. */
  lemma DashesAt<T>(y: seq<T>, m: seq<T>, d: seq<T>, dash: T)
    requires |y| == 4 && |m| == 2 && |d| == 2
    ensures var s := y + [dash] + m + [dash] + d; |s| == 10 && s[4] == dash && s[7] == dash
  {
  }

  // ---------------------------------------------------------------------
  // Matches with odds

  /** `MatchWithOdds`: the two players, the context, the decimal odds for
      each side, where the odds come from and when the match starts. */
  datatype MatchWithOdds = MatchWithOdds(
    player1: Player,
    player2: Player,
    context: MatchContext,
    oddsPlayer1: real,
    oddsPlayer2: real,
    tournament: Option<string>,
    bookmaker: Option<string>,
    matchTime: LocalDateTime)

  /** A name as string concatenation renders it: `null` becomes "null". */
  function NameText(p: Player): string {
    p.name.GetOr("null")
  }

  /** The duplicate key of `removeDuplicates`: player 1's name, "_vs_",
      player 2's name, "_" and the match date. */
  function DedupKey(m: MatchWithOdds): string {
    NameText(m.player1) + "_vs_" + NameText(m.player2) + "_" + DateText(m.matchTime.date)
  }

  /** The keys of the matches in `ms`. */
  function Keys(key: MatchWithOdds -> string, ms: seq<MatchWithOdds>): set<string> {
    set m | m in ms :: key(m)
  }

  /** No two matches of `ms` share a key. */
  predicate KeysDistinct(key: MatchWithOdds -> string, ms: seq<MatchWithOdds>) {
    forall i, j :: 0 <= i < j < |ms| ==> key(ms[i]) != key(ms[j])
  }

  /** Whether `ms[i]` is the first match with its key. */
  predicate IsFirst(key: MatchWithOdds -> string, ms: seq<MatchWithOdds>, i: nat)
    requires i < |ms|
  {
    forall k :: 0 <= k < i ==> key(ms[k]) != key(ms[i])
  }

  /** The matches that survive `removeDuplicates`, in order: a match is
      dropped when an earlier one had the same key. */
  function Dedup(key: MatchWithOdds -> string, ms: seq<MatchWithOdds>): (r: seq<MatchWithOdds>)
    ensures |r| <= |ms|
    ensures forall i :: 0 <= i < |r| ==> r[i] in ms
  {
    if |ms| == 0 then []
    else
      var n := |ms| - 1;
      if key(ms[n]) in Keys(key, ms[..n]) then Dedup(key, ms[..n]) else Dedup(key, ms[..n]) + [ms[n]]
  }

  /** Appending one match keeps it exactly when its key is new. */
  lemma DedupSnoc(key: MatchWithOdds -> string, ms: seq<MatchWithOdds>, m: MatchWithOdds)
    ensures Dedup(key, ms + [m]) == if key(m) in Keys(key, ms) then Dedup(key, ms) else Dedup(key, ms) + [m]
  {
    assert (ms + [m])[..|ms|] == ms;
  }

  /** Appending one match adds its key. */
  lemma KeysSnoc(key: MatchWithOdds -> string, ms: seq<MatchWithOdds>, m: MatchWithOdds)
    ensures Keys(key, ms + [m]) == Keys(key, ms) + {key(m)}
  {
    forall x | x in ms + [m] ensures x in ms || x == m {}
    forall x | x in ms ensures x in ms + [m] {}
  }

  /** Removing duplicates keeps exactly one match per key: the kept keys
      are all different and are all the keys of the input. */
  lemma {:induction false} DedupKeys(key: MatchWithOdds -> string, ms: seq<MatchWithOdds>)
    ensures KeysDistinct(key, Dedup(key, ms))
    ensures Keys(key, Dedup(key, ms)) == Keys(key, ms)
  {
    if |ms| > 0 {
      var n := |ms| - 1;
      var prefix := ms[..n];
      assert ms == prefix + [ms[n]];
      DedupKeys(key, prefix);
      KeysSnoc(key, prefix, ms[n]);
      var d := Dedup(key, prefix);
      if key(ms[n]) !in Keys(key, prefix) {
        KeysSnoc(key, d, ms[n]);
        forall i | 0 <= i < |d|
          ensures key(d[i]) != key(ms[n])
        {
          assert d[i] in d;
        }
      }
    }
  }

  /** The kept matches are the first match of each key, in input order:
      they sit at increasing positions of the input, each of them is the
      first with its key, and every first match is kept. */
  lemma {:induction false} DedupKeepsFirst(key: MatchWithOdds -> string, ms: seq<MatchWithOdds>) returns (idx: seq<nat>)
    ensures |idx| == |Dedup(key, ms)|
    ensures forall j :: 0 <= j < |idx| ==> idx[j] < |ms| && Dedup(key, ms)[j] == ms[idx[j]] && IsFirst(key, ms, idx[j])
    ensures forall j, k :: 0 <= j < k < |idx| ==> idx[j] < idx[k]
    ensures forall i :: 0 <= i < |ms| && IsFirst(key, ms, i) ==> i in idx
  {
    if |ms| == 0 {
      return [];
    }
    var n := |ms| - 1;
    var prefix := ms[..n];
    var before := DedupKeepsFirst(key, prefix);
    var d := Dedup(key, ms);
    if key(ms[n]) in Keys(key, prefix) {
      idx := before;
      assert d == Dedup(key, prefix);
      assert !IsFirst(key, ms, n) by {
        var m :| m in prefix && key(m) == key(ms[n]);
        var k :| 0 <= k < n && prefix[k] == m;
        assert ms[k] == m;
      }
      forall j | 0 <= j < |idx|
        ensures idx[j] < |ms| && d[j] == ms[idx[j]] && IsFirst(key, ms, idx[j])
      {
        IsFirstInPrefix(key, ms, n, before[j]);
      }
      forall i | 0 <= i < |ms| && IsFirst(key, ms, i)
        ensures i in idx
      {
        if i < n {
          IsFirstInPrefix(key, ms, n, i);
        }
      }
    } else {
      idx := before + [n];
      assert d == Dedup(key, prefix) + [ms[n]];
      assert IsFirst(key, ms, n) by {
        forall k | 0 <= k < n ensures key(ms[k]) != key(ms[n]) {
          assert prefix[k] in prefix;
        }
      }
      forall j | 0 <= j < |idx|
        ensures idx[j] < |ms| && d[j] == ms[idx[j]] && IsFirst(key, ms, idx[j])
      {
        if j < |before| {
          IsFirstInPrefix(key, ms, n, before[j]);
        }
      }
      forall j, k | 0 <= j < k < |idx|
        ensures idx[j] < idx[k]
      {
        if k == |before| {
          assert idx[j] == before[j] < n;
        }
      }
      forall i | 0 <= i < |ms| && IsFirst(key, ms, i)
        ensures i in idx
      {
        if i < n {
          IsFirstInPrefix(key, ms, n, i);
          assert i in before;
        } else {
          assert idx[|before|] == i;
        }
      }
    }
  }

  /** Whether a match is the first with its key does not depend on what
      follows it. */
  lemma IsFirstInPrefix(key: MatchWithOdds -> string, ms: seq<MatchWithOdds>, n: nat, i: nat)
    requires i < n <= |ms|
    ensures IsFirst(key, ms[..n], i) == IsFirst(key, ms, i)
  {
    assert forall k :: 0 <= k <= i ==> ms[..n][k] == ms[k];
  }

  /** A list whose keys are already distinct loses nothing. */
  lemma {:induction false} DedupOfDistinct(key: MatchWithOdds -> string, ms: seq<MatchWithOdds>)
    requires KeysDistinct(key, ms)
    ensures Dedup(key, ms) == ms
  {
    if |ms| > 0 {
      var n := |ms| - 1;
      var prefix := ms[..n];
      DedupOfDistinct(key, prefix);
      assert key(ms[n]) !in Keys(key, prefix) by {
        forall m | m in prefix ensures key(m) != key(ms[n]) {
          var k :| 0 <= k < n && prefix[k] == m;
        }
      }
      assert ms == prefix + [ms[n]];
    }
  }

  /** Removing duplicates twice removes nothing more. */
  lemma DedupIdempotent(key: MatchWithOdds -> string, ms: seq<MatchWithOdds>)
    ensures Dedup(key, Dedup(key, ms)) == Dedup(key, ms)
  {
    DedupKeys(key, ms);
    DedupOfDistinct(key, Dedup(key, ms));
  }

  /** `removeDuplicates`: one pass with a set of the keys seen so far. */
  method RemoveDuplicates(matches: seq<MatchWithOdds>) returns (unique: seq<MatchWithOdds>)
    ensures unique == Dedup(DedupKey, matches)
    ensures KeysDistinct(DedupKey, unique) && Keys(DedupKey, unique) == Keys(DedupKey, matches)
  {
    unique := RemoveDuplicatesBy(DedupKey, matches);
  }

  /** The pass of `removeDuplicates` for any key function. */
  method RemoveDuplicatesBy(keyOf: MatchWithOdds -> string, matches: seq<MatchWithOdds>) returns (unique: seq<MatchWithOdds>)
    ensures unique == Dedup(keyOf, matches)
    ensures KeysDistinct(keyOf, unique) && Keys(keyOf, unique) == Keys(keyOf, matches)
  {
    var seen: set<string> := {};
    unique := [];
    var i := 0;
    while i < |matches|
      invariant 0 <= i <= |matches|
      invariant unique == Dedup(keyOf, matches[..i])
      invariant seen == Keys(keyOf, matches[..i])
    {
      var m := matches[i];
      var key := keyOf(m);
      assert matches[..i + 1] == matches[..i] + [m];
      DedupSnoc(keyOf, matches[..i], m);
      KeysSnoc(keyOf, matches[..i], m);
      if key !in seen {
        seen := seen + {key};
        unique := unique + [m];
      }
      i := i + 1;
    }
    assert matches[..i] == matches;
    DedupKeys(keyOf, matches);
  }

  /** The key is ordered: with names of equal length, swapping the two
      players gives a different key unless the names are equal. */
  lemma SwappedKeyDiffers(m: MatchWithOdds)
    requires |NameText(m.player1)| == |NameText(m.player2)| && NameText(m.player1) != NameText(m.player2)
    ensures DedupKey(m) != DedupKey(MatchWithOdds(m.player2, m.player1, m.context,
      m.oddsPlayer2, m.oddsPlayer1, m.tournament, m.bookmaker, m.matchTime))
  {
    var a, b := NameText(m.player1), NameText(m.player2);
    var k := DedupKey(m);
    var k' := DedupKey(MatchWithOdds(m.player2, m.player1, m.context,
      m.oddsPlayer2, m.oddsPlayer1, m.tournament, m.bookmaker, m.matchTime));
    assert k[..|a|] == a;
    assert k'[..|a|] == b;
  }

  function Named(name: string): Player {
    Player(None, Some(name), None, None, None, None, None, None, None, None)
  }

  /** The key does not tell names apart when a name itself holds "_vs_":
      "x" against "x_vs_x" and "x_vs_x" against "x" on the same day count
      as one match. */
  lemma KeyCollision(c: MatchContext, t: LocalDateTime)
    ensures var a := MatchWithOdds(Named("x"), Named("x_vs_x"), c, 2.0, 2.0, None, None, t);
            var b := MatchWithOdds(Named("x_vs_x"), Named("x"), c, 2.0, 2.0, None, None, t);
            a != b && DedupKey(a) == DedupKey(b) && Dedup(DedupKey, [a, b]) == [a]
  {
    var a := MatchWithOdds(Named("x"), Named("x_vs_x"), c, 2.0, 2.0, None, None, t);
    var b := MatchWithOdds(Named("x_vs_x"), Named("x"), c, 2.0, 2.0, None, None, t);
    assert DedupKey(a) == DedupKey(b);
    assert [a, b][..1] == [a];
    assert Dedup(DedupKey, [a]) == [a] by {
      assert [a][..0] == [];
    }
    assert DedupKey(b) in Keys(DedupKey, [a]);
  }

  // ---------------------------------------------------------------------
  // Ordering by start time

  /** Every match starts no later than the ones after it. */
  predicate SortedByTime(ms: seq<MatchWithOdds>) {
    forall i, j :: 0 <= i < j < |ms| ==> NotAfter(ms[i].matchTime, ms[j].matchTime)
  }

  /** `m` placed into sorted `s` after every match that starts no later
      than it. */
  function Insert(s: seq<MatchWithOdds>, m: MatchWithOdds): seq<MatchWithOdds> {
    if |s| == 0 then [m]
    else if NotAfter(s[|s| - 1].matchTime, m.matchTime) then s + [m]
    else Insert(s[..|s| - 1], m) + [s[|s| - 1]]
  }

  /** `List.sort` by start time, which is stable: insertion of each match
      in turn. */
  function SortByTime(ms: seq<MatchWithOdds>): (r: seq<MatchWithOdds>)
    ensures multiset(r) == multiset(ms)
  {
    if |ms| == 0 then []
    else
      var n := |ms| - 1;
      InsertPermutes(SortByTime(ms[..n]), ms[n]);
      assert ms == ms[..n] + [ms[n]];
      Insert(SortByTime(ms[..n]), ms[n])
  }

  /** The matches of `ms` that start exactly at `t`, in order. */
  function AtTime(ms: seq<MatchWithOdds>, t: LocalDateTime): seq<MatchWithOdds> {
    if |ms| == 0 then []
    else AtTime(ms[..|ms| - 1], t) + (if ms[|ms| - 1].matchTime == t then [ms[|ms| - 1]] else [])
  }

  lemma AtTimeAppend(s: seq<MatchWithOdds>, m: MatchWithOdds, t: LocalDateTime)
    ensures AtTime(s + [m], t) == AtTime(s, t) + (if m.matchTime == t then [m] else [])
  {
    assert (s + [m])[..|s|] == s;
  }

  /** Insertion adds exactly the one match. */
  lemma {:induction false} InsertPermutes(s: seq<MatchWithOdds>, m: MatchWithOdds)
    ensures multiset(Insert(s, m)) == multiset(s) + multiset{m}
  {
    if |s| > 0 && !NotAfter(s[|s| - 1].matchTime, m.matchTime) {
      var n := |s| - 1;
      InsertPermutes(s[..n], m);
      assert s == s[..n] + [s[n]];
    }
  }

  /** The inserted list holds the new match and the old ones, nothing
      else. */
  lemma InsertMembers(s: seq<MatchWithOdds>, m: MatchWithOdds)
    ensures forall x :: x in Insert(s, m) <==> x == m || x in s
  {
    InsertPermutes(s, m);
    forall x ensures x in Insert(s, m) <==> x == m || x in s {
      assert x in Insert(s, m) <==> x in multiset(Insert(s, m));
      assert x in s <==> x in multiset(s);
    }
  }

  /** Insertion into a sorted list keeps it sorted. */
  lemma {:induction false} InsertSorted(s: seq<MatchWithOdds>, m: MatchWithOdds)
    requires SortedByTime(s)
    ensures SortedByTime(Insert(s, m))
  {
    if |s| > 0 && !NotAfter(s[|s| - 1].matchTime, m.matchTime) {
      var n := |s| - 1;
      var front := Insert(s[..n], m);
      InsertSorted(s[..n], m);
      InsertPermutes(s[..n], m);
      forall i | 0 <= i < |front|
        ensures NotAfter(front[i].matchTime, s[n].matchTime)
      {
        assert front[i] in multiset(s[..n]) + multiset{m};
        if front[i] != m {
          var k :| 0 <= k < n && s[..n][k] == front[i];
        }
      }
    }
  }

  /** Insertion keeps matches with equal start times in their order and
      puts the new one after them. */
  lemma {:induction false} InsertStable(s: seq<MatchWithOdds>, m: MatchWithOdds, t: LocalDateTime)
    ensures AtTime(Insert(s, m), t) == AtTime(s, t) + (if m.matchTime == t then [m] else [])
  {
    if |s| == 0 {
      assert Insert(s, m) == [] + [m];
      AtTimeAppend([], m, t);
    } else {
      var n := |s| - 1;
      assert s == s[..n] + [s[n]];
      AtTimeAppend(s[..n], s[n], t);
      if NotAfter(s[n].matchTime, m.matchTime) {
        AtTimeAppend(s, m, t);
      } else {
        InsertStable(s[..n], m, t);
        AtTimeAppend(Insert(s[..n], m), s[n], t);
      }
    }
  }

  /** The sort is a permutation that orders by start time. */
  lemma {:induction false} SortByTimeSorts(ms: seq<MatchWithOdds>)
    ensures SortedByTime(SortByTime(ms))
    ensures multiset(SortByTime(ms)) == multiset(ms)
  {
    if |ms| > 0 {
      var n := |ms| - 1;
      SortByTimeSorts(ms[..n]);
      InsertSorted(SortByTime(ms[..n]), ms[n]);
      InsertPermutes(SortByTime(ms[..n]), ms[n]);
      assert ms == ms[..n] + [ms[n]];
    }
  }

  /** The sort is stable: matches with the same start time keep their
      relative order. */
  lemma {:induction false} SortByTimeStable(ms: seq<MatchWithOdds>, t: LocalDateTime)
    ensures AtTime(SortByTime(ms), t) == AtTime(ms, t)
  {
    if |ms| > 0 {
      var n := |ms| - 1;
      SortByTimeStable(ms[..n], t);
      InsertStable(SortByTime(ms[..n]), ms[n], t);
    }
  }

  /** Same elements, same keys. */
  lemma KeysOfPermutation(key: MatchWithOdds -> string, a: seq<MatchWithOdds>, b: seq<MatchWithOdds>)
    requires multiset(a) == multiset(b)
    ensures Keys(key, a) == Keys(key, b)
  {
    forall m | m in a ensures m in b {
      assert m in multiset(a);
    }
    forall m | m in b ensures m in a {
      assert m in multiset(b);
    }
  }

  /** Inserting a match with a new key keeps the keys distinct. */
  lemma {:induction false} InsertKeepsDistinct(key: MatchWithOdds -> string, s: seq<MatchWithOdds>, m: MatchWithOdds)
    requires KeysDistinct(key, s) && key(m) !in Keys(key, s)
    ensures KeysDistinct(key, Insert(s, m))
  {
    if |s| > 0 {
      var n := |s| - 1;
      if NotAfter(s[n].matchTime, m.matchTime) {
        forall i | 0 <= i < |s| ensures key(s[i]) != key(m) {
          assert s[i] in s;
        }
      } else {
        var prefix := s[..n];
        assert key(m) !in Keys(key, prefix) by {
          forall x | x in prefix ensures x in s {}
        }
        var front := Insert(prefix, m);
        InsertKeepsDistinct(key, prefix, m);
        InsertMembers(prefix, m);
        assert key(m) != key(s[n]) by {
          assert s[n] in s;
        }
        forall i | 0 <= i < |front|
          ensures key(front[i]) != key(s[n])
        {
          assert front[i] in front;
          if front[i] != m {
            var k :| 0 <= k < n && prefix[k] == front[i];
          }
        }
      }
    }
  }

  /** Sorting keeps distinct keys distinct. */
  lemma {:induction false} SortKeepsDistinct(key: MatchWithOdds -> string, ms: seq<MatchWithOdds>)
    requires KeysDistinct(key, ms)
    ensures KeysDistinct(key, SortByTime(ms))
  {
    if |ms| > 0 {
      var n := |ms| - 1;
      var prefix := ms[..n];
      SortKeepsDistinct(key, prefix);
      SortByTimeSorts(prefix);
      KeysOfPermutation(key, SortByTime(prefix), prefix);
      assert key(ms[n]) !in Keys(key, prefix) by {
        forall x | x in prefix ensures key(x) != key(ms[n]) {
          var k :| 0 <= k < n && prefix[k] == x;
        }
      }
      InsertKeepsDistinct(key, SortByTime(prefix), ms[n]);
    }
  }

  /** The scraped matches as handed on: duplicates removed, then sorted by
      start time. */
  function Collect(matches: seq<MatchWithOdds>): seq<MatchWithOdds> {
    SortByTime(Dedup(DedupKey, matches))
  }

  /** The handed-on list is in start-time order, has one match per key and
      every key of the scraped matches; it holds the first match of each
      key. */
  lemma CollectSpec(matches: seq<MatchWithOdds>)
    ensures SortedByTime(Collect(matches))
    ensures KeysDistinct(DedupKey, Collect(matches))
    ensures Keys(DedupKey, Collect(matches)) == Keys(DedupKey, matches)
    ensures multiset(Collect(matches)) == multiset(Dedup(DedupKey, matches))
  {
    var unique := Dedup(DedupKey, matches);
    DedupKeys(DedupKey, matches);
    SortByTimeSorts(unique);
    SortKeepsDistinct(DedupKey, unique);
    KeysOfPermutation(DedupKey, SortByTime(unique), unique);
  }

  // ---------------------------------------------------------------------
  // Value bets

  /** `impliedProbability`: the bookmaker's probability behind decimal
      odds. Odds of 0 give `Infinity` in the Java code, `None` here. */
  function ImpliedProbability(odds: real): (p: Option<real>)
    ensures p.Some? <==> odds != 0.0
    ensures p.Some? ==> p.value * odds == 1.0
  {
    if odds == 0.0 then None else Some(1.0 / odds)
  }

  /** `calculateEV`: the expected profit of a unit stake at `odds` when the
      model gives the side probability `modelProb`. */
  function CalculateEV(odds: real, modelProb: real): (ev: real)
    ensures ev == modelProb * (odds - 1.0) + (1.0 - modelProb) * -1.0
    ensures 0.0 <= modelProb && 0.0 <= odds ==> ev >= -1.0
  {
    modelProb * odds - 1.0
  }

  /** A bet has positive expected value exactly when the model's
      probability beats the bookmaker's implied probability; at the implied
      probability it breaks even. */
  lemma ValueIffAboveImplied(odds: real, modelProb: real)
    requires odds > 0.0
    ensures CalculateEV(odds, modelProb) > 0.0 <==> modelProb > ImpliedProbability(odds).value
    ensures CalculateEV(odds, ImpliedProbability(odds).value) == 0.0
  {
    var q := ImpliedProbability(odds).value;
    assert q * odds == 1.0;
    assert CalculateEV(odds, modelProb) == modelProb * odds - 1.0;
    assert CalculateEV(odds, q) == q * odds - 1.0;
    ScaleOrder(modelProb, q, odds);
  }

  /** Multiplying by a positive factor keeps a strict order. */
  lemma ScaleOrder(a: real, b: real, c: real)
    requires c > 0.0
    ensures a > b <==> a * c > b * c
  {
    if a > b {
      assert (a - b) * c > 0.0;
    } else {
      assert (b - a) * c >= 0.0;
    }
  }

  /** What `evaluateMatch` recommends. */
  datatype Recommendation =
    | BetOn(player: Player, ev: real)
    | NoValueBet

  /** `evaluateMatch`: back the side whose expected value is positive and
      strictly the larger; otherwise no bet. The printed message is not
      modelled. */
  function EvaluateMatch(prediction: MatchPrediction, oddsP1: real, oddsP2: real): (r: Recommendation)
    ensures var evP1 := CalculateEV(oddsP1, prediction.player1WinProbability);
            var evP2 := CalculateEV(oddsP2, Player2WinProbability(prediction));
            && (r.BetOn? ==> r.ev > 0.0 && r.ev >= evP1 && r.ev >= evP2)
            && (r == BetOn(prediction.player1, evP1) <== evP1 > 0.0 && evP1 > evP2)
            && (r == BetOn(prediction.player2, evP2) <== evP2 > 0.0 && evP2 > evP1)
            && (r.NoValueBet? <==> (evP1 <= 0.0 || evP1 <= evP2) && (evP2 <= 0.0 || evP2 <= evP1))
  {
    var evP1 := CalculateEV(oddsP1, prediction.player1WinProbability);
    var evP2 := CalculateEV(oddsP2, Player2WinProbability(prediction));
    if evP1 > 0.0 && evP1 > evP2 then BetOn(prediction.player1, evP1)
    else if evP2 > 0.0 && evP2 > evP1 then BetOn(prediction.player2, evP2)
    else NoValueBet
  }

  /** The recommendation does not depend on which player is listed first:
      the prediction told from the other side, with the odds exchanged,
      backs the same player. Equal expected values never give a bet. */
  lemma EvaluateMatchMirror(prediction: MatchPrediction, oddsP1: real, oddsP2: real)
    ensures EvaluateMatch(Mirror(prediction), oddsP2, oddsP1) == EvaluateMatch(prediction, oddsP1, oddsP2)
    ensures CalculateEV(oddsP1, prediction.player1WinProbability) == CalculateEV(oddsP2, Player2WinProbability(prediction))
      ==> EvaluateMatch(prediction, oddsP1, oddsP2) == NoValueBet
  {
    assert Player2WinProbability(Mirror(prediction)) == prediction.player1WinProbability;
  }

  // ---------------------------------------------------------------------
  // Estimated players

  /** The UTF-16 code units of one character: one unit in the Basic
      Multilingual Plane, a surrogate pair above it. */
  function CodeUnits(c: char): (us: seq<int>)
    ensures 1 <= |us| <= 2
    ensures (c as int) < 0x10000 <==> |us| == 1
    ensures (c as int) < 0x10000 ==> us == [c as int]
    ensures forall k :: 0 <= k < |us| ==> 0 <= us[k] < 0x10000
  {
    var v := c as int;
    if v < 0x10000 then [v]
    else [0xD800 + (v - 0x10000) / 0x400, 0xDC00 + (v - 0x10000) % 0x400]
  }

  /** A Java string's UTF-16 code units. */
  function Utf16(s: string): seq<int> {
    if |s| == 0 then [] else Utf16(s[..|s| - 1]) + CodeUnits(s[|s| - 1])
  }

  /** `String.hashCode` over the first `n` code units: `h = 31·h + unit`
      with `int` wrap-around. */
  function HashOf(us: seq<int>, n: nat): Int32
    requires n <= |us|
  {
    if n == 0 then 0 else Wrap32(31 * HashOf(us, n - 1) + us[n - 1])
  }

  /** `String.hashCode`. */
  function HashCode(s: string): (h: Int32)
    ensures s == "" ==> h == 0
    ensures |s| == 1 && (s[0] as int) < 0x10000 ==> h == s[0] as int
  {
    if |s| == 1 then
      assert s[..0] == "";
      assert Utf16(s) == CodeUnits(s[0]);
      assert HashOf(Utf16(s), 1) == Wrap32(31 * HashOf(Utf16(s), 0) + Utf16(s)[0]);
      HashOf(Utf16(s), |Utf16(s)|)
    else HashOf(Utf16(s), |Utf16(s)|)
  }

  /** Every character of `s` is a single UTF-16 unit. */
  predicate InBmp(s: string) {
    forall i :: 0 <= i < |s| ==> (s[i] as int) < 0x10000
  }

  /** Without surrogate pairs the code units are the characters. */
  lemma {:induction false} BmpUnits(s: string)
    requires InBmp(s)
    ensures |Utf16(s)| == |s|
    ensures forall i :: 0 <= i < |s| ==> Utf16(s)[i] == s[i] as int
  {
    if |s| > 0 {
      var prefix := s[..|s| - 1];
      assert forall i :: 0 <= i < |prefix| ==> prefix[i] == s[i];
      BmpUnits(prefix);
    }
  }

  /** The hash of the first `n` units depends only on those units. */
  lemma {:induction false} HashOfPrefix(us: seq<int>, vs: seq<int>, n: nat)
    requires n <= |us| && n <= |vs| && us[..n] == vs[..n]
    ensures HashOf(us, n) == HashOf(vs, n)
  {
    if n > 0 {
      assert us[..n - 1] == us[..n][..n - 1];
      assert vs[..n - 1] == vs[..n][..n - 1];
      assert us[n - 1] == us[..n][n - 1];
      assert vs[n - 1] == vs[..n][n - 1];
      HashOfPrefix(us, vs, n - 1);
    }
  }

  /** Appending a character of the Basic Multilingual Plane takes one
      more step of the hash. */
  lemma HashAppend(s: string, c: char)
    requires (c as int) < 0x10000
    ensures HashCode(s + [c]) == Wrap32(31 * HashCode(s) + c as int)
  {
    assert (s + [c])[..|s|] == s;
    var us := Utf16(s + [c]);
    var vs := Utf16(s);
    assert us == vs + [c as int];
    assert us[..|vs|] == vs[..|vs|];
    HashOfPrefix(us, vs, |vs|);
  }

  /** The code units of "polygenelubricants". */
  const PolyUnits: seq<int> := [112, 111, 108, 121, 103, 101, 110, 101, 108, 117, 98, 114, 105, 99, 97, 110, 116, 115]

  predicate IsPolyUnits(us: seq<int>) {
    |us| == |PolyUnits| && forall i :: 0 <= i < |us| ==> us[i] == PolyUnits[i]
  }

  lemma PolyHashFirstSteps(us: seq<int>)
    requires IsPolyUnits(us)
    ensures HashOf(us, 6) == -982654550
  {
    assert HashOf(us, 1) == 112;
    assert HashOf(us, 2) == 3583;
    assert HashOf(us, 3) == 111181;
    assert HashOf(us, 4) == 3446732;
    assert HashOf(us, 5) == 106848795;
  }

  lemma PolyHashMiddleSteps(us: seq<int>)
    requires IsPolyUnits(us)
    ensures HashOf(us, 12) == 2082189306
  {
    PolyHashFirstSteps(us);
    assert HashOf(us, 7) == -397519868;
    assert HashOf(us, 8) == 561786081;
    assert HashOf(us, 9) == 235499435;
    assert HashOf(us, 10) == -1289451990;
    assert HashOf(us, 11) == -1318305928;
  }

  lemma PolyHashLastSteps(us: seq<int>)
    requires IsPolyUnits(us)
    ensures HashOf(us, 18) == IntMin
  {
    PolyHashMiddleSteps(us);
    assert HashOf(us, 13) == 123359151;
    assert HashOf(us, 14) == -470833516;
    assert HashOf(us, 15) == -1710937011;
    assert HashOf(us, 16) == -1499439679;
    assert HashOf(us, 17) == 762010323;
  }

  /** A string whose `hashCode` is `Integer.MIN_VALUE`, the one value
      `Math.abs` cannot make non-negative. */
  lemma PolygenelubricantsHash()
    ensures HashCode("polygenelubricants") == IntMin
  {
    var w := "polygenelubricants";
    assert forall i :: 0 <= i < |w| ==> 'a' <= w[i] <= 'z';
    BmpUnits(w);
    PolyHashLastSteps(Utf16(w));
  }

  /** The characters the regular expression class `\s` matches: space,
      tab, line feed, vertical tab, form feed and carriage return. */
  predicate IsRegexSpace(c: char) {
    c == ' ' || c == '\t' || c == '\n' || c as int == 0x0B || c as int == 0x0C || c == '\r'
  }

  /** `replaceAll("\\s+", "_")`: every run of white space becomes one
      underscore. */
  function CollapseSpaces(s: string): (r: string)
    ensures |r| <= |s|
    ensures forall i :: 0 <= i < |r| ==> !IsRegexSpace(r[i])
  {
    if |s| == 0 then ""
    else
      var n := |s| - 1;
      var front := CollapseSpaces(s[..n]);
      if !IsRegexSpace(s[n]) then front + [s[n]]
      else if n > 0 && IsRegexSpace(s[n - 1]) then front
      else front + "_"
  }

  /** No white space survives, nothing grows, and a string without white
      space is left as it is. */
  lemma {:induction false} CollapseSpacesClears(s: string)
    ensures forall i :: 0 <= i < |CollapseSpaces(s)| ==> !IsRegexSpace(CollapseSpaces(s)[i])
    ensures |CollapseSpaces(s)| <= |s|
    ensures (forall i :: 0 <= i < |s| ==> !IsRegexSpace(s[i])) ==> CollapseSpaces(s) == s
  {
    if |s| > 0 {
      var n := |s| - 1;
      var prefix := s[..n];
      assert forall i :: 0 <= i < n ==> prefix[i] == s[i];
      CollapseSpacesClears(prefix);
      assert s == prefix + [s[n]];
    }
  }

  /** A run of white space after a word adds exactly one underscore,
      however long the run. */
  lemma {:induction false} CollapseRun(s: string, run: string)
    requires |s| > 0 && !IsRegexSpace(s[|s| - 1])
    requires |run| > 0 && forall i :: 0 <= i < |run| ==> IsRegexSpace(run[i])
    ensures CollapseSpaces(s + run) == CollapseSpaces(s) + "_"
    decreases |run|
  {
    var t := s + run;
    var n := |t| - 1;
    assert t[..n] == s + run[..|run| - 1];
    if |run| == 1 {
      assert t[..n] == s;
    } else {
      CollapseRun(s, run[..|run| - 1]);
    }
  }

  /** `Character.toUpperCase` on the ASCII letters. */
  function UpperChar(c: char): char {
    if 'a' <= c <= 'z' then (c as int - 32) as char else c
  }

  /** `toUpperCase()`, for the ASCII letters. */
  function AsciiUpper(s: string): (r: string)
    ensures |r| == |s|
  {
    seq(|s|, i requires 0 <= i < |s| => UpperChar(s[i]))
  }

  /** No lower-case ASCII letter is left, every other character is kept,
      and upper-casing twice changes nothing more. */
  lemma AsciiUpperSpec(s: string)
    ensures forall i :: 0 <= i < |s| ==> !('a' <= AsciiUpper(s)[i] <= 'z')
    ensures forall i :: 0 <= i < |s| && !('a' <= s[i] <= 'z') ==> AsciiUpper(s)[i] == s[i]
    ensures AsciiUpper(AsciiUpper(s)) == AsciiUpper(s)
  {
  }

  /** The estimated rank as `createPlayerFromName` computes it. */
  function RankAsWritten(hash: Int32): (rank: Int32)
    ensures hash != IntMin ==> 30 <= rank <= 179
    ensures hash == IntMin ==> rank == -68
  {
    assert TruncRem(IntMin, 150) == -98;
    30 + TruncRem(JavaAbs(hash), 150)
  }

  /** The estimated age as `createPlayerFromName` computes it. */
  function AgeAsWritten(hash: Int32): (age: real)
    ensures hash != IntMin ==> 22.0 <= age < 37.0
    ensures hash == IntMin ==> age == 10.52
  {
    assert TruncRem(IntMin, 1500) == -1148;
    22.0 + (TruncRem(JavaAbs(hash), 1500) as real) / 100.0
  }

  /** `Math.max(200, 3000 - rank * 15)`. */
  function EstimatedPoints(rank: Int32): (points: Int32)
    requires -200 <= rank <= 200
    ensures points >= 200
    ensures points == 200 || points == 3000 - rank * 15
  {
    if 3000 - rank * 15 >= 200 then 3000 - rank * 15 else 200
  }

  /** `createPlayerFromName`, as written: the rank and age start from
      `Math.abs(name.hashCode())`. */
  function CreatePlayerFromName(name: string): (p: Player)
    ensures p.name == Some(name) && p.rank.Some? && p.rankPoints.Some? && p.age.Some?
    ensures p.playerId == Some("EST_" + AsciiUpper(CollapseSpaces(name)))
  {
    var hash := HashCode(name);
    var rank := RankAsWritten(hash);
    Player(Some("EST_" + AsciiUpper(CollapseSpaces(name))), Some(name), Some("R"), Some("UNK"),
           None, Some(""), Some(185), Some(AgeAsWritten(hash)), Some(rank), Some(EstimatedPoints(rank)))
  }

  /** The one hash whose absolute value stays negative sends the rank
      below 30 and the age below 22: "polygenelubricants" is estimated at
      rank -68 with 4020 points, aged 10.52. */
  lemma CreatePlayerFromNameNegativeRank()
    ensures CreatePlayerFromName("polygenelubricants").rank == Some(-68)
    ensures CreatePlayerFromName("polygenelubricants").rankPoints == Some(4020)
    ensures CreatePlayerFromName("polygenelubricants").age == Some(10.52)
  {
    PolygenelubricantsHash();
    assert TruncRem(IntMin, 150) == -98;
    assert TruncRem(IntMin, 1500) == -1148;
  }

  /** The rank with the remainder taken before the absolute value, which
      cannot overflow. */
  function EstimatedRank(hash: Int32): (rank: Int32)
    ensures 30 <= rank <= 179
  {
    30 + JavaAbs(TruncRem(hash, 150) as Int32)
  }

  /** The age with the remainder taken before the absolute value. */
  function EstimatedAge(hash: Int32): (age: real)
    ensures 22.0 <= age < 37.0
  {
    22.0 + (JavaAbs(TruncRem(hash, 1500) as Int32) as real) / 100.0
  }

  /** `createPlayerFromName` with the rank kept in 30 to 179 and the age in
      22 to 37. */
  function EstimatedPlayer(name: string): Player {
    var hash := HashCode(name);
    var rank := EstimatedRank(hash);
    Player(Some("EST_" + AsciiUpper(CollapseSpaces(name))), Some(name), Some("R"), Some("UNK"),
           None, Some(""), Some(185), Some(EstimatedAge(hash)), Some(rank), Some(EstimatedPoints(rank)))
  }

  /** Every estimated player has a rank in 30..179, the points the formula
      gives for it (315 to 2550, never the floor of 200), and an age in
      [22, 37). */
  lemma EstimatedPlayerBounds(name: string)
    ensures EstimatedPlayer(name).rank.Some? && 30 <= EstimatedPlayer(name).rank.value <= 179
    ensures EstimatedPlayer(name).rankPoints == Some(3000 - EstimatedPlayer(name).rank.value * 15)
    ensures 315 <= EstimatedPlayer(name).rankPoints.value <= 2550
    ensures EstimatedPlayer(name).age.Some? && 22.0 <= EstimatedPlayer(name).age.value < 37.0
  {
    var hash := HashCode(name);
    var rank := EstimatedRank(hash);
    var pl := EstimatedPlayer(name);
    assert pl.rank == Some(rank) && pl.rankPoints == Some(EstimatedPoints(rank));
    assert pl.age == Some(EstimatedAge(hash));
    assert 315 <= 3000 - rank * 15 <= 2550;
  }

  /** For every other name the two agree: the overflow is the only
      difference. */
  lemma EstimatedPlayerAgrees(name: string)
    requires HashCode(name) != IntMin
    ensures EstimatedPlayer(name) == CreatePlayerFromName(name)
  {
    var h := HashCode(name);
    AbsRemSwap(h, 150);
    AbsRemSwap(h, 1500);
    assert RankAsWritten(h) == EstimatedRank(h);
    assert AgeAsWritten(h) == EstimatedAge(h);
  }
}

=== FILE: optional.dfy ===
/** Nullable values and error-carrying results.

    Java's nullable references (a `String`, an `Integer`, a `Double` that may be
    `null`) become `Option`; an operation that ends in an exception becomes a
    `Result` whose failure names the exception.
 */
module Optional {

  /** `None` plays the part of Java's `null`. */
  datatype Option<+T> = None | Some(value: T) {

    /** The value, or `default` when absent (Java's `getOrDefault`). */
    function GetOr(default: T): T {
      match this
      case Some(v) => v
      case None => default
    }
  }

  /** The outcome of an operation that may throw. */
  datatype Result<+T, +E> = Success(value: T) | Failure(error: E)
}

=== FILE: player_history.dfy ===
/** One player's history: a bounded log of results (most recent last), a
    bounded log per surface, an unbounded win/loss record per surface, and a
    rating per surface.

    The log keeps the latest 500 results; each surface log keeps the latest
    250. Form is a recency-weighted win rate (weight 0.95^i for the i-th most
    recent result), ratings start at 1500 and are only changed through
    `UpdateSurfaceElo` / `ResetEloRatings`.
 */
module History {
  import opened Optional
  import opened JavaNum
  import opened Records

  const TimeDecay: real := 0.95
  const MaxHistory: nat := 500
  /** `MAX_HISTORY_SIZE / 2`. */
  const MaxSurfaceHistory: nat := 250
  const BaseElo: real := 1500.0
  const DefaultSurface: string := "Hard"
  /** Reliability reaches 1 at this many results on a surface. */
  const ReliabilityPlateau: real := 50.0

  datatype MatchResult = MatchResult(won: bool, surface: string, date: Option<Int32>)

  datatype PlayerHistory = PlayerHistory(
    matchHistory: seq<MatchResult>,
    surfaceRecords: map<string, SurfaceRecord>,
    surfaceElo: map<string, real>,
    surfaceHistory: map<string, seq<MatchResult>>)

  /** The exception `subList` throws when its start index lies past its
      end index. */
  datatype HistoryError = IllegalArgument

  function MinNat(a: nat, b: nat): nat {
    if a <= b then a else b
  }

  /** The last `n` elements of `s` (all of `s` when it is shorter). */
  function Last<T>(s: seq<T>, n: nat): (r: seq<T>)
    ensures |r| == MinNat(n, |s|)
    ensures forall i :: 0 <= i < |r| ==> r[i] == s[|s| - |r| + i]
  {
    s[|s| - MinNat(n, |s|)..]
  }

  /** A missing or empty surface name means "Hard". */
  function NormalizeSurface(surface: Option<string>): (s: string)
    ensures s != ""
    ensures surface.Some? && surface.value != "" ==> s == surface.value
    ensures surface.None? || surface.value == "" ==> s == DefaultSurface
  {
    if surface.None? || surface.value == "" then DefaultSurface else surface.value
  }

  /** The surface log stored under `key`, empty when there is none. */
  function SurfaceLog(h: PlayerHistory, key: string): seq<MatchResult> {
    if key in h.surfaceHistory then h.surfaceHistory[key] else []
  }

  /** The record stored under `key`, a fresh record when there is none. */
  function RecordOf(h: PlayerHistory, key: string): SurfaceRecord {
    if key in h.surfaceRecords then h.surfaceRecords[key] else NewSurfaceRecord()
  }

  /** The invariant every history reachable through `AddMatch` keeps: both
      logs within their caps, no entry under the empty surface name, and
      each surface log holding the latest min(count, 250) of that surface's
      results. */
  ghost predicate Valid(h: PlayerHistory) {
    && |h.matchHistory| <= MaxHistory
    && "" !in h.surfaceHistory
    && (forall k :: |SurfaceLog(h, k)| == MinNat(RecordOf(h, k).matches, MaxSurfaceHistory))
    && (forall k :: ValidSurfaceRecord(RecordOf(h, k)))
  }

  /** A new history: empty logs, rating 1500 on the four surfaces. */
  function Fresh(): PlayerHistory {
    PlayerHistory(
      [],
      map[],
      map["Hard" := BaseElo, "Clay" := BaseElo, "Grass" := BaseElo, "Carpet" := BaseElo],
      map["Hard" := [], "Clay" := [], "Grass" := [], "Carpet" := []])
  }

  lemma FreshIsEmpty()
    ensures Valid(Fresh())
    ensures Fresh().matchHistory == []
    ensures forall k :: SurfaceLog(Fresh(), k) == [] && RecordOf(Fresh(), k) == NewSurfaceRecord()
  {
  }

  /** Records one result: appended to the global log and to the log of its
      (normalised) surface, counted in that surface's record, and the oldest
      entry of a log dropped when the log overflows its cap. */
  function AddMatch(h: PlayerHistory, won: bool, surface: Option<string>, date: Option<Int32>): (h': PlayerHistory)
    ensures var k := NormalizeSurface(surface);
      RecordOf(h', k) == AddSurfaceMatch(RecordOf(h, k), won)
    ensures forall k :: k != NormalizeSurface(surface) ==>
      SurfaceLog(h', k) == SurfaceLog(h, k) && RecordOf(h', k) == RecordOf(h, k)
    ensures h'.surfaceElo == h.surfaceElo
  {
    var key := NormalizeSurface(surface);
    var result := MatchResult(won, key, date);
    var log := h.matchHistory + [result];
    var surfaceLog := SurfaceLog(h, key) + [result];
    var h' := PlayerHistory(
      if |log| > MaxHistory then log[1..] else log,
      h.surfaceRecords[key := AddSurfaceMatch(RecordOf(h, key), won)],
      h.surfaceElo,
      h.surfaceHistory[key := if |surfaceLog| > MaxSurfaceHistory then surfaceLog[1..] else surfaceLog]);
    assert forall k :: k != key ==> SurfaceLog(h', k) == SurfaceLog(h, k) && RecordOf(h', k) == RecordOf(h, k) by {
      forall k | k != key
        ensures SurfaceLog(h', k) == SurfaceLog(h, k) && RecordOf(h', k) == RecordOf(h, k)
      {
        assert k in h'.surfaceHistory <==> k in h.surfaceHistory;
        assert k in h'.surfaceRecords <==> k in h.surfaceRecords;
      }
    }
    h'
  }

  /** On a valid history, `AddMatch` keeps the invariant, and each log it
      touches becomes the latest entries of the old log plus the new
      result. */
  lemma AddMatchWindows(h: PlayerHistory, won: bool, surface: Option<string>, date: Option<Int32>)
    requires Valid(h)
    ensures Valid(AddMatch(h, won, surface, date))
    ensures AddMatch(h, won, surface, date).matchHistory ==
      Last(h.matchHistory + [MatchResult(won, NormalizeSurface(surface), date)], MaxHistory)
    ensures var k := NormalizeSurface(surface);
      SurfaceLog(AddMatch(h, won, surface, date), k) ==
        Last(SurfaceLog(h, k) + [MatchResult(won, k, date)], MaxSurfaceHistory)
  {
    var h' := AddMatch(h, won, surface, date);
    var key := NormalizeSurface(surface);
    forall k
      ensures |SurfaceLog(h', k)| == MinNat(RecordOf(h', k).matches, MaxSurfaceHistory)
      ensures ValidSurfaceRecord(RecordOf(h', k))
    {
      if k == key {
        assert |SurfaceLog(h, k)| == MinNat(RecordOf(h, k).matches, MaxSurfaceHistory);
        assert ValidSurfaceRecord(RecordOf(h, k));
      } else {
        assert |SurfaceLog(h, k)| == MinNat(RecordOf(h, k).matches, MaxSurfaceHistory);
        assert ValidSurfaceRecord(RecordOf(h, k));
      }
    }
  }

  // ---------------------------------------------------------------------
  // Replaying a sequence of results

  /** The arguments of one `addMatch` call. */
  datatype Outcome = Outcome(won: bool, surface: Option<string>, date: Option<Int32>)

  function ResultOf(o: Outcome): MatchResult {
    MatchResult(o.won, NormalizeSurface(o.surface), o.date)
  }

  /** The history after the given results, oldest first, on a fresh history. */
  function Replay(outs: seq<Outcome>): PlayerHistory {
    if |outs| == 0 then Fresh()
    else
      var o := outs[|outs| - 1];
      AddMatch(Replay(outs[..|outs| - 1]), o.won, o.surface, o.date)
  }

  /** Every result recorded, oldest first. */
  function Results(outs: seq<Outcome>): (rs: seq<MatchResult>)
    ensures |rs| == |outs|
  {
    if |outs| == 0 then [] else Results(outs[..|outs| - 1]) + [ResultOf(outs[|outs| - 1])]
  }

  /** The results recorded on surface `key`, oldest first. */
  function ResultsOn(outs: seq<Outcome>, key: string): seq<MatchResult> {
    if |outs| == 0 then []
    else
      var r := ResultOf(outs[|outs| - 1]);
      ResultsOn(outs[..|outs| - 1], key) + (if r.surface == key then [r] else [])
  }

  lemma LastOfAppend<T>(s: seq<T>, x: T, n: nat)
    requires n >= 1
    ensures Last(Last(s, n) + [x], n) == Last(s + [x], n)
  {
    var a := Last(Last(s, n) + [x], n);
    var b := Last(s + [x], n);
    assert |a| == |b|;
    forall i | 0 <= i < |a|
      ensures a[i] == b[i]
    {
    }
  }

  /** Replaying keeps the invariant, leaves the global log holding exactly
      the latest 500 results in insertion order, and never touches the
      ratings. */
  lemma {:induction false} ReplayValid(outs: seq<Outcome>)
    ensures Valid(Replay(outs))
    ensures Replay(outs).matchHistory == Last(Results(outs), MaxHistory)
    ensures Replay(outs).surfaceElo == Fresh().surfaceElo
  {
    if |outs| > 0 {
      var prefix := outs[..|outs| - 1];
      var o := outs[|outs| - 1];
      ReplayValid(prefix);
      AddMatchWindows(Replay(prefix), o.won, o.surface, o.date);
      LastOfAppend(Results(prefix), ResultOf(o), MaxHistory);
    } else {
      FreshIsEmpty();
    }
  }

  /** Replaying leaves the log of surface `k` holding the latest 250 results
      on `k`, and the record of `k` counting every one of them, however many
      were evicted from the log. */
  lemma {:induction false} ReplayOn(outs: seq<Outcome>, k: string)
    ensures SurfaceLog(Replay(outs), k) == Last(ResultsOn(outs, k), MaxSurfaceHistory)
    ensures RecordOf(Replay(outs), k).matches == |ResultsOn(outs, k)|
  {
    if |outs| > 0 {
      var prefix := outs[..|outs| - 1];
      var o := outs[|outs| - 1];
      var h := Replay(prefix);
      var r := ResultOf(o);
      ReplayOn(prefix, k);
      if k == r.surface {
        ReplayValid(prefix);
        AddMatchWindows(h, o.won, o.surface, o.date);
        LastOfAppend(ResultsOn(prefix, k), r, MaxSurfaceHistory);
        assert ResultsOn(outs, k) == ResultsOn(prefix, k) + [r];
      } else {
        assert ResultsOn(outs, k) == ResultsOn(prefix, k);
      }
    } else {
      FreshIsEmpty();
    }
  }

  // ---------------------------------------------------------------------
  // Recency-weighted form

  /** Σ_{i<k} 0.95^i: the total weight of a window of k results. */
  function DecayWeight(k: nat): real {
    if k == 0 then 0.0 else DecayWeight(k - 1) + Pow(TimeDecay, k - 1)
  }

  /** Σ_{i<k} 0.95^i · won_i, where i = 0 is the most recent result. */
  function DecayedWins(log: seq<MatchResult>, k: nat): real
    requires k <= |log|
  {
    if k == 0 then 0.0
    else DecayedWins(log, k - 1) + (if log[|log| - k].won then Pow(TimeDecay, k - 1) else 0.0)
  }

  lemma {:induction false} DecayBounds(log: seq<MatchResult>, k: nat)
    requires k <= |log|
    ensures 0.0 <= DecayedWins(log, k) <= DecayWeight(k)
    ensures k > 0 ==> DecayWeight(k) > 0.0
    ensures (forall i :: |log| - k <= i < |log| ==> log[i].won) ==> DecayedWins(log, k) == DecayWeight(k)
    ensures (forall i :: |log| - k <= i < |log| ==> !log[i].won) ==> DecayedWins(log, k) == 0.0
  {
    if k > 0 {
      DecayBounds(log, k - 1);
      PowUnitInterval(TimeDecay, k - 1);
    }
  }

  /** The number of entries a window of `n` covers in a log of `size`:
      `Math.min(n, size)`, with a non-positive window covering nothing. */
  function WindowSize(n: int, size: nat): (k: nat)
    ensures k <= size
    ensures n > 0 && size > 0 ==> k > 0
  {
    if n <= 0 then 0 else if n < size then n else size
  }

  /** The recency-weighted win rate of the latest `n` entries of `log`. */
  function WeightedForm(log: seq<MatchResult>, n: int): (r: real)
    ensures 0.0 <= r <= 1.0
    ensures |log| == 0 || n <= 0 ==> r == 0.5
    ensures n > 0 && |log| > 0 && (forall i :: |log| - WindowSize(n, |log|) <= i < |log| ==> log[i].won) ==> r == 1.0
    ensures n > 0 && |log| > 0 && (forall i :: |log| - WindowSize(n, |log|) <= i < |log| ==> !log[i].won) ==> r == 0.0
  {
    if |log| == 0 then 0.5
    else
      var k := WindowSize(n, |log|);
      DecayBounds(log, k);
      var total := DecayWeight(k);
      if total > 0.0 then
        FractionBounds(DecayedWins(log, k), total);
        DecayedWins(log, k) / total
      else 0.5
  }

  /** The form loop as `getRecentForm` and `getSurfaceForm` run it: walk
      back from the most recent entry, accumulating the weight 0.95^i and
      the weight of each win. */
  method ComputeWeightedForm(log: seq<MatchResult>, n: int) returns (r: real)
    ensures r == WeightedForm(log, n)
  {
    if |log| == 0 {
      return 0.5;
    }
    var weightedWins := 0.0;
    var totalWeight := 0.0;
    var matches := if n < |log| then n else |log|;
    var i := 0;
    while i < matches
      invariant 0 <= i <= |log|
      invariant i <= WindowSize(n, |log|)
      invariant totalWeight == DecayWeight(i)
      invariant weightedWins == DecayedWins(log, i)
    {
      var index := |log| - 1 - i;
      var weight := Pow(TimeDecay, i);
      totalWeight := totalWeight + weight;
      if log[index].won {
        weightedWins := weightedWins + weight;
      }
      i := i + 1;
    }
    assert i == WindowSize(n, |log|);
    r := if totalWeight > 0.0 then weightedWins / totalWeight else 0.5;
  }

  /** Form over the latest `n` results on any surface: a fraction, 0.5
      with no results or a non-positive window, 1 when every result in the
      window is a win and 0 when every one is a loss. */
  function RecentForm(h: PlayerHistory, n: int): (r: real)
    ensures 0.0 <= r <= 1.0
    ensures |h.matchHistory| == 0 || n <= 0 ==> r == 0.5
    ensures var log := h.matchHistory;
      n > 0 && |log| > 0 && (forall i :: |log| - WindowSize(n, |log|) <= i < |log| ==> log[i].won) ==> r == 1.0
    ensures var log := h.matchHistory;
      n > 0 && |log| > 0 && (forall i :: |log| - WindowSize(n, |log|) <= i < |log| ==> !log[i].won) ==> r == 0.0
  {
    WeightedForm(h.matchHistory, n)
  }

  /** Form over the latest `n` results on the (normalised) surface: a
      fraction, 0.5 for a surface never played, the same for a missing or
      empty surface name as for "Hard", and 1 or 0 when the window holds
      only wins or only losses. */
  function SurfaceForm(h: PlayerHistory, surface: Option<string>, n: int): (r: real)
    ensures 0.0 <= r <= 1.0
    ensures |SurfaceLog(h, NormalizeSurface(surface))| == 0 || n <= 0 ==> r == 0.5
    ensures surface.None? || surface.value == "" ==> r == WeightedForm(SurfaceLog(h, DefaultSurface), n)
    ensures var log := SurfaceLog(h, NormalizeSurface(surface));
      n > 0 && |log| > 0 && (forall i :: |log| - WindowSize(n, |log|) <= i < |log| ==> log[i].won) ==> r == 1.0
    ensures var log := SurfaceLog(h, NormalizeSurface(surface));
      n > 0 && |log| > 0 && (forall i :: |log| - WindowSize(n, |log|) <= i < |log| ==> !log[i].won) ==> r == 0.0
  {
    WeightedForm(SurfaceLog(h, NormalizeSurface(surface)), n)
  }

  // ---------------------------------------------------------------------
  // Surface ratings

  /** The rating on the (normalised) surface: a missing or empty name
      reads the "Hard" rating, and a surface without a stored rating reads
      1500. */
  function SurfaceElo(h: PlayerHistory, surface: Option<string>): (r: real)
    ensures surface.None? || surface.value == "" ==>
      r == (if DefaultSurface in h.surfaceElo then h.surfaceElo[DefaultSurface] else BaseElo)
    ensures NormalizeSurface(surface) !in h.surfaceElo ==> r == BaseElo
    ensures surface.Some? && surface.value != "" && surface.value in h.surfaceElo ==> r == h.surfaceElo[surface.value]
  {
    var k := NormalizeSurface(surface);
    if k in h.surfaceElo then h.surfaceElo[k] else BaseElo
  }

  /** Stores exactly `value` (no clamping) as the rating of the normalised
      surface, and changes nothing else. */
  function UpdateSurfaceElo(h: PlayerHistory, surface: Option<string>, value: real): (h': PlayerHistory)
    ensures SurfaceElo(h', surface) == value
    ensures forall s :: NormalizeSurface(s) != NormalizeSurface(surface) ==> SurfaceElo(h', s) == SurfaceElo(h, s)
    ensures h'.matchHistory == h.matchHistory && h'.surfaceHistory == h.surfaceHistory
    ensures h'.surfaceRecords == h.surfaceRecords
  {
    h.(surfaceElo := h.surfaceElo[NormalizeSurface(surface) := value])
  }

  /** Every stored rating back to 1500; the set of rated surfaces is kept. */
  function ResetEloRatings(h: PlayerHistory): (h': PlayerHistory)
    ensures forall s :: SurfaceElo(h', s) == BaseElo
    ensures h'.surfaceElo.Keys == h.surfaceElo.Keys
    ensures h'.matchHistory == h.matchHistory && h'.surfaceHistory == h.surfaceHistory
    ensures h'.surfaceRecords == h.surfaceRecords
  {
    h.(surfaceElo := map k | k in h.surfaceElo :: BaseElo)
  }

  /** A confidence scalar for the surface rating: min(1, n/50) for n results
      in the surface log, 0 with none. The surface name is looked up as
      given, without normalisation. */
  function SurfaceEloReliability(h: PlayerHistory, surface: Option<string>): (r: real)
    ensures 0.0 <= r <= 1.0
    ensures surface.None? ==> r == 0.0
    ensures surface.Some? ==> (r == 0.0 <==> |SurfaceLog(h, surface.value)| == 0)
    ensures surface.Some? && |SurfaceLog(h, surface.value)| >= 50 ==> r == 1.0
    ensures surface.Some? && 0 < |SurfaceLog(h, surface.value)| < 50 ==>
      r * ReliabilityPlateau == |SurfaceLog(h, surface.value)| as real
  {
    match surface
    case None => 0.0
    case Some(k) =>
      if k !in h.surfaceHistory || |h.surfaceHistory[k]| == 0 then 0.0
      else MinReal(1.0, (|h.surfaceHistory[k]| as real) / ReliabilityPlateau)
  }

  /** Adding a result never lowers the reliability of its surface, and leaves
      every other surface's reliability as it was. */
  lemma ReliabilityMonotone(h: PlayerHistory, won: bool, surface: Option<string>, date: Option<Int32>)
    requires Valid(h)
    ensures var k := NormalizeSurface(surface);
      SurfaceEloReliability(AddMatch(h, won, surface, date), Some(k)) >= SurfaceEloReliability(h, Some(k))
    ensures forall s :: s != Some(NormalizeSurface(surface)) ==>
      SurfaceEloReliability(AddMatch(h, won, surface, date), s) == SurfaceEloReliability(h, s)
  {
    var h' := AddMatch(h, won, surface, date);
    var k := NormalizeSurface(surface);
    assert |SurfaceLog(h', k)| >= |SurfaceLog(h, k)|;
    assert |SurfaceLog(h', k)| > 0;
  }

  // ---------------------------------------------------------------------
  // Counts and windows

  function CountWins(log: seq<MatchResult>): (n: nat)
    ensures n <= |log|
  {
    if |log| == 0 then 0 else CountWins(log[..|log| - 1]) + (if log[|log| - 1].won then 1 else 0)
  }

  /** The number of results kept in the log: every result until the log
      reaches its cap of 500. */
  function TotalMatches(h: PlayerHistory): (n: nat)
    ensures Valid(h) ==> n <= MaxHistory
  {
    |h.matchHistory|
  }

  /** The number of wins among the kept results: no more than the results,
      all of them exactly when every kept result is a win, and none exactly
      when every one is a loss. */
  function TotalWins(h: PlayerHistory): (n: nat)
    ensures n <= TotalMatches(h)
    ensures n == TotalMatches(h) <==> forall i :: 0 <= i < |h.matchHistory| ==> h.matchHistory[i].won
    ensures n == 0 <==> forall i :: 0 <= i < |h.matchHistory| ==> !h.matchHistory[i].won
  {
    CountWinsExtremes(h.matchHistory);
    CountWins(h.matchHistory)
  }

  /** All results are wins exactly when the win count is the length, and
      all are losses exactly when it is zero. */
  lemma {:induction false} CountWinsExtremes(log: seq<MatchResult>)
    ensures CountWins(log) == |log| <==> forall i :: 0 <= i < |log| ==> log[i].won
    ensures CountWins(log) == 0 <==> forall i :: 0 <= i < |log| ==> !log[i].won
  {
    if |log| > 0 {
      var prefix := log[..|log| - 1];
      CountWinsExtremes(prefix);
      assert forall i :: 0 <= i < |prefix| ==> prefix[i] == log[i];
    }
  }

  lemma TotalsBounded(h: PlayerHistory)
    requires Valid(h)
    ensures TotalWins(h) <= TotalMatches(h) <= MaxHistory
  {
  }

  /** Size of the surface log; the surface name is looked up as given, and
      a `null` name finds no log. On a valid history it is the surface
      record's count capped at 250. */
  function SurfaceMatches(h: PlayerHistory, surface: Option<string>): (n: nat)
    ensures surface.None? ==> n == 0
    ensures Valid(h) && surface.Some? ==> n == MinNat(RecordOf(h, surface.value).matches, MaxSurfaceHistory)
  {
    match surface
    case None => 0
    case Some(k) => |SurfaceLog(h, k)|
  }

  /** The wins in the surface log: none for a `null` name, and never more
      than the log holds. */
  function SurfaceWins(h: PlayerHistory, surface: Option<string>): (n: nat)
    ensures surface.None? ==> n == 0
    ensures n <= SurfaceMatches(h, surface)
  {
    match surface
    case None => 0
    case Some(k) => CountWins(SurfaceLog(h, k))
  }

  function SurfaceRecordFor(h: PlayerHistory, surface: Option<string>): SurfaceRecord {
    match surface
    case None => NewSurfaceRecord()
    case Some(k) => RecordOf(h, k)
  }

  /** The record is never trimmed while the log is: the log size is the
      record's match count capped at 250. */
  lemma SurfaceMatchesIsCappedRecord(h: PlayerHistory, surface: string)
    requires Valid(h)
    ensures SurfaceMatches(h, Some(surface)) == MinNat(SurfaceRecordFor(h, Some(surface)).matches, MaxSurfaceHistory)
    ensures SurfaceWins(h, Some(surface)) <= SurfaceMatches(h, Some(surface))
  {
  }

  /** The latest `count` results in chronological order. The start index
      `size - count` is an `int` subtraction: a negative `count` puts it
      past the end index, so `subList` throws an `IllegalArgumentException`,
      unless the subtraction wraps. */
  function RecentMatches(h: PlayerHistory, count: Int32): (r: Result<seq<MatchResult>, HistoryError>)
    requires |h.matchHistory| <= IntMax
    ensures |h.matchHistory| == 0 ==> r == Success([])
    ensures count >= 0 ==> r == Success(Last(h.matchHistory, count as nat))
    ensures |h.matchHistory| > 0 && count < 0 && |h.matchHistory| - count <= IntMax ==> r == Failure(IllegalArgument)
    ensures |h.matchHistory| > 0 && |h.matchHistory| - count > IntMax ==> r == Success(h.matchHistory)
  {
    var log := h.matchHistory;
    if |log| == 0 then Success([])
    else
      var start := Wrap32(|log| - count);
      var fromIndex := if start < 0 then 0 else start;
      if fromIndex > |log| then Failure(IllegalArgument)
      else Success(log[fromIndex..])
  }

  // ---------------------------------------------------------------------
  // Day differences

  /** `365·year + 30·month + day` of a YYYYMMDD value, with Java's truncating
      division. */
  function DaySerial(d: Int32): (n: int)
    ensures -80000000 < n < 80000000
  {
    TruncDiv(d, 10000) * 365 + TruncRem(TruncDiv(d, 100), 100) * 30 + TruncRem(d, 100)
  }

  /** Approximate days from `date` to `currentDate`: 365 per year, 30 per
      month; 0 when either date is missing. */
  function DaysSince(date: Option<Int32>, currentDate: Option<Int32>): (d: int)
    ensures date.None? || currentDate.None? ==> d == 0
    ensures date.Some? && currentDate.Some? ==> d == DaySerial(currentDate.value) - DaySerial(date.value)
    ensures IsInt32(d)
  {
    if date.None? || currentDate.None? then 0
    else
      var c := currentDate.value;
      var m := date.value;
      var yearDiff := TruncDiv(c, 10000) - TruncDiv(m, 10000);
      var monthDiff := TruncRem(TruncDiv(c, 100), 100) - TruncRem(TruncDiv(m, 100), 100);
      var dayDiff := TruncRem(c, 100) - TruncRem(m, 100);
      yearDiff * 365 + monthDiff * 30 + dayDiff
  }

  lemma DaysSinceAntisymmetric(a: Option<Int32>, b: Option<Int32>)
    ensures DaysSince(a, b) == -DaysSince(b, a)
    ensures DaysSince(a, a) == 0
  {
  }

  /** Day differences chain: a→b plus b→c is a→c. */
  lemma DaysSinceChain(a: Int32, b: Int32, c: Int32)
    ensures DaysSince(Some(a), Some(b)) + DaysSince(Some(b), Some(c)) == DaysSince(Some(a), Some(c))
  {
  }

  /** A calendar date written as YYYYMMDD. */
  predicate IsCalendarDate(d: Int32) {
    d > 0 && 1 <= (d / 100) % 100 <= 12 && 1 <= d % 100 <= 31
  }

  /** On calendar dates the approximation never runs backwards: a later date
      is never reported as being in the past. */
  lemma DaysSinceOrdered(a: Int32, b: Int32)
    requires IsCalendarDate(a) && IsCalendarDate(b) && a <= b
    ensures DaysSince(Some(a), Some(b)) >= 0
  {
    var ya, ma, da := DateParts(a);
    var yb, mb, db := DateParts(b);
    SerialOrdered(ya, ma, da, yb, mb, db);
  }

  /** For valid month and day fields, a smaller YYYYMMDD number has a
      serial no larger. */
  lemma SerialOrdered(ya: int, ma: int, da: int, yb: int, mb: int, db: int)
    requires 1 <= ma <= 12 && 1 <= da <= 31 && 1 <= mb <= 12 && 1 <= db <= 31
    requires ya * 10000 + ma * 100 + da <= yb * 10000 + mb * 100 + db
    ensures ya * 365 + ma * 30 + da <= yb * 365 + mb * 30 + db
  {
    if ya < yb {
      assert (ya + 1) * 365 <= yb * 365;
    } else {
      assert ya == yb by {
        assert ya * 10000 < (yb + 1) * 10000;
      }
      if ma < mb {
        assert ma * 30 + da <= (ma + 1) * 30 + 1;
      }
    }
  }

  /** The year, month and day fields of a positive YYYYMMDD value. */
  lemma DateParts(d: Int32) returns (year: int, month: int, day: int)
    requires d > 0
    ensures d as int == year * 10000 + month * 100 + day
    ensures 0 <= month < 100 && 0 <= day < 100
    ensures month == (d / 100) % 100 && day == d % 100
    ensures DaySerial(d) == year * 365 + month * 30 + day
  {
    var q := d / 100;
    day := d % 100;
    year := q / 100;
    month := q % 100;
    assert d as int == q * 100 + day;
    assert q == year * 100 + month;
    assert TruncDiv(d, 100) == q;
    assert TruncDiv(q, 100) == year;
    assert TruncDiv(d, 10000) == year;
  }

  /** A fresh history reports the neutral defaults everywhere. */
  lemma FreshDefaults(surface: Option<string>, n: int)
    ensures RecentForm(Fresh(), n) == 0.5
    ensures SurfaceForm(Fresh(), surface, n) == 0.5
    ensures SurfaceElo(Fresh(), surface) == BaseElo
    ensures SurfaceEloReliability(Fresh(), surface) == 0.0
    ensures TotalMatches(Fresh()) == 0 && TotalWins(Fresh()) == 0
  {
    FreshIsEmpty();
  }
}

=== FILE: records.dfy ===
/** The two win/loss counters of the engine: a player's record on one surface
    (`SurfaceRecord`, counting matches and wins) and a player's record against
    one opponent (`HeadToHeadRecord`, counting wins and losses).

    Both only ever grow. Counts are unbounded naturals: the Java
    counters are `int`s, which would wrap after 2^31 - 1 results, and that wrap is
    not modelled.
 */
module Records {

  // ---------------------------------------------------------------------
  // SurfaceRecord

  datatype SurfaceRecord = SurfaceRecord(matches: nat, wins: nat)

  /** A record never counts more wins than matches. */
  predicate ValidSurfaceRecord(r: SurfaceRecord) {
    r.wins <= r.matches
  }

  /** A new record: no matches and no wins (see `NewSurfaceRecordIsEmpty`). */
  function NewSurfaceRecord(): (r: SurfaceRecord)
  {
    SurfaceRecord(0, 0)
  }

  /** A new record is valid, empty, and has the neutral rate 0.5. */
  lemma NewSurfaceRecordIsEmpty()
    ensures ValidSurfaceRecord(NewSurfaceRecord())
    ensures NewSurfaceRecord().matches == 0 && NewSurfaceRecord().wins == 0
    ensures SurfaceWinRate(NewSurfaceRecord()) == 0.5
  {
  }

  /** Records one match: always one more match, one more win only when won. */
  function AddSurfaceMatch(r: SurfaceRecord, won: bool): (r': SurfaceRecord)
    ensures ValidSurfaceRecord(r) ==> ValidSurfaceRecord(r')
    ensures r'.matches == r.matches + 1
    ensures won ==> r'.wins == r.wins + 1 && SurfaceLosses(r') == SurfaceLosses(r)
    ensures !won ==> r'.wins == r.wins && SurfaceLosses(r') == SurfaceLosses(r) + 1
  {
    SurfaceRecord(r.matches + 1, if won then r.wins + 1 else r.wins)
  }

  function SurfaceLosses(r: SurfaceRecord): (n: int)
    ensures ValidSurfaceRecord(r) ==> n >= 0
    ensures n + r.wins == r.matches
  {
    r.matches - r.wins
  }

  /** wins/matches, or the neutral 0.5 for an empty record. */
  function SurfaceWinRate(r: SurfaceRecord): (rate: real)
    ensures r.matches == 0 ==> rate == 0.5
    ensures ValidSurfaceRecord(r) ==> 0.0 <= rate <= 1.0
    ensures r.matches > 0 ==> rate * (r.matches as real) == r.wins as real
  {
    if r.matches > 0 then (r.wins as real) / (r.matches as real) else 0.5
  }

  /** The record after a sequence of results, oldest first. */
  function ReplaySurface(outcomes: seq<bool>): SurfaceRecord {
    if |outcomes| == 0 then NewSurfaceRecord()
    else AddSurfaceMatch(ReplaySurface(outcomes[..|outcomes| - 1]), outcomes[|outcomes| - 1])
  }

  function CountTrue(s: seq<bool>): (n: nat)
    ensures n <= |s|
  {
    if |s| == 0 then 0 else CountTrue(s[..|s| - 1]) + (if s[|s| - 1] then 1 else 0)
  }

  /** A record is exactly the tally of the results fed to it. */
  lemma {:induction false} ReplaySurfaceCounts(outcomes: seq<bool>)
    ensures ReplaySurface(outcomes).matches == |outcomes|
    ensures ReplaySurface(outcomes).wins == CountTrue(outcomes)
    ensures ValidSurfaceRecord(ReplaySurface(outcomes))
  {
    if |outcomes| > 0 {
      ReplaySurfaceCounts(outcomes[..|outcomes| - 1]);
    }
  }

  // ---------------------------------------------------------------------
  // HeadToHeadRecord

  /** One player's record against one opponent, from the first player's side. */
  datatype HeadToHeadRecord = HeadToHeadRecord(wins: nat, losses: nat)

  /** A new record: the pair has not met (see `NewHeadToHeadIsEmpty`). */
  function NewHeadToHead(): (r: HeadToHeadRecord)
  {
    HeadToHeadRecord(0, 0)
  }

  /** A new record has no wins, no losses and the neutral rate 0.5. */
  lemma NewHeadToHeadIsEmpty()
    ensures NewHeadToHead().wins == 0 && NewHeadToHead().losses == 0
    ensures TotalMatches(NewHeadToHead()) == 0
    ensures HeadToHeadWinRate(NewHeadToHead()) == 0.5
  {
  }

  /** A win increments only `wins`, a loss only `losses`. */
  function AddHeadToHeadMatch(r: HeadToHeadRecord, won: bool): (r': HeadToHeadRecord)
    ensures TotalMatches(r') == TotalMatches(r) + 1
    ensures won ==> r'.wins == r.wins + 1 && r'.losses == r.losses
    ensures !won ==> r'.wins == r.wins && r'.losses == r.losses + 1
  {
    if won then HeadToHeadRecord(r.wins + 1, r.losses) else HeadToHeadRecord(r.wins, r.losses + 1)
  }

  function TotalMatches(r: HeadToHeadRecord): nat {
    r.wins + r.losses
  }

  /** wins/total, or the neutral 0.5 when the pair never met. */
  function HeadToHeadWinRate(r: HeadToHeadRecord): (rate: real)
    ensures 0.0 <= rate <= 1.0
    ensures TotalMatches(r) == 0 ==> rate == 0.5
    ensures TotalMatches(r) > 0 ==> rate * (TotalMatches(r) as real) == r.wins as real
  {
    var total := r.wins + r.losses;
    if total > 0 then (r.wins as real) / (total as real) else 0.5
  }

  /** The two directions of one rivalry have complementary win rates. */
  lemma HeadToHeadRateComplement(a: HeadToHeadRecord, b: HeadToHeadRecord)
    requires a.wins == b.losses && a.losses == b.wins
    ensures HeadToHeadWinRate(a) + HeadToHeadWinRate(b) == 1.0
  {
    var n := TotalMatches(a);
    if n > 0 {
      assert HeadToHeadWinRate(a) == (a.wins as real) / (n as real);
      assert HeadToHeadWinRate(b) == (a.losses as real) / (n as real);
      assert (a.wins as real) + (a.losses as real) == n as real;
    }
  }

  /** Three wins and one loss give a rate of 0.75. */
  lemma ThreeToOneIsThreeQuarters()
    ensures HeadToHeadWinRate(HeadToHeadRecord(3, 1)) == 0.75
    ensures HeadToHeadWinRate(HeadToHeadRecord(1, 3)) == 0.25
  {
  }
}

=== FILE: training_data.dfy ===
/** Preparing the learner's training matrix from matches: one example per
    match with the winner as player 1 (label 1), and with symmetric
    augmentation a second one with the loser as player 1 (label 0); then
    every missing value replaced by its column's mean, and the rows laid
    out one after another in a flat array.

    The matrix is kept in `real`s; the narrowing to `float` is not
    modelled.
 */
module Training {
  import opened Optional
  import opened JavaNum
  import opened Analysis
  import opened Domain
  import opened Features
  import HistoryManager

  datatype TrainingError =
    | ExtractionFailed(cause: FeatureError)  // `extractFeatures` threw
    | NoFeatureVectors                       // `IllegalStateException`: no matches
    | ColumnOutOfRange                       // a row shorter than the first one

  /** One row of the training data and its label. */
  datatype Example = Example(vector: FeatureVector, target: real)

  /** Examples per match: two with augmentation, one without. */
  function Copies(augment: bool): nat {
    if augment then 2 else 1
  }

  /** Whether extraction succeeds for every view of a match the loop
      takes: the winner's, and with augmentation also the loser's. */
  predicate Extracts(extract: Extractor, m: Match, augment: bool) {
    extract(m, true).Success? && (augment ==> extract(m, false).Success?)
  }

  /** The examples of the loop over the matches, in order. The first match
      whose extraction throws ends the preparation with that exception. */
  function Examples(extract: Extractor, ms: seq<Match>, augment: bool): (r: Result<seq<Example>, FeatureError>)
    ensures r.Success? <==> forall k :: 0 <= k < |ms| ==> Extracts(extract, ms[k], augment)
    ensures r.Success? ==> |r.value| == Copies(augment) * |ms|
    decreases |ms|
  {
    if |ms| == 0 then Success([])
    else
      var n := |ms| - 1;
      var m := ms[n];
      assert forall k :: 0 <= k < n ==> ms[..n][k] == ms[k];
      match Examples(extract, ms[..n], augment)
      case Failure(e) => Failure(e)
      case Success(prev) =>
        var winnerFirst := extract(m, true);
        if winnerFirst.Failure? then Failure(winnerFirst.error)
        else
          var won := [Example(winnerFirst.value, 1.0)];
          if !augment then
            Success(prev + won)
          else
            var loserFirst := extract(m, false);
            if loserFirst.Failure? then Failure(loserFirst.error)
            else Success(prev + won + [Example(loserFirst.value, 0.0)])
  }

  /** The match example `i` comes from. */
  function MatchIndex(i: nat, augment: bool): nat {
    if augment then i / 2 else i
  }

  /** Whether example `i` has the winner as player 1. */
  predicate WinnerFirst(i: nat, augment: bool) {
    !augment || i % 2 == 0
  }

  /** Example `i` holds the features of its match seen from the winner's
      side with target 1, or, for the second example of an augmented
      match, from the loser's side with target 0. */
  lemma {:induction false} ExampleAt(extract: Extractor, ms: seq<Match>, augment: bool, i: nat)
    requires Examples(extract, ms, augment).Success? && i < |Examples(extract, ms, augment).value|
    ensures MatchIndex(i, augment) < |ms|
    ensures Examples(extract, ms, augment).value[i] ==
      Example(extract(ms[MatchIndex(i, augment)], WinnerFirst(i, augment)).value,
              if WinnerFirst(i, augment) then 1.0 else 0.0)
    decreases |ms|
  {
    var n := |ms| - 1;
    var prefix := ms[..n];
    var prev := Examples(extract, prefix, augment).value;
    assert forall k :: 0 <= k < n ==> prefix[k] == ms[k];
    if i < |prev| {
      ExampleAt(extract, prefix, augment, i);
      assert Examples(extract, ms, augment).value[i] == prev[i];
    }
  }

  /** With `FeatureExtractor`'s behaviour, preparation fails exactly when some
      match has a `null` key, and with augmentation the loser's view never
      fails on its own. */
  lemma ExamplesFailOnNullKey(extract: Extractor, ms: seq<Match>, augment: bool)
    requires BehavesAsExtractor(extract)
    ensures Examples(extract, ms, augment).Success? <==>
      forall k :: 0 <= k < |ms| ==> !NullKey(ms[k], ms[k].winner, ms[k].loser)
  {
    forall k | 0 <= k < |ms|
      ensures Extracts(extract, ms[k], augment) <==> !NullKey(ms[k], ms[k].winner, ms[k].loser)
    {
      assert extract(ms[k], true).Failure? <==> NullKey(ms[k], ms[k].winner, ms[k].loser);
      assert extract(ms[k], false).Failure? <==> NullKey(ms[k], ms[k].loser, ms[k].winner);
    }
  }

  /** Symmetric augmentation adds, for every match, the positive example
      of the match with its sides exchanged, with the opposite target. */
  lemma AugmentedIsSwapped(extract: Extractor, ms: seq<Match>, k: nat)
    requires BehavesAsExtractor(extract)
    requires Examples(extract, ms, true).Success? && k < |ms|
    ensures Examples(extract, ms, true).value[2 * k + 1] == Example(extract(SwapSides(ms[k]), true).value, 0.0)
    ensures Examples(extract, ms, true).value[2 * k].target + Examples(extract, ms, true).value[2 * k + 1].target == 1.0
  {
    AugmentedPair(extract, ms, k);
    assert extract(ms[k], false) == extract(SwapSides(ms[k]), true);
  }

  /** With augmentation, match `k` gives example `2k` from the winner's
      side with target 1 and example `2k + 1` from the loser's side with
      target 0. */
  lemma AugmentedPair(extract: Extractor, ms: seq<Match>, k: nat)
    requires Examples(extract, ms, true).Success? && k < |ms|
    ensures Examples(extract, ms, true).value[2 * k] == Example(extract(ms[k], true).value, 1.0)
    ensures Examples(extract, ms, true).value[2 * k + 1] == Example(extract(ms[k], false).value, 0.0)
  {
    var ex := Examples(extract, ms, true).value;
    assert |ex| == 2 * |ms| by {
      AugmentedLength(|ms|, |ex|);
    }
    PairedIndices(k);
    ExampleAt(extract, ms, true, 2 * k);
    ExampleAt(extract, ms, true, 2 * k + 1);
  }

  /** With augmentation there are two examples per match. */
  lemma AugmentedLength(n: nat, len: nat)
    requires len == Copies(true) * n
    ensures len == 2 * n
  {
  }

  /** With augmentation, examples `2k` and `2k + 1` both come from match
      `k`: the first from the winner's side, the second from the loser's. */
  lemma PairedIndices(k: nat)
    ensures MatchIndex(2 * k, true) == k && WinnerFirst(2 * k, true)
    ensures MatchIndex(2 * k + 1, true) == k && !WinnerFirst(2 * k + 1, true)
  {
  }

  // ---------------------------------------------------------------------
  // Column means over the present values

  /** Every row has at least `n` columns. */
  predicate Wide(rows: seq<seq<Value>>, n: nat) {
    forall i :: 0 <= i < |rows| ==> n <= |rows[i]|
  }

  /** How many rows have a value (not NaN) in column `c`. */
  function PresentCount(rows: seq<seq<Value>>, c: nat): (k: nat)
    requires Wide(rows, c + 1)
    ensures k <= |rows|
  {
    if |rows| == 0 then 0
    else PresentCount(rows[..|rows| - 1], c) + (if rows[|rows| - 1][c].Some? then 1 else 0)
  }

  /** The sum of the values present in column `c`. */
  function PresentSum(rows: seq<seq<Value>>, c: nat): (s: real)
    requires Wide(rows, c + 1)
  {
    if |rows| == 0 then 0.0
    else
      var last := rows[|rows| - 1][c];
      PresentSum(rows[..|rows| - 1], c) + (if last.Some? then last.value else 0.0)
  }

  /** A column with no value present sums to zero. */
  lemma {:induction false} NothingPresentSumsToZero(rows: seq<seq<Value>>, c: nat)
    requires Wide(rows, c + 1) && PresentCount(rows, c) == 0
    ensures PresentSum(rows, c) == 0.0
  {
    if |rows| > 0 {
      var prefix := rows[..|rows| - 1];
      assert forall i :: 0 <= i < |prefix| ==> prefix[i] == rows[i];
      NothingPresentSumsToZero(prefix, c);
    }
  }

  /** The mean of the values present in column `c`; 0 when there are none. */
  function ColumnMean(rows: seq<seq<Value>>, c: nat): real
    requires Wide(rows, c + 1)
  {
    var k := PresentCount(rows, c);
    if k > 0 then PresentSum(rows, c) / (k as real) else 0.0
  }

  /** One more row keeps the column's present sum between count·lo and
      count·hi. */
  lemma PresentStep(rows: seq<seq<Value>>, c: nat, lo: real, hi: real)
    requires Wide(rows, c + 1) && |rows| > 0
    requires var prefix := rows[..|rows| - 1];
      lo * (PresentCount(prefix, c) as real) <= PresentSum(prefix, c) <= hi * (PresentCount(prefix, c) as real)
    requires rows[|rows| - 1][c].Some? ==> lo <= rows[|rows| - 1][c].value <= hi
    ensures lo * (PresentCount(rows, c) as real) <= PresentSum(rows, c) <= hi * (PresentCount(rows, c) as real)
  {
    var prefix := rows[..|rows| - 1];
    var last := rows[|rows| - 1][c];
    MaybeAddWithin(PresentCount(prefix, c) as real, PresentSum(prefix, c), last.Some?, if last.Some? then last.value else 0.0,
                   lo, hi, PresentCount(rows, c) as real, PresentSum(rows, c));
  }

  /** Sums of values within [lo, hi] are within count·lo and count·hi. */
  lemma {:induction false} PresentSumBounds(rows: seq<seq<Value>>, c: nat, lo: real, hi: real)
    requires Wide(rows, c + 1)
    requires forall i :: 0 <= i < |rows| && rows[i][c].Some? ==> lo <= rows[i][c].value <= hi
    ensures lo * (PresentCount(rows, c) as real) <= PresentSum(rows, c) <= hi * (PresentCount(rows, c) as real)
  {
    if |rows| > 0 {
      var prefix := rows[..|rows| - 1];
      assert forall i :: 0 <= i < |prefix| ==> prefix[i] == rows[i];
      PresentSumBounds(prefix, c, lo, hi);
      PresentStep(rows, c, lo, hi);
    }
  }

  /** The column mean lies between the smallest and the largest value
      present in the column. */
  lemma ColumnMeanWithin(rows: seq<seq<Value>>, c: nat, lo: real, hi: real)
    requires Wide(rows, c + 1) && PresentCount(rows, c) > 0
    requires forall i :: 0 <= i < |rows| && rows[i][c].Some? ==> lo <= rows[i][c].value <= hi
    ensures lo <= ColumnMean(rows, c) <= hi
  {
    PresentSumBounds(rows, c, lo, hi);
    var sum, count := PresentSum(rows, c), PresentCount(rows, c) as real;
    assert count > 0.0;
    assert lo * count <= sum <= hi * count;
    MeanBounds(sum, count, lo, hi);
  }

  /** The means of the first `n` columns. */
  function ColumnMeans(rows: seq<seq<Value>>, n: nat): (means: seq<real>)
    requires Wide(rows, n)
    ensures |means| == n
    ensures forall c :: 0 <= c < n ==> means[c] == ColumnMean(rows, c)
  {
    seq(n, c requires 0 <= c < n => ColumnMean(rows, c))
  }

  /** One row with every NaN replaced by its column's mean. */
  function ImputeRow(row: seq<Value>, means: seq<real>): (r: seq<real>)
    requires |means| <= |row|
    ensures |r| == |means|
    ensures forall c :: 0 <= c < |means| ==> r[c] == row[c].GetOr(means[c])
  {
    seq(|means|, c requires 0 <= c < |means| => row[c].GetOr(means[c]))
  }

  function ImputeAll(rows: seq<seq<Value>>, means: seq<real>): (m: seq<seq<real>>)
    requires Wide(rows, |means|)
    ensures |m| == |rows|
    ensures forall i :: 0 <= i < |rows| ==> m[i] == ImputeRow(rows[i], means)
  {
    seq(|rows|, i requires 0 <= i < |rows| => ImputeRow(rows[i], means))
  }

  /** `imputeMissingValues`: a row shorter than `numCols` makes the array
      access throw; otherwise every value present is kept and every
      missing one becomes the mean of the values present in its column. */
  function Impute(rows: seq<seq<Value>>, numCols: nat): (r: Result<seq<seq<real>>, TrainingError>)
    ensures r.Failure? <==> !Wide(rows, numCols)
    ensures r.Failure? ==> r.error == ColumnOutOfRange
    ensures r.Success? ==> |r.value| == |rows|
    ensures r.Success? ==> forall i :: 0 <= i < |rows| ==> |r.value[i]| == numCols
    ensures r.Success? ==> forall i, c :: 0 <= i < |rows| && 0 <= c < numCols ==>
      (rows[i][c].Some? ==> r.value[i][c] == rows[i][c].value)
      && (rows[i][c].None? ==> r.value[i][c] == ColumnMean(rows, c))
  {
    if !Wide(rows, numCols) then Failure(ColumnOutOfRange)
    else Success(ImputeAll(rows, ColumnMeans(rows, numCols)))
  }

  /** The total of column `c` of a matrix of reals. */
  function ColumnTotal(m: seq<seq<real>>, c: nat): real
    requires forall i :: 0 <= i < |m| ==> c < |m[i]|
  {
    if |m| == 0 then 0.0 else ColumnTotal(m[..|m| - 1], c) + m[|m| - 1][c]
  }

  /** The total of column `c` once its gaps hold `mu`. */
  function FilledTotal(rows: seq<seq<Value>>, c: nat, mu: real): real
    requires Wide(rows, c + 1)
  {
    if |rows| == 0 then 0.0 else FilledTotal(rows[..|rows| - 1], c, mu) + rows[|rows| - 1][c].GetOr(mu)
  }

  /** Filling the gaps of a column with a fixed value adds that value once
      per gap to the sum of the values present. */
  lemma {:induction false} FilledTotalSplits(rows: seq<seq<Value>>, c: nat, mu: real)
    requires Wide(rows, c + 1)
    ensures FilledTotal(rows, c, mu) == PresentSum(rows, c) + ((|rows| - PresentCount(rows, c)) as real) * mu
  {
    if |rows| > 0 {
      var n := |rows| - 1;
      var prefix := rows[..n];
      assert forall i :: 0 <= i < |prefix| ==> prefix[i] == rows[i];
      FilledTotalSplits(prefix, c, mu);
      var gaps := (n - PresentCount(prefix, c)) as real;
      if rows[n][c].None? {
        assert (gaps + 1.0) * mu == gaps * mu + mu;
      }
    }
  }

  /** A column of the imputed matrix is the column with its gaps filled by
      that column's mean. */
  lemma {:induction false} ImputedColumnIsFilled(rows: seq<seq<Value>>, means: seq<real>, c: nat)
    requires Wide(rows, |means|) && c < |means|
    ensures ColumnTotal(ImputeAll(rows, means), c) == FilledTotal(rows, c, means[c])
  {
    if |rows| > 0 {
      var n := |rows| - 1;
      var prefix := rows[..n];
      assert forall i :: 0 <= i < |prefix| ==> prefix[i] == rows[i];
      var full := ImputeAll(rows, means);
      assert full[..n] == ImputeAll(prefix, means);
      ImputedColumnIsFilled(prefix, means, c);
    }
  }

  /** Imputation does not move a column's mean: the imputed column sums to
      the number of rows times the mean of the values that were present. */
  lemma ImputeKeepsColumnMean(rows: seq<seq<Value>>, numCols: nat, c: nat)
    requires Impute(rows, numCols).Success? && c < numCols
    ensures ColumnTotal(Impute(rows, numCols).value, c) == (|rows| as real) * ColumnMean(rows, c)
  {
    var means := ColumnMeans(rows, numCols);
    assert Impute(rows, numCols).value == ImputeAll(rows, means);
    var mu := means[c];
    assert mu == ColumnMean(rows, c);
    ImputedColumnIsFilled(rows, means, c);
    FilledTotalSplits(rows, c, mu);
    var k := PresentCount(rows, c);
    var sum := PresentSum(rows, c);
    if k == 0 {
      NothingPresentSumsToZero(rows, c);
    }
    RefillByMean(sum, k, |rows|, mu);
  }

  /** Filling the `n - k` gaps with the mean of the `k` present values
      gives `n` times that mean. */
  lemma RefillByMean(sum: real, k: nat, n: nat, mu: real)
    requires k <= n
    requires k > 0 ==> mu == sum / (k as real)
    requires k == 0 ==> sum == 0.0 && mu == 0.0
    ensures sum + ((n - k) as real) * mu == (n as real) * mu
  {
    if k > 0 {
      assert mu * (k as real) == sum;
    }
  }

  // ---------------------------------------------------------------------
  // Row-major flattening

  /** The rows laid end to end. */
  function Concat(m: seq<seq<real>>): seq<real> {
    if |m| == 0 then [] else m[0] + Concat(m[1..])
  }

  predicate Rectangular(m: seq<seq<real>>, numCols: nat) {
    forall i :: 0 <= i < |m| ==> |m[i]| == numCols
  }

  /** Row `i` of a row-major array with `numCols` columns: skip `i` rows,
      take one; empty when the array is too short. */
  function RowAt(flat: seq<real>, numCols: nat, i: nat): seq<real> {
    if |flat| < numCols then []
    else if i == 0 then flat[..numCols]
    else RowAt(flat[numCols..], numCols, i - 1)
  }

  /** Appending a row to the matrix appends it to the flat array. */
  lemma {:induction false} ConcatSnoc(m: seq<seq<real>>, row: seq<real>)
    ensures Concat(m + [row]) == Concat(m) + row
  {
    if |m| == 0 {
      assert Concat([row]) == row + Concat([]);
    } else {
      assert (m + [row])[1..] == m[1..] + [row];
      ConcatSnoc(m[1..], row);
    }
  }

  /** A rectangular matrix flattens to rows · columns values. */
  lemma {:induction false} ConcatLength(m: seq<seq<real>>, numCols: nat)
    requires Rectangular(m, numCols)
    ensures |Concat(m)| == |m| * numCols
  {
    if |m| > 0 {
      ConcatLength(m[1..], numCols);
      assert |m| * numCols == numCols + (|m| - 1) * numCols;
    }
  }

  /** Reading the flat array back row by row recovers the matrix. */
  lemma {:induction false} ConcatRowAt(m: seq<seq<real>>, numCols: nat, i: nat)
    requires Rectangular(m, numCols) && i < |m|
    ensures RowAt(Concat(m), numCols, i) == m[i]
  {
    var flat := Concat(m);
    assert flat[..numCols] == m[0];
    if i > 0 {
      assert flat[numCols..] == Concat(m[1..]);
      ConcatRowAt(m[1..], numCols, i - 1);
    }
  }

  /** The `System.arraycopy` loop: row after row into one array. */
  method Flatten(m: seq<seq<real>>, numCols: nat) returns (flat: seq<real>)
    requires Rectangular(m, numCols)
    ensures |flat| == |m| * numCols
    ensures forall i :: 0 <= i < |m| ==> RowAt(flat, numCols, i) == m[i]
  {
    flat := [];
    var i := 0;
    while i < |m|
      invariant 0 <= i <= |m|
      invariant flat == Concat(m[..i])
    {
      ConcatSnoc(m[..i], m[i]);
      assert m[..i] + [m[i]] == m[..i + 1];
      flat := flat + m[i];
      i := i + 1;
    }
    assert m[..|m|] == m;
    ConcatLength(m, numCols);
    forall i | 0 <= i < |m|
      ensures RowAt(flat, numCols, i) == m[i]
    {
      ConcatRowAt(m, numCols, i);
    }
  }

  // ---------------------------------------------------------------------
  // The whole preparation

  /** What `DMatrix` is built from: the flat data, its shape, and the
      labels. */
  datatype TrainingMatrix = TrainingMatrix(data: seq<real>, numRows: nat, numCols: nat, labels: seq<real>)

  function Vectors(examples: seq<Example>): (rows: seq<seq<Value>>)
    ensures |rows| == |examples|
    ensures forall i :: 0 <= i < |examples| ==> rows[i] == examples[i].vector.features
  {
    seq(|examples|, i requires 0 <= i < |examples| => examples[i].vector.features)
  }

  function Labels(examples: seq<Example>): (ls: seq<real>)
    ensures |ls| == |examples|
    ensures forall i :: 0 <= i < |examples| ==> ls[i] == examples[i].target
  {
    seq(|examples|, i requires 0 <= i < |examples| => examples[i].target)
  }

  /** Extraction succeeds, and some example has fewer features than the
      first one, which sets the column count. */
  predicate HasNarrowRow(extract: Extractor, ms: seq<Match>, augment: bool) {
    && Examples(extract, ms, augment).Success?
    && |Examples(extract, ms, augment).value| > 0
    && var examples := Examples(extract, ms, augment).value;
       !Wide(Vectors(examples), |examples[0].vector.features|)
  }

  /** `prepareDMatrix`: the examples, then a column count taken from the
      first row, then imputation and flattening. */
  method PrepareMatrix(extract: Extractor, ms: seq<Match>, augment: bool)
    returns (r: Result<TrainingMatrix, TrainingError>)
    ensures Examples(extract, ms, augment).Failure? <==> r.Failure? && r.error.ExtractionFailed?
    ensures r == Failure(NoFeatureVectors) <==> Examples(extract, ms, augment).Success? && |ms| == 0
    ensures r == Failure(ColumnOutOfRange) ==> |ms| > 0
    ensures r == Failure(ColumnOutOfRange) <==> HasNarrowRow(extract, ms, augment)
    ensures r.Success? ==>
      var examples := Examples(extract, ms, augment).value;
      && r.value.numRows == Copies(augment) * |ms| > 0
      && r.value.numCols == |examples[0].vector.features|
      && r.value.labels == Labels(examples)
      && |r.value.data| == r.value.numRows * r.value.numCols
      && Impute(Vectors(examples), r.value.numCols).Success?
      && forall i :: 0 <= i < r.value.numRows ==>
           RowAt(r.value.data, r.value.numCols, i) == Impute(Vectors(examples), r.value.numCols).value[i]
  {
    var ex := Examples(extract, ms, augment);
    if ex.Failure? {
      return Failure(ExtractionFailed(ex.error));
    }
    var examples := ex.value;
    if |examples| == 0 {
      return Failure(NoFeatureVectors);
    }
    var numRows := |examples|;
    var numCols := |examples[0].vector.features|;
    var imputed := Impute(Vectors(examples), numCols);
    if imputed.Failure? {
      return Failure(imputed.error);
    }
    var data := Flatten(imputed.value, numCols);
    r := Success(TrainingMatrix(data, numRows, numCols, Labels(examples)));
  }

  /** When every match carries serve statistics for both sides, as every
      loaded match does, every row has the full 55 features, so no row is
      short and the matrix has 55 columns. */
  lemma FullRowsWithStats(extract: Extractor, ms: seq<Match>, augment: bool)
    requires BehavesAsExtractor(extract)
    requires |ms| > 0 && Examples(extract, ms, augment).Success?
    requires forall k :: 0 <= k < |ms| ==> BothStats(ms[k])
    ensures var examples := Examples(extract, ms, augment).value;
      |examples[0].vector.features| == 55 && Impute(Vectors(examples), 55).Success?
  {
    var examples := Examples(extract, ms, augment).value;
    forall i | 0 <= i < |examples|
      ensures |examples[i].vector.features| == 55
    {
      ExampleAt(extract, ms, augment, i);
      var k := MatchIndex(i, augment);
      assert examples[i].vector == extract(ms[k], WinnerFirst(i, augment)).value;
    }
  }

  /** A matrix begun by a match without statistics has 39 columns, and
      position 36 there is the ranking feature `rank_diff_log`, while in a
      row with statistics it holds `p1_aces`: mixing the two kinds of
      match misaligns the columns. */
  lemma MixedStatsMisalign()
    ensures Layout(false)[36] == "rank_diff_log" && Layout(true)[36] == "p1_aces"
  {
  }

  // ---------------------------------------------------------------------
  // Feature names

  /** The match an empty builder produces: every field `null`. The builder
      leaves the two players `null` as well; here they are players whose
      every field is `null`. No caller can tell the difference, because
      encoding the `null` surface throws before either player is read. */
  const EmptyMatch: Match := Match(None, None, None, None, None, None, None, None, None, None, None,
    Player(None, None, None, None, None, None, None, None, None, None),
    Player(None, None, None, None, None, None, None, None, None, None),
    None, None)

  /** `getFeatureNames` as written: the names of the features of an empty
      match. It fails exactly when extracting them meets a `null` key, and
      would otherwise give the 39 names of a row without statistics. The
      empty match's surface is `null`, so it always fails. */
  function FeatureNamesAsWritten(t: Transcendentals, reg: HistoryManager.Registry): (r: Result<seq<string>, FeatureError>)
    ensures r.Failure? <==> NullKey(EmptyMatch, EmptyMatch.winner, EmptyMatch.loser)
    ensures r.Success? ==> r.value == Layout(false)
  {
    match ExtractFeatures(t, reg, EmptyMatch, true)
    case Success(fv) => Success(fv.names)
    case Failure(e) => Failure(e)
  }

  lemma FeatureNamesAlwaysThrow(t: Transcendentals, reg: HistoryManager.Registry)
    ensures FeatureNamesAsWritten(t, reg) == Failure(NullPointer)
  {
  }

  /** The names of the training matrix's columns when the matches carry
      statistics, which is the case for every loaded match. */
  function FeatureNames(): (ns: seq<string>)
    ensures |ns| == 55
  {
    Layout(true)
  }

  /** Every extractable match with statistics yields exactly these names,
      in this order, whichever side is player 1. */
  lemma FeatureNamesMatchRows(t: Transcendentals, reg: HistoryManager.Registry, m: Match, player1IsWinner: bool)
    requires !NullKey(m, m.winner, m.loser) && BothStats(m)
    ensures ExtractFeatures(t, reg, m, player1IsWinner).Success?
    ensures ExtractFeatures(t, reg, m, player1IsWinner).value.names == FeatureNames()
  {
  }
}
